=== FILE: README.md ===
# Wind-weather backend core, modelled in Dafny

This project models the rule engines of a NestJS backend that serves wind
forecasts from the OpenWeather API. It covers:

- the three pieces that coordinate upstream traffic:
  - the fixed-window **rate limiter** (`consume`, `consumeMulti`);
  - the **in-flight request deduplicator** (`InflightRequestsService.run`);
  - the **stale-while-revalidate cache** (`CacheSwrService.getOrRevalidate`);
- the **weather service** that builds cache keys, charges the limiter, checks
  and shapes provider answers, and maps errors;
- the two **weather transformers**: the 16-point and 8-point compasses, and the
  daily summaries;
- the **forecast query DTO** coercions and validation;
- the **location autocomplete** ranking;
- the **favourite-locations** rules and their controller's UUID v4 header check;
- the **global exception filter** and the API exception classes;
- the **HTTP cache interceptor** key.

Everything is a pure function over immutable values. The clock is a `now`
parameter. The key-value store (Redis or the in-memory cache) is a map from
key to value and expiry instant. Upstream replies (axios results, the geocoding
answer, the favourites' weather) are supplied as inputs. Promises become
tickets: a registry records which key each pending computation runs for, and
settlement is an explicit step. JavaScript numbers are exact reals plus `NaN`
and the two infinities (`JsNumber`). Rounded coordinates are integers in
thousandths of a degree. Favourite coordinates are integers in millionths of a
degree. A date string `YYYY-MM-DD` is its UTC day number.

One module per source component: `RateLimiter`, `Inflight`, `CacheSwr`,
`Store`, `Exceptions`, `WeatherService`, `Compass`, `DailySummary`,
`ServiceDaily`, `OpenWeather`, `QueryDto`, `LocationSearch`, `Locations`,
`LocationsController`, `ExceptionsFilter` and `CacheInterceptor`. Shared
helpers live in `Wrappers`, `Text`, `JsNumber`, `Sorting` and `Tally`.

Four behaviours of the code are worth knowing when reading the model:

- On the atomic (Redis) path the counter's expiry is the whole window
  (`windowSec`), not the seconds left in the window. Only the fallback path
  uses the remaining seconds. See `RateLimiter.AtomicExpiry` and
  `RateLimiter.FallbackExpiry`.
- The two limiter paths count differently. The atomic path counts every call,
  refused ones included. The fallback path counts only admitted calls. Both
  admit exactly the first `limit` calls of a window.
- A failed background refresh leaves the stale entry in place with no bound on
  how long it stays stale. The code chooses no bounded-staleness policy.
- The transformer service's predominant direction follows JavaScript's order
  of own keys. A direction that reads as an array index (`5`) is listed before
  the others, so it loses every tie. A day whose only direction is
  `__proto__` leaves the counts object empty, and the final `reduce` throws.
  See `ServiceDaily.IndexKeyListedFirst` and `ServiceDaily.OnlyProtoThrows`.

## Model

| member | source | states |
|---|---|---|
| RateLimiter.WindowStart | src/shared/services/rate-limiter.service.ts:26-27 | the window start ws satisfies ws ≤ now < ws + windowSec |
| RateLimiter.WindowStartIsFloor | src/shared/services/rate-limiter.service.ts:27 | the window start is floor(now / windowSec) · windowSec, the largest multiple of windowSec not after now |
| RateLimiter.SameWindow | src/shared/services/rate-limiter.service.ts:27-28 | every instant inside the window that starts at ws maps back to the same window start, so it uses the same counter key |
| RateLimiter.CounterKeyInjective | src/shared/services/rate-limiter.service.ts:28 | `key:windowStart` determines both the bucket key and the window start |
| RateLimiter.NewWindowNewCounter | src/shared/services/rate-limiter.service.ts:27-28 | instants in different windows of one bucket use different counters, so the quota returns after rollover |
| RateLimiter.Incr | src/shared/services/rate-limiter.service.ts:33 | INCR returns the previous live count plus one and stores it under the key; no other key changes |
| RateLimiter.Expire | src/shared/services/rate-limiter.service.ts:35 | EXPIRE keeps the count and sets the expiry to now + ttl |
| RateLimiter.Consume | src/shared/services/rate-limiter.service.ts:25-50 | the call is refused with `RateLimitException` (429, `RATE_LIMIT_EXCEEDED`) exactly when the observed count rules it out; the atomic path always adds one, the fallback adds one only on admission; no other counter changes |
| RateLimiter.ConsumeAtomic | src/shared/services/rate-limiter.service.ts:31-40 | the count rises by one whatever the outcome, and the call fails exactly when the new count exceeds the limit |
| RateLimiter.ConsumeFallback | src/shared/services/rate-limiter.service.ts:43-49 | a count at or above the limit refuses and writes nothing; otherwise count + 1 is stored with the given TTL |
| RateLimiter.AtomicExpiry | src/shared/services/rate-limiter.service.ts:33-36 | the counter's expiry is set to now + windowSec exactly when this increment created it, and is left alone otherwise |
| RateLimiter.FallbackExpiry | src/shared/services/rate-limiter.service.ts:48-49 | an admitted fallback call stores count + 1 until the end of its window, a TTL within [1, windowSec] |
| RateLimiter.QuotaPerWindow | src/shared/services/rate-limiter.service.ts:37-46 | within one window, in either mode, exactly the first `limit` calls pass and every later one is refused |
| RateLimiter.RunCallsInWindow | src/shared/services/rate-limiter.service.ts:33-49 | after `done` earlier calls in a window, call i passes exactly when done + i < limit |
| RateLimiter.StepInWindow | src/shared/services/rate-limiter.service.ts:33-49 | one call inside the window passes exactly when fewer than `limit` calls came before, and moves the level on by one (atomic) or by its admission (fallback) |
| RateLimiter.ConsumeAll | src/shared/services/rate-limiter.service.ts:61-63 | at most every bucket is consumed; a pass consumed all of them; a failure consumed at least one and is a `RateLimitException` |
| RateLimiter.ConsumeMultiOrder | src/shared/services/rate-limiter.service.ts:60 | the evaluation order is a permutation of the caller's buckets, ascending by window, keeping the caller's order among equal windows |
| RateLimiter.ConsumeMulti | src/shared/services/rate-limiter.service.ts:56-64 | at most every bucket is consumed; a pass consumed all of them; a failure consumed at least one and is a `RateLimitException` |
| RateLimiter.ConsumeMultiOutcome | src/shared/services/rate-limiter.service.ts:56-64 | for buckets with distinct names, the call fails exactly when one of the caller's buckets, judged on the counts before the call, refuses it, whatever order they are listed in |
| RateLimiter.DistinctCounters | src/shared/services/rate-limiter.service.ts:28 | buckets with different names never share a counter |
| RateLimiter.ConsumeAllFrame | src/shared/services/rate-limiter.service.ts:61-63 | counters no bucket of the call maps to are untouched |
| RateLimiter.ConsumeAllStopsAtRejecter | src/shared/services/rate-limiter.service.ts:61-63 | a failed call's last reached bucket is one whose counter, as it stood before the call, already ruled the call out |
| RateLimiter.ConsumeAllAdmitted | src/shared/services/rate-limiter.service.ts:61-63 | every bucket passed on the way admitted the call on its own |
| RateLimiter.ConsumeAllOutcome | src/shared/services/rate-limiter.service.ts:56-64 | a multi-bucket call fails exactly when some bucket (judged on the counts before the call) refuses it, and every earlier bucket admitted it |
| RateLimiter.ConsumeAllSparesLater | src/shared/services/rate-limiter.service.ts:61-63 | buckets after the refusing one, and in fallback mode the refusing one itself, keep their counts |
| RateLimiter.FirstChargeKept | src/shared/services/rate-limiter.service.ts:61-63 | when the first bucket admits, the rest of the call leaves its new count alone |
| RateLimiter.ConsumeAllChargesEarlier | src/shared/services/rate-limiter.service.ts:61-63 | every bucket before the refusing one, and in atomic mode that one too, is charged exactly one unit |
| RateLimiter.ShortWindowFailureSparesLongWindow | src/shared/services/rate-limiter.service.ts:59-63 | when the short window refuses, a call that lists the long window first still fails and leaves the long window's count unchanged |
| RateLimiter.ShortFirst | src/shared/services/rate-limiter.service.ts:60 | of two buckets, the shorter window is evaluated first whatever the caller's order |
| Store.Get | src/shared/cache/cache-swr.service.ts:34-37 | a read sees the value under the key exactly while its entry is live, and nothing otherwise |
| Store.Set | src/shared/cache/cache-swr.service.ts:57-58 | a write replaces the key's entry with the value until now + ttl and leaves every other key as it was |
| Inflight.Empty | src/shared/utils/inflight-requests.service.ts:10 | a fresh service has nothing in flight and has invoked nothing |
| Inflight.Run | src/shared/utils/inflight-requests.service.ts:12-27 | the factory is invoked exactly when the key has nothing pending; a joining caller receives the ticket already registered; a starting caller's new ticket is registered under the key; other keys are untouched |
| Inflight.Settle | src/shared/utils/inflight-requests.service.ts:20-23 | settlement removes exactly the key, whatever the outcome |
| Inflight.RunKeepsValid | src/shared/utils/inflight-requests.service.ts:12-27 | `run` preserves the invariant that every registered ticket is an invocation made for its key |
| Inflight.SettleKeepsValid | src/shared/utils/inflight-requests.service.ts:20-23 | settlement preserves the same invariant |
| Inflight.DistinctKeysDistinctTickets | src/shared/utils/inflight-requests.service.ts:10-25 | two different keys in flight never share a pending computation |
| Inflight.SettledKeyStartsAfresh | src/shared/utils/inflight-requests.service.ts:20-25 | after settlement the next call on the key invokes the factory again under a new ticket |
| Inflight.Rethrow | src/shared/utils/inflight-requests.service.ts:17-19 | the outcome every waiting caller sees is the factory's own, failures included |
| Inflight.Await | src/shared/utils/inflight-requests.service.ts:14-26 | a caller holding a ticket sees exactly that invocation's outcome |
| Inflight.RunAll | src/shared/utils/inflight-requests.service.ts:12-27 | a burst of calls with no settlement in between hands out one ticket per call, keeps the earlier invocations as a prefix, and leaves every already-registered key registered |
| Inflight.RunAllInvokesOncePerKey | src/shared/utils/inflight-requests.service.ts:13-16 | the invocations a burst adds are exactly the keys not already in flight, each at its first occurrence and in order; every key ends up registered and the registry stays valid |
| Inflight.SameKeySharesTicket | src/shared/utils/inflight-requests.service.ts:13-14 | all callers of a burst on one key receive the same ticket |
| Inflight.BurstOnIdleKey | src/shared/utils/inflight-requests.service.ts:12-27 | n concurrent calls on an idle key make one invocation and all n callers observe its single outcome |
| CacheSwr.KeysApart | src/shared/cache/cache-swr.service.ts:31-32 | the `val:`, `fresh:`, `refresh:` and `miss:` prefixes keep every logical key's entries and jobs apart from every other's |
| CacheSwr.Classify | src/shared/cache/cache-swr.service.ts:34-44 | an entry is fresh exactly when a truthy value and a truthy flag are both live, stale when only the value is, a miss otherwise |
| CacheSwr.GetOrRevalidate | src/shared/cache/cache-swr.service.ts:25-61 | fresh answers at once with no job; stale answers the cached value at once and runs a deduplicated `refresh:` job; a miss makes the caller await a deduplicated `miss:` job; the store is not written by the read |
| CacheSwr.WriteValue | src/shared/cache/cache-swr.service.ts:48 | the value is stored for the stale window and nothing else changes |
| CacheSwr.WriteFlag | src/shared/cache/cache-swr.service.ts:49 | the freshness flag is stored for the freshness window and nothing else changes |
| CacheSwr.Complete | src/shared/cache/cache-swr.service.ts:46-59 | a failed computation writes nothing; a successful one writes value then flag; either way the job settles |
| CacheSwr.BetweenWritesIsStale | src/shared/cache/cache-swr.service.ts:47-49 | a reader between the two writes sees the new value as stale, never an inconsistent entry |
| CacheSwr.FalsyValueIsMiss | src/shared/cache/cache-swr.service.ts:39-55 | a falsy cached value is treated as a miss even while its flag is set |
| CacheSwr.Timeline | src/shared/cache/cache-swr.service.ts:39-60 | after a successful computation at t0 the entry is fresh before t0 + freshness, stale before t0 + stale window, then a miss |
| CacheSwr.FailedRefreshKeepsStaleValue | src/shared/cache/cache-swr.service.ts:44-51 | a failed background refresh leaves the stale value in place, and later readers still get it |
| CacheSwr.StaleReadersShareRefresh | src/shared/cache/cache-swr.service.ts:46 | readers of a stale entry during a pending refresh start no second computation |
| CacheSwr.MissReadersShareComputation | src/shared/cache/cache-swr.service.ts:55-60 | readers of a missing entry during a pending computation join it and start no second one |
| CacheSwr.Scenario | src/shared/cache/cache-swr.service.ts:25-61 | for freshness 180 s and stale window 300 s: a miss computes; a re-read within 180 s is fresh with no job; at 200 s it is stale with one refresh; at 400 s it is a miss again |
| Exceptions.NewApiException | src/shared/exceptions/api.exception.ts:1-10 | the exception carries the given message, status and optional code |
| Exceptions.RateLimitException | src/shared/exceptions/api.exception.ts:13-17 | status 429, code `RATE_LIMIT_EXCEEDED`, message `Rate limit exceeded` unless another is given |
| Exceptions.TimeoutException | src/shared/exceptions/api.exception.ts:20-24 | status 504, code `REQUEST_TIMEOUT`, message `Request timeout` unless another is given |
| Exceptions.HttpError | src/weather/services/weather.service.ts:117-120 | an `HttpException` built from a message and a status answers that status and carries the message as a plain string body |
| Exceptions.BadRequest | src/locations/locations.controller.ts:32 | a `BadRequestException` answers 400 and carries the message in a body object |
| WeatherService.RangeHours | src/weather/services/weather.service.ts:142-143 | the hours exist exactly for the hourly granularity: the query's range, or 24 |
| WeatherService.RangeDays | src/weather/services/weather.service.ts:144-145 | the days exist exactly for the daily granularity: the query's days, or 5 |
| WeatherService.Ceil3 | src/weather/services/weather.service.ts:182 | the result c is the least integer with n ≤ 3c |
| WeatherService.Cnt | src/weather/services/weather.service.ts:180-183 | the points requested never exceed 40: ⌈hours/3⌉ for hourly and 8 per day for daily, capped at 40 |
| WeatherService.CntWithinLimits | src/weather/services/weather.service.ts:180-183 | a validated hourly range asks for ⌈range/3⌉ points, 8 by default; 1 to 5 days ask for 8 per day; 5 or more days, or the default, ask for 40 |
| WeatherService.Slice | src/weather/services/weather.service.ts:219 | `slice(0, end)` keeps the first end elements, and a negative end counts back from the length |
| WeatherService.Buckets | src/weather/services/weather.service.ts:93-105 | every call charges the 1-minute burst and 1-hour buckets, plus a per-client minute bucket exactly when a non-empty client key is given |
| WeatherService.BucketEvaluationOrder | src/weather/services/weather.service.ts:93-105 | the minute buckets (burst, then client) are evaluated before the hourly bucket |
| WeatherService.SortTwo | src/shared/services/rate-limiter.service.ts:60 | two buckets already in window order stay in that order |
| WeatherService.SortThree | src/shared/services/rate-limiter.service.ts:60 | a long window listed between two short ones moves behind both |
| WeatherService.KeyCurrent | src/weather/services/weather.service.ts:236-239 | the key starts with `weather:current:` and ends with `:` and the units |
| WeatherService.KeyForecast | src/weather/services/weather.service.ts:241-251 | the key starts with `weather:forecast:` |
| WeatherService.KeyCurrentInjective | src/weather/services/weather.service.ts:236-239 | two current-weather requests share a cache key exactly when rounded coordinates and units agree |
| WeatherService.KeyForecastInjective | src/weather/services/weather.service.ts:241-251 | two forecast requests share a cache key exactly when coordinates, units, granularity and both ranges agree |
| WeatherService.KeysApart | src/weather/services/weather.service.ts:236-251 | a current-weather key never equals a forecast key |
| WeatherService.QueryKeyIgnoresOtherRange | src/weather/services/weather.service.ts:142-147 | an hourly query's key ignores `days` and a daily query's ignores `range`; a missing range keys like an explicit 24 |
| WeatherService.AxiosGet | src/weather/services/weather.service.ts:108-115 | the request resolves exactly for statuses 200 to 499, with status and body; otherwise it rejects with an axios error carrying the status, if any |
| WeatherService.HandleApiError | src/weather/services/weather.service.ts:253-274 | an upstream 429 becomes 429, any other axios error becomes 400, an `HttpException` passes through, anything else becomes 500 |
| WeatherService.HandleApiErrorStatuses | src/weather/services/weather.service.ts:253-274 | a mapped error has status 429, 400 or 500, and mapping an already-mapped error changes nothing |
| WeatherService.UpstreamStatusError | src/weather/services/weather.service.ts:116-121 | an upstream error status the request let through stays 429 when it is 429 and becomes 400 otherwise |
| WeatherService.FetchCurrent | src/weather/services/weather.service.ts:86-133 | the limiter runs first and its counters are kept; its refusal becomes the result as a `RateLimitException`, and an admitted call's result is exactly the shaped upstream answer (`ShapeCurrent`); every other failure is an HTTP exception |
| WeatherService.ShapeCurrent | src/weather/services/weather.service.ts:107-132 | success exactly for a 2xx/3xx answer with a body, and then the summary carries the provider's wind (0 for a missing speed or bearing), time and units; 4xx answers and transport failures map as `handleApiError` says |
| WeatherService.NonObjectBodyIsZeroSummary | src/weather/services/weather.service.ts:122-128 | a successful answer whose body is not an object (no `wind`, no `dt`) gives speed 0, bearing 0, no timestamp |
| WeatherService.LimitedFetchIgnoresProvider | src/weather/services/weather.service.ts:93-106 | a call over quota fails with `RateLimitException` whatever the provider would have answered |
| WeatherService.ToPoint | src/weather/services/weather.service.ts:205-212 | a forecast point copies time, speed, gust, bearing and temperature, and names the bearing on the 16-point compass |
| WeatherService.ToPoints | src/weather/services/weather.service.ts:205-212 | one point per list entry, in order |
| WeatherService.FetchForecast | src/weather/services/weather.service.ts:157-234 | the limiter runs first; its refusal becomes the result as a `RateLimitException`, and an admitted call gets the shaped provider answer |
| WeatherService.ShapeForecast | src/weather/services/weather.service.ts:185-233 | success exactly for a 2xx/3xx answer with a non-empty list; the result has the query's units and is hourly exactly for an hourly query |
| WeatherService.HourlyIsPrefix | src/weather/services/weather.service.ts:214-220 | an hourly forecast is the first min(length, ⌈range/3⌉) points of the list |
| WeatherService.HourlyExample | src/weather/services/weather.service.ts:214-220 | twelve hours over forty points keep four |
| WeatherService.Kept | src/weather/services/weather.service.ts:224-228 | the daily forecast keeps the first min(length, days) summaries, 5 days by default; a negative days counts back from the length |
| WeatherService.DailyIsPrefix | src/weather/services/weather.service.ts:221-229 | a daily forecast is the kept prefix of the daily summaries of its points |
| WeatherService.DailyAscending | src/weather/services/weather.service.ts:222-228 | the kept daily summaries are in strictly ascending date order |
| WeatherService.CurrentSummary | src/weather/services/weather.service.ts:71-84 | the cache decides under the current-weather key whether the fetch runs |
| WeatherService.CurrentTimeline | src/weather/services/weather.service.ts:53-54 | a current summary fetched at t0 is fresh until t0 + 180, stale until t0 + 300, then fetched again |
| WeatherService.GetCurrentSummary | src/weather/services/weather.service.ts:71-84 | a fresh entry calls nothing and charges nothing; otherwise `fetchCurrent` with the same arguments runs, unless its job is already pending, and its outcome settles under the current-weather key |
| WeatherService.CurrentFetchSettles | src/weather/services/weather.service.ts:71-84 | a caller who found nothing waits on exactly that `fetchCurrent` invocation; after settlement the job is gone, a fetched summary is served fresh under the key, and a failure leaves the stored entry as it was |
| WeatherService.WindForecastRead | src/weather/services/weather.service.ts:135-155 | the cache decides under the query's forecast key whether the fetch runs |
| WeatherService.ForecastTimeline | src/weather/services/weather.service.ts:55-56 | a forecast fetched at t0 is fresh until t0 + 600, stale until t0 + 900, then fetched again |
| WeatherService.GetWindForecast | src/weather/services/weather.service.ts:135-155 | a fresh entry calls nothing and charges nothing; otherwise `fetchForecast` with the same arguments runs, unless its job is already pending, and its outcome settles under the query's forecast key |
| WeatherService.ForecastFetchSettles | src/weather/services/weather.service.ts:135-155 | a caller who found nothing waits on exactly that `fetchForecast` invocation; after settlement the job is gone, a fetched forecast is served fresh under the key, and a failure leaves the stored entry as it was |
| WeatherService.UnitsTextInjective | src/weather/dto/wind-forecast.dto.ts:5-9 | distinct units have distinct texts |
| WeatherService.OptionalTextInjective | src/weather/services/weather.service.ts:250 | an absent range (empty text) and every number have distinct texts |
| Compass.Direction16AsWritten | src/weather/utils/weather-transformer.ts:8-30 | null or NaN names north; an infinite bearing names nothing; every name found is one of the sixteen points |
| Compass.Direction16AsWrittenNegative | src/weather/utils/weather-transformer.ts:28-29 | a bearing of -22.5 names nothing (`undefined`) as written |
| Compass.Direction16 | src/weather/utils/weather-transformer.ts:8-30 | the corrected lookup always names one of the sixteen points, for negative bearings too |
| Compass.Direction16Agrees | src/weather/utils/weather-transformer.ts:28-29 | the corrected lookup gives the same name as the code wherever the code finds one |
| Compass.Direction16Periodic | src/weather/utils/weather-transformer.ts:28-29 | the corrected lookup names bearings one full turn apart alike |
| Compass.Direction16Examples | src/weather/utils/weather-transformer.ts:10-29 | as written, 360 and 0 are N and 90 is E; corrected, -22.5 is NNW |
| Compass.Direction16Nearest | src/weather/utils/weather-transformer.ts:28-29 | the corrected lookup names the nearest point: sector k covers [22.5k − 11.25, 22.5k + 11.25) and is named by point k mod 16 |
| Compass.Direction16AsWrittenNearest | src/weather/utils/weather-transformer.ts:28-29 | as written, a bearing in sector k names nothing exactly when it lies below -11.25 and k is not a multiple of 16; otherwise it names point k mod 16 |
| Compass.NormalizeIsMod360 | src/weather/services/weather-transformer.service.ts:30 | `((d % 360) + 360) % 360` is the representative of d in [0, 360) |
| Compass.Sector8 | src/weather/services/weather-transformer.service.ts:31 | the sector index is below 8, with 360 wrapping to north |
| Compass.Direction8 | src/weather/services/weather-transformer.service.ts:28-33 | a non-finite bearing is `N/A`; a finite one is the point of round(normalised / 45) mod 8 |
| Compass.Direction8Named | src/weather/services/weather-transformer.service.ts:28-33 | every finite bearing is named by one of the eight points |
| Compass.Direction8Periodic | src/weather/services/weather-transformer.service.ts:30-31 | bearings one full turn apart, negative ones included, get the same name |
| Compass.OwmDirection | src/services/openweather.service.ts:78-83 | a finite bearing gets the same name as the service's 8-point compass; a non-finite one names nothing |
| Compass.OwmDirectionExamples | src/services/openweather.service.ts:78-83 | 10 is N, 200 is S, -90 is W |
| Compass.Sanitize | src/weather/services/weather-transformer.service.ts:36-37 | a finite number is kept and anything else becomes 0 |
| Compass.TransformWind | src/weather/services/weather-transformer.service.ts:35-44 | speed and degrees are sanitised, and the direction is always a named point: N for a non-finite bearing |
| Compass.TransformWeather | src/weather/services/weather-transformer.service.ts:46-57 | temperature is sanitised, and wind is as `transformWindData` gives it |
| JsNumber.Trunc | src/weather/services/weather-transformer.service.ts:30 | rounding toward zero: the result is the whole number nearest zero within one of x, with the sign of x |
| JsNumber.Round | src/weather/utils/weather-transformer.ts:28 | `Math.round`: n - 1/2 ≤ x < n + 1/2 |
| JsNumber.IntRem | src/weather/utils/weather-transformer.ts:28 | JavaScript `%` on integers: the remainder has the dividend's sign, a smaller magnitude than the divisor, and differs from the dividend by a multiple of the divisor |
| JsNumber.Rem360 | src/weather/services/weather-transformer.service.ts:30 | JavaScript `% 360` on a real: the remainder has the dividend's sign and magnitude below 360 |
| JsNumber.Mod360 | src/weather/services/weather-transformer.service.ts:30 | the result lies in [0, 360) |
| JsNumber.Mod360Periodic | src/weather/services/weather-transformer.service.ts:30 | adding a full turn does not change the normalised bearing |
| JsNumber.Mod360Unique | src/weather/services/weather-transformer.service.ts:30 | the normalised bearing is the only value in [0, 360) a whole number of turns from the input |
| DailySummary.Group | src/weather/utils/weather-transformer.ts:36-41 | every point in a day's group has that day, and every point of that day is in the group |
| DailySummary.GroupIsFilter | src/weather/utils/weather-transformer.ts:36-41 | a group is the day's points in input order: appending a point appends it to its own day's group only, and a group holds as many points as the input has points of that day |
| DailySummary.DaysOf | src/weather/utils/weather-transformer.ts:36-44 | one day per point: each point's UTC day, in input order |
| DailySummary.ScanCounts | src/weather/utils/weather-transformer.ts:55-61 | the running frequency table counts each direction's occurrences |
| DailySummary.ScanMaxBounds | src/weather/utils/weather-transformer.ts:58-61 | the running maximum bounds every direction's count |
| DailySummary.ScanWinnerFirst | src/weather/utils/weather-transformer.ts:58-61 | the winner is the first direction to reach the maximum count |
| DailySummary.ScanWinnerCount | src/weather/utils/weather-transformer.ts:58-61 | the winner's count equals the maximum count |
| DailySummary.Predominant | src/weather/utils/weather-transformer.ts:50-61 | for a non-empty day (the code skips empty groups and never reaches its initial `N`): a direction of maximum frequency, namely the first to reach that frequency |
| DailySummary.MaxGust | src/weather/utils/weather-transformer.ts:53-64 | absent when no point has a gust; otherwise a gust of some point, at least every gust present |
| DailySummary.SumBounds | src/weather/utils/weather-transformer.ts:46-47 | a sum of values within [lo, hi] lies within [n·lo, n·hi] |
| DailySummary.Mean | src/weather/utils/weather-transformer.ts:46-47 | the mean multiplied by the count gives the sum |
| DailySummary.MeanWithinBounds | src/weather/utils/weather-transformer.ts:46-47 | the mean of values within [lo, hi] lies within [lo, hi] |
| DailySummary.MeanBounds | src/weather/utils/weather-transformer.ts:46-47 | a day's average speed lies between its lowest and highest speed |
| DailySummary.Summarize | src/weather/utils/weather-transformer.ts:44-72 | one summary per day: its date, mean speed, predominant direction and highest gust |
| DailySummary.DailyAverages | src/weather/utils/weather-transformer.ts:32-78 | no points give no summaries; the summaries are in strictly ascending date order; every point's day has a summary; each summary is the summary of a non-empty group of its day |
| DailySummary.SortedSummaries | src/weather/utils/weather-transformer.ts:76 | sorting by date keeps the same summaries and puts them in ascending order |
| ServiceDaily.CalculateAverage | src/weather/services/weather-transformer.service.ts:84-91 | 0 for no values; otherwise the sum (non-finite values as 0) divided by the count |
| ServiceDaily.SumFiniteSanitised | src/weather/services/weather-transformer.service.ts:86-89 | the sum skipping non-finite values is the plain sum of the sanitised values |
| ServiceDaily.AverageBounds | src/weather/services/weather-transformer.service.ts:84-91 | when every sanitised speed lies in [lo, hi], so does the average |
| Tally.Dedup | src/weather/services/weather-transformer.service.ts:62-77 | the keys of `dailyMap`: each day once, in the order the days first appear; date texts are never array indices nor `__proto__`, so `Object.entries` keeps insertion order |
| ServiceDaily.IndexPart | src/weather/services/weather-transformer.service.ts:95-103 | the array-index keys of the counts object: exactly the directions that are canonical decimal integers below 2^32 - 1, each once, in ascending numeric order |
| ServiceDaily.PlainPart | src/weather/services/weather-transformer.service.ts:95-103 | the other own keys: exactly the directions that are neither array indices nor `__proto__`, each once, in the order they first appear |
| ServiceDaily.EntryKeys | src/weather/services/weather-transformer.service.ts:95-103 | `Object.entries(counts)`: every direction except `__proto__` exactly once, array indices first in ascending numeric order, then the rest in first-appearance order |
| ServiceDaily.PlainEntryKeys | src/weather/services/weather-transformer.service.ts:95-103 | without array indices and `__proto__`, the entries are listed in first-appearance order |
| ServiceDaily.Pick | src/weather/services/weather-transformer.service.ts:103 | the reduce over the entries stops on a maximal count, and every entry listed after it is strictly rarer (`a[1] > b[1] ? a : b` keeps the later entry on a tie) |
| ServiceDaily.MostFrequent | src/weather/services/weather-transformer.service.ts:93-104 | `N/A` for no directions; a `TypeError` (reduce of an empty array) exactly when every direction is `__proto__`; otherwise one of the directions, never `__proto__` |
| ServiceDaily.MostFrequentIsMax | src/weather/services/weather-transformer.service.ts:95-103 | no direction other than `__proto__` occurs more often than the result |
| ServiceDaily.MostFrequentLastListed | src/weather/services/weather-transformer.service.ts:103 | of the most frequent directions, the result is the one `Object.entries` lists last |
| ServiceDaily.KeysOfLetterAndIndex | src/weather/services/weather-transformer.service.ts:95-103 | the entries of `["N", "5"]` are listed as `["5", "N"]` |
| ServiceDaily.IndexKeyListedFirst | src/weather/services/weather-transformer.service.ts:93-104 | `["N", "5"]` gives `N`: the index key `5` is listed first and loses the tie |
| ServiceDaily.OnlyProtoThrows | src/weather/services/weather-transformer.service.ts:95-103 | `["__proto__"]` leaves the counts object empty and the reduce throws |
| ServiceDaily.Entry | src/weather/services/weather-transformer.service.ts:77-81 | a day's entry carries that day, and its only failure is the reduce's `TypeError` |
| ServiceDaily.EntryFails | src/weather/services/weather-transformer.service.ts:70-80 | a day's entry throws exactly when the day has items and every one of their directions is `__proto__` |
| ServiceDaily.DayItems | src/weather/services/weather-transformer.service.ts:62-73 | the items grouped under a day all have that UTC day |
| ServiceDaily.CalculateDailyAverages | src/weather/services/weather-transformer.service.ts:59-82 | a non-array input gives nothing; otherwise the daily averages of the items |
| ServiceDaily.DayAverages | src/weather/services/weather-transformer.service.ts:62-81 | a timestamp outside ±8.64e15 ms throws `RangeError` (`Invalid time value`); otherwise success exactly when every item's day has an entry, and then one entry per distinct day, in first-appearance order |
| ServiceDaily.Grouped | src/weather/services/weather-transformer.service.ts:77-81 | the entries of the listed days, in order, or the `TypeError` when one of them throws |
| ServiceDaily.AllEntries | src/weather/services/weather-transformer.service.ts:62-81 | every listed day has an entry exactly when every item's day has one |
| ServiceDaily.EntryFailsIff | src/weather/services/weather-transformer.service.ts:70-80 | an item's day throws exactly when all that day's directions are `__proto__` |
| ServiceDaily.DailyAveragesFailIff | src/weather/services/weather-transformer.service.ts:59-82 | with valid timestamps the averages fail exactly when some day's directions are all `__proto__` |
| ServiceDaily.PlainDirectionsSucceed | src/weather/services/weather-transformer.service.ts:59-82 | with valid timestamps and no `__proto__` direction, every day gets an entry |
| ServiceDaily.OneEntryPerDay | src/weather/services/weather-transformer.service.ts:62-81 | when the averages succeed, no day gets two entries |
| ServiceDaily.EveryDayHasEntry | src/weather/services/weather-transformer.service.ts:62-81 | when the averages succeed, every item's day has an entry |
| ServiceDaily.EveryEntryHasItems | src/weather/services/weather-transformer.service.ts:62-81 | when the averages succeed, every entry's day has at least one item |
| ServiceDaily.EntryDirectionFromItems | src/weather/services/weather-transformer.service.ts:70-80 | an entry's direction is one of that day's item directions |
| QueryDto.FirstParam | src/weather/dto/wind-forecast.dto.ts:17-19 | a repeated parameter contributes its first value, undefined when there is none; any other value is kept |
| QueryDto.NumberString | src/weather/dto/wind-forecast.dto.ts:26 | a finite number's text starts with a minus sign or a digit |
| QueryDto.ToLowerEnum | src/weather/dto/wind-forecast.dto.ts:22-28 | the result is lower-case: a string lower-cased, a number or boolean as text, anything else the fallback |
| QueryDto.ToInt | src/weather/dto/wind-forecast.dto.ts:31-41 | an integral number is kept; a string gives the leading integer of its trimmed text; anything else is undefined |
| QueryDto.ToIntOfText | src/weather/dto/wind-forecast.dto.ts:34-38 | an integer written as text, after blanks and before a non-digit tail, reads back as itself |
| QueryDto.RepeatedRange | src/weather/dto/wind-forecast.dto.ts:31-38 | a repeated range counts by its first value |
| QueryDto.UnsignedDecimal | src/weather/dto/wind-forecast.dto.ts:47 | a digits-and-point prefix reads as a non-negative value |
| QueryDto.ParseFloat | src/weather/dto/wind-forecast.dto.ts:47 | `parseFloat` gives a finite number or NaN |
| QueryDto.ParseFloatOfInt | src/weather/dto/wind-forecast.dto.ts:47 | an integer's text parses back to that integer |
| QueryDto.ToFloat | src/weather/dto/wind-forecast.dto.ts:44-49 | numbers are kept, strings go through `parseFloat`, anything else is NaN |
| QueryDto.ValidateParams | src/weather/dto/wind-forecast.dto.ts:51-64 | the path coordinates pass exactly when both are finite numbers in [-90, 90] and [-180, 180]; each failing property is named |
| QueryDto.ParseUnits | src/weather/dto/wind-forecast.dto.ts:74 | a recognised units text is the text of the units it yields |
| QueryDto.ParseGranularity | src/weather/dto/wind-forecast.dto.ts:86 | a recognised granularity text is the text of the granularity it yields |
| QueryDto.ParseEnumRoundTrip | src/weather/dto/wind-forecast.dto.ts:5-14 | each enum value is recognised from its own text |
| QueryDto.ValidateQuery | src/weather/dto/wind-forecast.dto.ts:67-118 | the query passes exactly when units and granularity are enum texts and the range (hourly) or days (daily) that is present lies within 3..120 or 1..7; failures name at least one property |
| QueryDto.Check | src/weather/dto/wind-forecast.dto.ts:74-117 | the checks pass exactly when both enums parse and the range or days that applies is absent or in bounds |
| QueryDto.QueryDefaults | src/weather/dto/wind-forecast.dto.ts:73-87 | an empty query is metric, hourly, with no range and no days |
| QueryDto.UnitsCaseInsensitive | src/weather/dto/wind-forecast.dto.ts:24 | any capitalisation of a units text selects those units |
| QueryDto.OnlyUnits | src/weather/dto/wind-forecast.dto.ts:67-118 | a query with valid units alone yields those units, hourly, with no ranges |
| QueryDto.ValidQueryCount | src/weather/dto/wind-forecast.dto.ts:96-117 | a validated hourly query asks the provider for 1 to 40 points covering its range; a validated daily query asks for at least one point, 8 per day for up to 5 days |
| OpenWeather.NewService | src/services/openweather.service.ts:30-38 | construction succeeds exactly when both key and URL are non-empty |
| OpenWeather.GetWeather | src/services/openweather.service.ts:41-76 | a cache hit under `weather_${lat}_${lon}` answers with no quota charged; a miss charges the hourly quota and, when admitted and the provider answers, caches the shaped data for 30 minutes; a refusal propagates and every other failure is one 400, with nothing cached |
| OpenWeather.CacheKey | src/services/openweather.service.ts:45 | `weather_`, the latitude's text, `_`, the longitude's text |
| OpenWeather.CacheKeyInjective | src/services/openweather.service.ts:45 | coordinate pairs share a cache entry exactly when their number texts agree; the coordinates are not rounded |
| OpenWeather.Shape | src/services/openweather.service.ts:63-67 | temperature and speed are copied and the bearing is named on the 8-point compass, or nothing when not finite |
| OpenWeather.FetchThenHit | src/services/openweather.service.ts:45-68 | a second call within 30 minutes is served from the cache with the same result, no quota charged and nothing changed; after that it charges the quota again |
| OpenWeather.ShapeExamples | src/services/openweather.service.ts:78-83 | the provider's sample bearings 10 and 200 are N and S |
| LocationSearch.DisplayName | src/location-search/services/location-search.service.ts:236-245 | the name, the state when it is a non-empty text, and the country, comma-separated |
| LocationSearch.Transform | src/location-search/services/location-search.service.ts:138-167 | a result copies the place's fields and adds its display name |
| LocationSearch.TransformAll | src/location-search/services/location-search.service.ts:138 | one result per place, in the provider's order |
| LocationSearch.Score | src/location-search/services/location-search.service.ts:188-215 | an exact name scores 100 to 125, a prefix 75 to 100, a substring 50 to 75, anything else at most 25; the 25 is added exactly when the state contains the query |
| LocationSearch.Ranked | src/location-search/services/location-search.service.ts:170-186 | the results are a permutation of the input in non-increasing score order |
| LocationSearch.RankedIsStable | src/location-search/services/location-search.service.ts:181 | results with equal scores keep the provider's order |
| LocationSearch.ExactMatchFirst | src/location-search/services/location-search.service.ts:181-208 | a place named exactly as the query (ignoring case) comes before every place whose name does not contain it |
| LocationSearch.CacheKey | src/location-search/services/location-search.service.ts:67 | `location_search_` followed by the query, each letter lowered |
| LocationSearch.CacheKeyIgnoresCase | src/location-search/services/location-search.service.ts:67 | two queries share a cache key exactly when they agree after lowering |
| LocationSearch.Lookup | src/location-search/services/location-search.service.ts:63-121 | a cache hit answers with no quota charged; a miss charges the quota, and only an admitted call with a provider answer succeeds and is cached for an hour; any failure is 400 and writes nothing |
| LocationSearch.Search | src/location-search/services/location-search.service.ts:43-61 | queries shorter than 2 answer nothing and touch nothing; longer ones answer the ranked lookup, and failures are 400 |
| LocationSearch.CaseInsensitiveCache | src/location-search/services/location-search.service.ts:67-73 | a query differing only in case is served from the first one's cache entry, with no request and no quota charged |
| Locations.NormalizeName | src/locations/locations.service.ts:23 | the result has no leading or trailing white space and no white-space run other than one plain space; it is empty exactly when the trimmed input is |
| Locations.NormalizeIdempotent | src/locations/locations.service.ts:23 | normalising twice changes nothing more |
| Locations.NormalizeTwoWords | src/locations/locations.service.ts:23 | two words with any white space around and between them become the words joined by one space |
| Locations.NormalizeExample | src/locations/locations.service.ts:138 | " New  Name " becomes "New Name" |
| Locations.CollapseIsCollapsed | src/locations/locations.service.ts:23 | `replace(/\s+/g, ' ')` leaves no white space but single plain spaces |
| Locations.CollapseFixes | src/locations/locations.service.ts:23 | an already collapsed text is left as it is |
| Locations.FindFirst | src/locations/locations.service.ts:29-45 | the first row of the client in the given state whose name or coordinates match, or none when no row does |
| Locations.Create | src/locations/locations.service.ts:22-87 | an active duplicate refuses with 409 and changes nothing; otherwise the first inactive duplicate is revived with the new name and coordinates; otherwise a new active row is appended |
| Locations.MatchesSymmetric | src/locations/locations.service.ts:31-43 | the duplicate test is symmetric |
| Locations.CreateKeepsInvariants | src/locations/locations.service.ts:22-87 | `create` never leaves a client with two active duplicates, and a fresh id keeps ids distinct |
| Locations.FindById | src/locations/locations.service.ts:132-134 | the client's row with the id, or none when there is none |
| Locations.Coordinate | src/locations/locations.service.ts:139-140 | `Number(x)` of a coordinate field: left out keeps the stored value, `null` gives 0, a number is itself |
| Locations.Apply | src/locations/locations.service.ts:138-143 | a `null` name throws at `.trim()` and a `null` flag is refused by the non-null column, both as unknown errors (500) and nothing else fails; otherwise exactly the fields the body carries change (the name normalised, a `null` coordinate as 0), and id and client are kept |
| Locations.Update | src/locations/locations.service.ts:127-144 | 404 when the client has no row with the id; otherwise the patch's own failure, or only that row changes, as the patch says |
| Locations.EmptyPatch | src/locations/locations.service.ts:138-143 | an empty patch changes only the save time |
| Locations.ApplyIdempotent | src/locations/locations.service.ts:138-143 | sending the same update again changes nothing but the save time |
| Locations.NullCoordinateIsZero | src/locations/locations.service.ts:139-140 | a `null` latitude or longitude is stored as 0 |
| Locations.RemoveOne | src/locations/locations.service.ts:146-154 | fails with 404 exactly when the client has no active row with the id; otherwise only that row becomes inactive |
| Locations.RemoveAll | src/locations/locations.service.ts:156-165 | fails with 404 exactly when the client has no active row; otherwise every active row of the client becomes inactive and no other row changes |
| Locations.RemoveAllThenNothing | src/locations/locations.service.ts:156-165 | after removing all, the client has no active row and a second removal fails with 404 |
| Locations.ActiveRows | src/locations/locations.service.ts:100 | exactly the client's active rows |
| Locations.Recent | src/locations/locations.service.ts:99-101 | a permutation of the client's active rows, most recently updated first |
| Locations.RecentFacts | src/locations/locations.service.ts:101 | sorting by recency orders rows newest first and keeps them active rows of the client |
| Locations.Window | src/locations/locations.service.ts:102-103 | `skip` then `take` gives the elements from `skip` on, at most `take` of them |
| Locations.Skip | src/locations/locations.service.ts:102 | (page - 1) · pageSize |
| Locations.Enrich | src/locations/locations.service.ts:107-117 | fails exactly when some row's weather fails; otherwise each row is paired with its own weather, in order |
| Locations.FindAllMinimal | src/locations/locations.service.ts:89-125 | the page is the window of the recency order with its weather, the total is the number of the client's active rows, and page and page size are echoed |
| Locations.PageRows | src/locations/locations.service.ts:99-117 | a page holds at most pageSize rows, and its k-th row is row skip + k of the client's recency order |
| Locations.PageIsOrdered | src/locations/locations.service.ts:99-104 | a page holds at most `pageSize` of the client's active rows, newest first |
| Locations.PagesAreConsecutive | src/locations/locations.service.ts:102-103 | successive pages continue one another without gaps or overlap |
| LocationsController.HexValue | src/locations/locations.controller.ts:35 | a hexadecimal digit's value is below 16 |
| LocationsController.PatternIsUuidV4 | src/locations/locations.controller.ts:34-36 | the regular expression accepts exactly the version-4, variant-10 UUIDs in 8-4-4-4-12 form, in either case |
| LocationsController.FourIsVersion | src/locations/locations.controller.ts:35 | the literal `4` is exactly the hex digit of value 4 |
| LocationsController.VariantDigits | src/locations/locations.controller.ts:35 | `[89ab]` under `/i` is exactly the hex digits whose top two bits are 10 |
| LocationsController.CheckClientId | src/locations/locations.controller.ts:30-39 | a missing or empty header is refused as required, any other non-UUID-v4 as invalid, both with 400; a valid id passes unchanged |
| LocationsController.DocumentedIdPasses | src/locations/locations.controller.ts:52 | the documented example id passes |
| LocationsController.VersionOneRefused | src/locations/locations.controller.ts:35-37 | the same id with version 1 is refused as invalid |
| LocationsController.VariantZeroRefused | src/locations/locations.controller.ts:35-37 | the same id with variant bits 00 is refused as invalid |
| LocationsController.CaseDoesNotMatter | src/locations/locations.controller.ts:35 | a valid id stays valid once lower-cased |
| LocationsController.PathId | src/locations/locations.controller.ts:118 | `Number(id)` on a trimmed id: blank is 0, optionally signed decimal digits are their signed value, anything else is no integer |
| LocationsController.PathIdRoundTrip | src/locations/locations.controller.ts:118 | an id rendered in a URL reads back as itself |
| LocationsController.PathIdSigned | src/locations/locations.controller.ts:118 | a sign before the digits is read too: `-5` is -5 and `+5` is 5 |
| LocationsController.QueryId | src/locations/locations.controller.ts:118 | the lookup by `Number(id)` goes ahead exactly when it is an integer within the 32-bit `integer` column; otherwise the database rejects the query with an unknown error |
| LocationsController.Create | src/locations/locations.controller.ts:55-61 | an invalid header is refused before the service runs; otherwise the service's create decides |
| LocationsController.FindAll | src/locations/locations.controller.ts:85-101 | an invalid header is refused; otherwise the client's page, with the `units` query value handed on unvalidated, metric when absent |
| LocationsController.FindAllDefaultsToMetric | src/locations/locations.controller.ts:99 | leaving the units out is the same as asking for metric |
| LocationsController.Update | src/locations/locations.controller.ts:112-119 | an invalid header is refused; an id the database cannot take as an integer fails the query; otherwise the service's update decides |
| LocationsController.RemoveOne | src/locations/locations.controller.ts:133-139 | an invalid header is refused; an id the database cannot take as an integer fails the query; otherwise the service's removeOne decides |
| LocationsController.RemoveAll | src/locations/locations.controller.ts:150-155 | an invalid header is refused; otherwise the service's removeAll decides |
| LocationsController.InvalidHeaderChangesNothing | src/locations/locations.controller.ts:30-38 | a request without a valid client id changes no row of any client and answers 400 |
| LocationsController.RejectedIdIsServerError | src/locations/locations.controller.ts:112-139 | with a valid client id, a non-integer or out-of-range id changes nothing and is answered 500 `INTERNAL_ERROR`, not 404 |
| ExceptionsFilter.IsValidationError | src/shared/filters/all-exceptions.filter.ts:118-128 | only an object body whose `message` is an array qualifies, every item then having a property; an empty array qualifies |
| ExceptionsFilter.ErrorsOf | src/shared/filters/all-exceptions.filter.ts:77 | the validation items read as errors one for one |
| ExceptionsFilter.Prefixed | src/shared/filters/all-exceptions.filter.ts:144-147 | a nested result's keys reappear as `parent.key` with the same messages, and no other key appears |
| ExceptionsFilter.StepKeys | src/shared/filters/all-exceptions.filter.ts:134-151 | one reduce step adds exactly the error's property and its nested keys |
| ExceptionsFilter.FormatFromKeys | src/shared/filters/all-exceptions.filter.ts:130-154 | the accumulated keys are the starting keys plus those the errors name |
| ExceptionsFilter.FormatKeys | src/shared/filters/all-exceptions.filter.ts:130-154 | every error's property is a key, as is every nested key under its parent's name, and there are no others |
| ExceptionsFilter.Format | src/shared/filters/all-exceptions.filter.ts:130-154 | every error's property is a key of the result |
| ExceptionsFilter.StepGrows | src/shared/filters/all-exceptions.filter.ts:134-151 | a reduce step keeps the keys it was given and adds the error's property |
| ExceptionsFilter.FormatFromHasProperties | src/shared/filters/all-exceptions.filter.ts:133-153 | the reduce keeps its starting keys and adds every error's property |
| ExceptionsFilter.FormatFromAppend | src/shared/filters/all-exceptions.filter.ts:133-153 | formatting a list with one more error is one more reduce step |
| ExceptionsFilter.LastErrorWins | src/shared/filters/all-exceptions.filter.ts:140 | the last error naming a property decides that property's messages |
| ExceptionsFilter.NestedKey | src/shared/filters/all-exceptions.filter.ts:143-147 | a nested error appears under `parent.child` with its own messages |
| ExceptionsFilter.HandleHttp | src/shared/filters/all-exceptions.filter.ts:64-88 | a validation failure is 400 `VALIDATION_ERROR` with the formatted fields; otherwise the exception's status, the body's message or else the exception's, and the body's code |
| ExceptionsFilter.AxiosMessage | src/shared/filters/all-exceptions.filter.ts:156-161 | the body's own non-empty message when the body is an object carrying one, else the error's message |
| ExceptionsFilter.HandleAxios | src/shared/filters/all-exceptions.filter.ts:90-105 | the upstream status, or 502 without one; code `EXTERNAL_API_ERROR`; the request's URL and method as details |
| ExceptionsFilter.Catch | src/shared/filters/all-exceptions.filter.ts:21-49 | dispatch by kind (API exception, HTTP exception, axios error, anything else as 500 `INTERNAL_ERROR`), replying with the body's own status and the request path |
| ExceptionsFilter.SubclassesReportThemselves | src/shared/filters/all-exceptions.filter.ts:29-30 | rate-limit and timeout exceptions are reported with 429 and 504 and their own codes |
| ExceptionsFilter.BadRequestReported | src/shared/filters/all-exceptions.filter.ts:81-87 | a `BadRequestException` reaches the client as 400 with its message and no code |
| ExceptionsFilter.EmptyListIsValidation | src/shared/filters/all-exceptions.filter.ts:118-128 | an empty `message` array counts as a validation failure with no fields |
| ExceptionsFilter.ValidationFields | src/shared/filters/all-exceptions.filter.ts:70-78 | a validation failure is a 400 whose field errors are keyed by exactly the failing properties and their nested `parent.child` paths |
| ExceptionsFilter.StringItemsKeepStatus | src/shared/filters/all-exceptions.filter.ts:118-128 | a `message` array of plain strings is not a validation failure, and is reported with the exception's own status |
| CacheInterceptor.TextOf | src/weather/interceptors/weather-cache.interceptor.ts:13-15 | only a non-empty string counts, and it counts as itself; anything else is absent |
| CacheInterceptor.TrackBy | src/weather/interceptors/weather-cache.interceptor.ts:9-23 | a response is cached exactly when lat, lon and the route path are non-empty strings, under `weather:path:lat:lon` |
| CacheInterceptor.OtherParamsIgnored | src/weather/interceptors/weather-cache.interceptor.ts:13-22 | query parameters other than lat and lon do not affect the key |
| CacheInterceptor.KeyIsVerbatim | src/weather/interceptors/weather-cache.interceptor.ts:22 | for colon-free lat and lon texts, two cached requests share a key exactly when their route paths and their lat and lon texts are identical |
| CacheInterceptor.MissingLonNotCached | src/weather/interceptors/weather-cache.interceptor.ts:17-19 | a request without lon is not cached |
| Sorting.StableSort | src/shared/services/rate-limiter.service.ts:60 | `Array.prototype.sort` with a numeric-difference comparator gives a permutation in ascending key order |
| Sorting.StableSortIsStable | src/shared/services/rate-limiter.service.ts:60 | elements with equal keys keep their relative order |
| Text.MilliToStringInjective | src/weather/services/weather.service.ts:237-238 | distinct rounded coordinates render as distinct texts |
| Text.MilliToStringLatitude | src/weather/services/weather.service.ts:238 | 51.507 renders as `51.507` |
| Text.MilliToStringNegative | src/weather/services/weather.service.ts:238 | -0.128 renders as `-0.128` |
| Text.MilliToStringTrailingZeros | src/weather/services/weather.service.ts:238 | 500 thousandths render as `0.5`, with no trailing zeros |
| Text.Lower | src/location-search/services/location-search.service.ts:67 | lower-casing keeps the length and maps each character through the ASCII case map: `A`–`Z` become `a`–`z`, every other character is unchanged |
| Text.Trim | src/weather/dto/wind-forecast.dto.ts:35 | the trimmed text is the slice of the input left once the white space at both ends is cut: nothing but white space precedes or follows it, and it neither starts nor ends with white space |

## Left out

- HTTP transport, axios and the provider: replies are inputs (`Transport`, `GeoReply`, fetched outcomes). The 5-second request timeout and the `TimeoutException` it could cause are not modelled beyond the class itself.
- Redis detection: `getRedisClient()` becomes a `Mode` flag chosen by the caller.
- Real concurrency. Promises become tickets in a registry, and settlement is an explicit step. Interleavings inside one `consume` (the race in the fallback path) are not modelled.
- The `void` fire-and-forget background refresh: its rejection is unhandled in the code. The model drops the failure and keeps the stale value.
- RateLimiter.ConsumeMulti: one `now` for the whole call. The code reads the clock once per bucket.
- RateLimiter.Consume: requires `windowSec > 0`, which every caller in the code meets. With a zero window the code computes `now / 0`, which is `Infinity`; the window start is then `NaN` and every call uses the one counter `key:NaN`. Nothing throws. The model does not cover that case.
- CacheSwr.GetOrRevalidate: freshness and stale windows are taken as positive, as every caller sets them.
- Floating point. Numbers are exact reals, so `toFixed(1)` and `toFixed(2)` rounding of averages and gusts is not modelled. The weather service's coordinates reach its key functions already rounded to thousandths, as integers, so the model does not cover `Math.round(n * 1000) / 1000` itself. `OpenWeatherService` does not round; its key takes the coordinates' texts.
- The coordinate tolerance 0.0005 is the integer 500 in millionths of a degree; `BETWEEN` includes both ends.
- `new Date(ts * 1000).toISOString()`: a date is its UTC day number.
- DailySummary.DailyAverages: grouping by day number and ordering by it agree with the code's `YYYY-MM-DD` texts only for timestamps in [-62167219200, 253402300800), the years 0000 to 9999. Outside that range `toISOString` writes a sign and a six-digit year. Then `slice(0, 10)` keeps only the year and month, so the code groups a whole month together, and comparing the texts no longer follows time. Beyond ±8.64e15 ms `toISOString` throws `RangeError`. The model groups and orders by day for every timestamp.
- DailySummary.SortedSummaries: ascending day numbers are the code's ascending date texts only in the range given under `DailySummary.DailyAverages`.
- The SHA-1 stable id and the `Intl.DisplayNames` country name of a search result are not modelled, being hashing and locale data.
- `ILike` is modelled as case-insensitive equality of names; a name containing `%` or `_` would act as a wildcard in the database.
- Rows with equal `updatedAt`: the database's order among them is unspecified; the model keeps table order.
- `debounceTime(300)` on the autocomplete stream and the timeout interceptor are not modelled, being pure timing.
- QueryDto.NumberString: a number's text is its integer part and a point; the fraction digits are not modelled.
- QueryDto.ParseFloat: exponents and the word `Infinity` are not parsed.
- class-validator and class-transformer machinery: DTO validation reports failing property names only, not constraint messages. The global pipe's `forbidNonWhitelisted` refusal of unknown query parameters (a 400) is not modelled; `QueryDto.ValidateQuery` looks only at the parameters it knows. The `PaginationDto` transform is not modelled; page and page size reach the service already validated.
- LocationsController.PathId: `Number(id)` is modelled for blanks and optionally signed decimal digit strings. Hexadecimal (`0x10`), binary, octal, exponent (`1e2`) and zero-fraction (`5.0`, `5.`) forms, which JavaScript reads as integers, count here as non-integers, so the model answers 500 where the code would look the row up.
- LocationsController.QueryId: the database's message is reduced to one fixed text per kind of rejection (not an integer, out of range); the offending value it quotes is not modelled.
- LocationsController.FindAll: the current-weather lookup is a parameter taking the raw `units` value; what the weather service does with a value outside `standard`, `metric` and `imperial` is not modelled, since `WeatherService.GetCurrentSummary` takes only those three.
- Locations.Enrich: `Promise.all` rejects with the first failure to settle; the model says the error is the failure of some row, not which one.
- The error body's `timestamp` and the filter's logging are left out, and so are the logging middleware.
- The store's size cap (`max: 100`, LRU eviction) and default TTL are left out. TTLs are taken in seconds, as the code's comments state.
- Text.Lower: folds only the ASCII letters `A`–`Z`. JavaScript's `toLowerCase` folds every cased Unicode letter (`Å` to `å`), and a full Unicode case table is beyond this model. Lengths count characters (scalar values), where JavaScript's `length` counts UTF-16 code units, so a single astral character is one character here and two units there.
- LocationSearch.Score: the exact, prefix and substring tiers compare ASCII-lowered texts, so a name and query that differ only in a non-ASCII letter's case (`Ålesund`, `ålesund`) score below the exact tier here, where the code scores them exact.
- LocationSearch.Lookup: the cache key lowers only ASCII, so `Ålesund` and `ålesund` use two cache entries here and one in the code.
- LocationSearch.CaseInsensitiveCache: shared entries are proved across ASCII case differences only, for the reason given under `Text.Lower`.
- LocationSearch.Search: the minimum query length is counted in characters, so a single astral character (two UTF-16 units) is refused here and searched in the code.
- Locations.Create: the `ILike` duplicate-name match folds ASCII letters only, for the reason given under `Text.Lower`.
- WeatherService.ToPoint: names each point's bearing with the corrected 16-point lookup (`Compass.Direction16`, see Findings). As written, the code names a bearing below -11.25 that is not a whole turn from north `undefined`, and the daily mode then counts `undefined` as a direction.
- WeatherService.ToPoints: inherits the corrected direction of `WeatherService.ToPoint`.
- WeatherService.ShapeForecast: hourly directions and daily predominant directions use the corrected lookup, as under `WeatherService.ToPoint`.
- WeatherService.FetchForecast: its forecast points carry the corrected direction, as under `WeatherService.ToPoint`.
- WeatherService.ShapeCurrent: a `dt` or `wind.speed` of a non-number type is not modelled; `dt` is an optional integer and the speed a number. A body that is not an object reads as one without `wind` and `dt`.
- ServiceDaily.MostFrequent: a direction that names a property inherited from `Object.prototype` (`toString`, `constructor`, `valueOf`, `hasOwnProperty` and the like) is counted like any other text. In the code, `acc[val] || 0` starts such a count from the inherited function, so the count becomes a string, and `>` against it is always false; `["N", "N", "N", "toString"]` then gives `toString`. Only `__proto__`, which never becomes an own key, is modelled.
- ServiceDaily.EntryKeys: the same inherited names are listed as ordinary keys, as under `ServiceDaily.MostFrequent`.
- ServiceDaily.DayAverages: inherits the counting of `ServiceDaily.MostFrequent` for the inherited names.
- WeatherService.ListItem: `main.temp`, `wind.speed` and `wind.deg` are taken as present. The code reads them with `?.`, so a missing field gives `undefined` there.
- The OpenWeather API key and URL configuration, module wiring, bootstrap, the health endpoint and the location-search controller are not modelled, being framework plumbing.

## Findings

| source | as written | input that shows it | evidently intended | confidence | as-written member | corrected member |
|---|---|---|---|---|---|---|
| src/weather/utils/weather-transformer.ts:28-29 | `Math.round(deg / 22.5) % 16` keeps the dividend's sign, so a negative bearing gives a negative index and `dirs[idx]` is `undefined` | deg = -22.5 (index -1) | the point one turn round, NNW for -22.5, as the 8-point compasses do by normalising first | not executed | Compass.Direction16AsWritten (shown by Compass.Direction16AsWrittenNegative) | Compass.Direction16 (with Compass.Direction16Agrees, Compass.Direction16Periodic and Compass.Direction16Nearest); the weather service's points use it |

=== FILE: cache_interceptor.dfy ===
/**
 * `WeatherCacheInterceptor.trackBy`: the response-cache key of a weather
 * request, built from the route path and the `lat` and `lon` query
 * parameters exactly as they were sent.
 */
module CacheInterceptor {
  import opened Wrappers
  import opened Text
  import QueryDto

  /** The parameter when it is a non-empty string (`typeof v === 'string'` and truthy). */
  function TextOf(v: QueryDto.Param): (t: Option<string>)
    ensures t.Some? <==> v.Str? && v.s != ""
    ensures t.Some? ==> t.value == v.s
  {
    if v.Str? && v.s != "" then Some(v.s) else None
  }

  /** A query parameter, `Missing` when the query lacks it. */
  function Lookup(query: map<string, QueryDto.Param>, name: string): QueryDto.Param {
    if name in query then query[name] else QueryDto.Missing
  }

  /** `trackBy`: `weather:<path>:<lat>:<lon>`, or no key (no caching) when any of the three is not a non-empty string. */
  function TrackBy(query: map<string, QueryDto.Param>, routePath: QueryDto.Param): (key: Option<string>)
    ensures key.Some? <==> TextOf(Lookup(query, "lat")).Some? && TextOf(Lookup(query, "lon")).Some? && TextOf(routePath).Some?
    ensures key.Some? ==> key.value == "weather:" + routePath.s + ":" + Lookup(query, "lat").s + ":" + Lookup(query, "lon").s
  {
    match (TextOf(Lookup(query, "lat")), TextOf(Lookup(query, "lon")), TextOf(routePath))
    case (Some(lat), Some(lon), Some(path)) => Some("weather:" + path + ":" + lat + ":" + lon)
    case _ => None
  }

  /** Only `lat` and `lon` matter: two queries that agree on them get the same key, whatever else they carry. */
  lemma OtherParamsIgnored(q1: map<string, QueryDto.Param>, q2: map<string, QueryDto.Param>, routePath: QueryDto.Param)
    requires Lookup(q1, "lat") == Lookup(q2, "lat") && Lookup(q1, "lon") == Lookup(q2, "lon")
    ensures TrackBy(q1, routePath) == TrackBy(q2, routePath)
  {
  }

  /**
   * Coordinates are used verbatim: requests on one route whose coordinate
   * texts differ in any way (for instance `1.5` and `1.50`) get different
   * keys, as long as the texts hold no colon.
   */
  lemma KeyIsVerbatim(query1: map<string, QueryDto.Param>, query2: map<string, QueryDto.Param>,
                      path1: QueryDto.Param, path2: QueryDto.Param)
    requires TrackBy(query1, path1).Some? && TrackBy(query2, path2).Some?
    requires NoColon(Lookup(query1, "lat").s) && NoColon(Lookup(query1, "lon").s)
    requires NoColon(Lookup(query2, "lat").s) && NoColon(Lookup(query2, "lon").s)
    ensures TrackBy(query1, path1) == TrackBy(query2, path2) <==>
      && path1.s == path2.s
      && Lookup(query1, "lat").s == Lookup(query2, "lat").s
      && Lookup(query1, "lon").s == Lookup(query2, "lon").s
  {
    var lat1, lon1, lat2, lon2 := Lookup(query1, "lat").s, Lookup(query1, "lon").s, Lookup(query2, "lat").s, Lookup(query2, "lon").s;
    if TrackBy(query1, path1) == TrackBy(query2, path2) {
      assert ("weather:" + path1.s + ":" + lat1) + ":" + lon1 == ("weather:" + path2.s + ":" + lat2) + ":" + lon2;
      JoinSplitsLast("weather:" + path1.s + ":" + lat1, lon1, "weather:" + path2.s + ":" + lat2, lon2);
      JoinSplitsLast("weather:" + path1.s, lat1, "weather:" + path2.s, lat2);
      assert path1.s == ("weather:" + path1.s)[8..];
      assert path2.s == ("weather:" + path2.s)[8..];
    }
  }

  /** A request without `lon` is not cached. */
  lemma MissingLonNotCached(lat: string, routePath: QueryDto.Param)
    ensures TrackBy(map["lat" := QueryDto.Str(lat)], routePath).None?
  {
    assert Lookup(map["lat" := QueryDto.Str(lat)], "lon") == QueryDto.Missing;
  }
}

=== FILE: cache_swr.dfy ===
/**
 * `CacheSwrService.getOrRevalidate`: stale-while-revalidate over the shared
 * store. A logical key owns two store entries, the value under `val:<key>`
 * (kept for the stale window) and a `true` flag under `fresh:<key>` (kept for
 * the freshness window). Computations run through the in-flight registry under
 * `refresh:<key>` or `miss:<key>`; their outcomes arrive as later events.
 */
module CacheSwr {
  import opened Wrappers
  import Store
  import Inflight

  function ValueKey(key: string): string {
    "val:" + key
  }

  function FreshKey(key: string): string {
    "fresh:" + key
  }

  function RefreshJob(key: string): string {
    "refresh:" + key
  }

  function MissJob(key: string): string {
    "miss:" + key
  }

  /** The four prefixes keep every logical key's entries and jobs apart from every other's. */
  lemma KeysApart(a: string, b: string)
    ensures ValueKey(a) != FreshKey(b)
    ensures RefreshJob(a) != MissJob(b)
    ensures ValueKey(a) == ValueKey(b) ==> a == b
    ensures FreshKey(a) == FreshKey(b) ==> a == b
    ensures RefreshJob(a) == RefreshJob(b) ==> a == b
    ensures MissJob(a) == MissJob(b) ==> a == b
  {
    assert ValueKey(a)[0] == 'v' && FreshKey(b)[0] == 'f';
    assert RefreshJob(a)[0] == 'r' && MissJob(b)[0] == 'm';
    if ValueKey(a) == ValueKey(b) {
      assert a == ValueKey(a)[4..] == ValueKey(b)[4..] == b;
    }
    if FreshKey(a) == FreshKey(b) {
      assert a == FreshKey(a)[6..] == FreshKey(b)[6..] == b;
    }
    if RefreshJob(a) == RefreshJob(b) {
      assert a == RefreshJob(a)[8..] == RefreshJob(b)[8..] == b;
    }
    if MissJob(a) == MissJob(b) {
      assert a == MissJob(a)[5..] == MissJob(b)[5..] == b;
    }
  }

  /**
   * The store as seen by this service: values and freshness flags (their keys
   * never collide, see `KeysApart`), plus the shared in-flight registry.
   */
  datatype Cache<V> = Cache(values: Store.Store<V>, flags: Store.Store<bool>, jobs: Inflight.Registry)

  datatype Status<V> = Fresh(value: V) | Stale(value: V) | Missing

  /**
   * What the two reads find. Both tests are truthiness tests: a falsy cached
   * value counts as absent, and the flag counts only when it reads `true`.
   */
  function Classify<V>(c: Cache<V>, key: string, now: int, truthy: V -> bool): (st: Status<V>)
    ensures st.Fresh? <==> (var v := Store.Get(c.values, ValueKey(key), now);
      v.Some? && truthy(v.value) && Store.Get(c.flags, FreshKey(key), now) == Some(true))
    ensures st.Stale? <==> (var v := Store.Get(c.values, ValueKey(key), now);
      v.Some? && truthy(v.value) && Store.Get(c.flags, FreshKey(key), now) != Some(true))
    ensures !st.Missing? ==> Store.Get(c.values, ValueKey(key), now) == Some(st.value)
  {
    var value := Store.Get(c.values, ValueKey(key), now);
    var isFresh := Store.Get(c.flags, FreshKey(key), now) == Some(true);
    if value.Some? && truthy(value.value) then
      if isFresh then Fresh(value.value) else Stale(value.value)
    else Missing
  }

  /** The caller either gets a value at once or waits on a pending computation's ticket. */
  datatype Reply<V> = Immediate(value: V) | Awaiting(ticket: nat)

  datatype Served<V> = Served(cache: Cache<V>, status: Status<V>, reply: Reply<V>)

  /** `getOrRevalidate(key, …)` at instant now. */
  function GetOrRevalidate<V>(c: Cache<V>, key: string, now: int, truthy: V -> bool): (r: Served<V>)
    ensures r.status == Classify(c, key, now, truthy)
    ensures r.cache.values == c.values && r.cache.flags == c.flags
    ensures r.status.Fresh? ==> r.cache == c && r.reply == Immediate(r.status.value)
    ensures r.status.Stale? ==>
      r.reply == Immediate(r.status.value) && r.cache.jobs == Inflight.Run(c.jobs, RefreshJob(key)).registry
    ensures r.status.Missing? ==>
      var j := Inflight.Run(c.jobs, MissJob(key));
      r.reply == Awaiting(j.ticket) && r.cache.jobs == j.registry
  {
    var status := Classify(c, key, now, truthy);
    match status
    case Fresh(v) => Served(c, status, Immediate(v))
    case Stale(v) =>
      var j := Inflight.Run(c.jobs, RefreshJob(key));
      Served(c.(jobs := j.registry), status, Immediate(v))
    case Missing =>
      var j := Inflight.Run(c.jobs, MissJob(key));
      Served(c.(jobs := j.registry), status, Awaiting(j.ticket))
  }

  /** First write of a successful computation: the value, for the stale window. */
  function WriteValue<V>(c: Cache<V>, key: string, v: V, staleSec: int, now: int): (c': Cache<V>)
    requires staleSec > 0
    ensures c'.flags == c.flags && c'.jobs == c.jobs
    ensures forall t :: now <= t < now + staleSec ==> Store.Get(c'.values, ValueKey(key), t) == Some(v)
    ensures forall t :: t >= now + staleSec ==> Store.Get(c'.values, ValueKey(key), t) == None
  {
    c.(values := Store.Set(c.values, ValueKey(key), v, staleSec, now))
  }

  /** Second write: the flag `true`, for the freshness window. */
  function WriteFlag<V>(c: Cache<V>, key: string, freshnessSec: int, now: int): (c': Cache<V>)
    requires freshnessSec > 0
    ensures c'.values == c.values && c'.jobs == c.jobs
    ensures forall t :: now <= t < now + freshnessSec ==> Store.Get(c'.flags, FreshKey(key), t) == Some(true)
    ensures forall t :: t >= now + freshnessSec ==> Store.Get(c'.flags, FreshKey(key), t) == None
  {
    c.(flags := Store.Set(c.flags, FreshKey(key), true, freshnessSec, now))
  }

  /**
   * A job's computation settles at instant now: on success the value and then
   * the flag are written; on failure nothing is written. Either way the job's
   * registry entry is removed afterwards.
   */
  function Complete<V, E>(c: Cache<V>, key: string, job: string, outcome: Result<V, E>,
                          freshnessSec: int, staleSec: int, now: int): (c': Cache<V>)
    requires freshnessSec > 0 && staleSec > 0
    ensures c'.jobs == Inflight.Settle(c.jobs, job)
    ensures outcome.Failure? ==> c'.values == c.values && c'.flags == c.flags
    ensures outcome.Success? ==>
      && Store.Get(c'.values, ValueKey(key), now) == Some(outcome.value)
      && Store.Get(c'.flags, FreshKey(key), now) == Some(true)
    ensures forall k :: k != ValueKey(key) ==> Store.SameView(c'.values, c.values, k, now)
    ensures forall k :: k != FreshKey(key) ==> Store.SameView(c'.flags, c.flags, k, now)
  {
    match outcome
    case Failure(_) => c.(jobs := Inflight.Settle(c.jobs, job))
    case Success(v) =>
      var written := WriteFlag(WriteValue(c, key, v, staleSec, now), key, freshnessSec, now);
      written.(jobs := Inflight.Settle(c.jobs, job))
  }

  /**
   * A reader arriving between the two writes of a computation that found no flag
   * sees the new value as stale, never a flag without its value.
   */
  lemma BetweenWritesIsStale<V>(c: Cache<V>, key: string, v: V, staleSec: int, now: int, truthy: V -> bool)
    requires staleSec > 0 && truthy(v)
    requires Store.Get(c.flags, FreshKey(key), now) != Some(true)
    ensures Classify(WriteValue(c, key, v, staleSec, now), key, now, truthy) == Stale(v)
  {
  }

  /** A falsy cached value is served as a miss even while its flag is set. */
  lemma FalsyValueIsMiss<V>(c: Cache<V>, key: string, now: int, truthy: V -> bool)
    requires var v := Store.Get(c.values, ValueKey(key), now); v.Some? && !truthy(v.value)
    ensures Classify(c, key, now, truthy) == Missing
    ensures GetOrRevalidate(c, key, now, truthy).reply.Awaiting?
  {
  }

  /**
   * After a successful computation at t0, with freshnessSec ≤ staleSec: reads are
   * fresh for freshnessSec seconds, stale until staleSec, and misses from then on.
   */
  lemma Timeline<V, E>(c: Cache<V>, key: string, job: string, v: V, freshnessSec: int, staleSec: int,
                       t0: int, t: int, truthy: V -> bool)
    requires 0 < freshnessSec <= staleSec && truthy(v) && t0 <= t
    ensures var c' := Complete<V, E>(c, key, job, Success(v), freshnessSec, staleSec, t0);
      && (t < t0 + freshnessSec ==> Classify(c', key, t, truthy) == Fresh(v))
      && (t0 + freshnessSec <= t < t0 + staleSec ==> Classify(c', key, t, truthy) == Stale(v))
      && (t0 + staleSec <= t ==> Classify(c', key, t, truthy) == Missing)
  {
    var w1 := WriteValue(c, key, v, staleSec, t0);
    var w2 := WriteFlag(w1, key, freshnessSec, t0);
    assert Store.Get(w2.values, ValueKey(key), t) == Store.Get(w1.values, ValueKey(key), t);
  }

  /** A failed refresh leaves the stale value in place: later readers still get it, as stale. */
  lemma FailedRefreshKeepsStaleValue<V, E>(c: Cache<V>, key: string, e: E, freshnessSec: int, staleSec: int,
                                           now: int, truthy: V -> bool)
    requires freshnessSec > 0 && staleSec > 0
    requires Classify(c, key, now, truthy).Stale?
    ensures var s := GetOrRevalidate(c, key, now, truthy);
      var c' := Complete<V, E>(s.cache, key, RefreshJob(key), Failure(e), freshnessSec, staleSec, now);
      Classify(c', key, now, truthy) == Classify(c, key, now, truthy)
  {
  }

  /** Readers of a stale entry during a pending refresh start no second computation. */
  lemma StaleReadersShareRefresh<V>(c: Cache<V>, key: string, now: int, later: int, truthy: V -> bool)
    requires Inflight.Valid(c.jobs)
    requires Classify(c, key, now, truthy).Stale? && Classify(c, key, later, truthy).Stale?
    ensures var s1 := GetOrRevalidate(c, key, now, truthy);
      var s2 := GetOrRevalidate(s1.cache, key, later, truthy);
      && |s2.cache.jobs.started| <= |c.jobs.started| + 1
      && RefreshJob(key) in s2.cache.jobs.inflight
  {
  }

  /**
   * Two readers missing on one key before its computation settles wait on the
   * same ticket, so compute runs once and both receive its result or its error.
   */
  lemma MissReadersShareComputation<V, E>(c: Cache<V>, key: string, now: int, later: int,
                                          truthy: V -> bool, outcomes: seq<Result<V, E>>)
    requires Inflight.Valid(c.jobs)
    requires Classify(c, key, now, truthy).Missing? && Classify(c, key, later, truthy).Missing?
    requires |outcomes| > |c.jobs.started|
    ensures var s1 := GetOrRevalidate(c, key, now, truthy);
      var s2 := GetOrRevalidate(s1.cache, key, later, truthy);
      && s1.reply.Awaiting? && s2.reply == s1.reply
      && |s2.cache.jobs.started| <= |c.jobs.started| + 1
      && Inflight.Await(outcomes, s2.reply.ticket) == Inflight.Await(outcomes, s1.reply.ticket)
  {
  }

  /**
   * Freshness 180 s, stale window 300 s: after a miss is computed and stored at 0,
   * a read at 100 is fresh and starts nothing, a read at 200 is stale and starts
   * one refresh, and a read at 400 is a miss that computes again.
   */
  lemma Scenario<V, E>(key: string, v: V, truthy: V -> bool)
    requires truthy(v)
    ensures var c0 := Cache(map[], map[], Inflight.Empty());
      var s0 := GetOrRevalidate(c0, key, 0, truthy);
      var c1 := Complete<V, E>(s0.cache, key, MissJob(key), Success(v), 180, 300, 0);
      var s100 := GetOrRevalidate(c1, key, 100, truthy);
      var s200 := GetOrRevalidate(c1, key, 200, truthy);
      var s400 := GetOrRevalidate(c1, key, 400, truthy);
      && s0.status == Missing && s0.reply.Awaiting?
      && s100.status == Fresh(v) && s100.reply == Immediate(v) && s100.cache == c1
      && s200.status == Stale(v) && s200.reply == Immediate(v)
      && |s200.cache.jobs.started| == |c1.jobs.started| + 1
      && s400.status == Missing && s400.reply.Awaiting?
      && |s400.cache.jobs.started| == |c1.jobs.started| + 1
  {
    var c0 := Cache(map[], map[], Inflight.Empty());
    var s0 := GetOrRevalidate(c0, key, 0, truthy);
    var c1 := Complete<V, E>(s0.cache, key, MissJob(key), Success(v), 180, 300, 0);
    Timeline<V, E>(s0.cache, key, MissJob(key), v, 180, 300, 0, 100, truthy);
    Timeline<V, E>(s0.cache, key, MissJob(key), v, 180, 300, 0, 200, truthy);
    Timeline<V, E>(s0.cache, key, MissJob(key), v, 180, 300, 0, 400, truthy);
    KeysApart(key, key);
    assert c1.jobs.inflight == map[];
  }
}

=== FILE: compass.dfy ===
/**
 * Wind-direction naming. Three variants exist: the 16-point
 * `WeatherTransformer.getWindDirection`, the 8-point
 * `WeatherTransformerService.getWindDirection` (which normalises degrees into
 * [0, 360) first), and the 8-point helper of `OpenWeatherService`. The
 * sanitising transformers of the service sit here too.
 */
module Compass {
  import opened Wrappers
  import opened JsNumber

  const Points16: seq<string> := ["N", "NNE", "NE", "ENE", "E", "ESE", "SE", "SSE",
                                  "S", "SSW", "SW", "WSW", "W", "WNW", "NW", "NNW"]

  const Points8: seq<string> := ["N", "NE", "E", "SE", "S", "SW", "W", "NW"]

  // ------------------------------------------------------------- 16 points

  /**
   * The 16-point lookup as written: `dirs[Math.round(deg / 22.5) % 16]`, where
   * `deg` may be null (`None`). `None` in the result stands for `undefined`,
   * what indexing the table at a negative or NaN position yields.
   */
  function Direction16AsWritten(deg: Option<Num>): (d: Option<string>)
    ensures deg.None? || deg == Some(NaN) ==> d == Some("N")
    ensures deg == Some(PosInf) || deg == Some(NegInf) ==> d.None?
    ensures d.Some? ==> d.value in Points16
  {
    match deg
    case None => Some("N")
    case Some(NaN) => Some("N")
    case Some(Finite(x)) =>
      var idx := IntRem(Round(x / 22.5), 16);
      if idx >= 0 then Some(Points16[idx]) else None
    // round(±Infinity) % 16 is NaN, and no table entry sits at NaN
    case Some(_) => None
  }

  /** A negative bearing one sector west of north finds no name at all. */
  lemma Direction16AsWrittenNegative()
    ensures Direction16AsWritten(Some(Finite(-22.5))) == None
  {
    assert Round(-22.5 / 22.5) == -1;
  }

  /**
   * The 16-point lookup with the sector index reduced into 0..15 (Euclidean
   * modulo), so a negative bearing names the sector it points into.
   */
  function Direction16(deg: Option<Num>): (d: Option<string>)
    ensures deg.None? || deg == Some(NaN) ==> d == Some("N")
    ensures deg.Some? && deg.value.Finite? ==> d.Some?
    ensures deg.Some? && (deg.value.PosInf? || deg.value.NegInf?) ==> d.None?
    ensures d.Some? ==> d.value in Points16
  {
    match deg
    case None => Some("N")
    case Some(NaN) => Some("N")
    case Some(Finite(x)) => Some(Points16[Round(x / 22.5) % 16])
    case Some(_) => None
  }

  /** Wherever the lookup as written produces a name, the corrected one produces the same. */
  lemma Direction16Agrees(deg: Option<Num>)
    ensures Direction16AsWritten(deg).Some? ==> Direction16(deg) == Direction16AsWritten(deg)
    ensures deg.Some? && deg.value.Finite? && deg.value.value >= 0.0 ==>
      Direction16AsWritten(deg) == Direction16(deg) && Direction16(deg).Some?
  {
    if deg.Some? && deg.value.Finite? {
      var y := deg.value.value / 22.5;
      IntRemAgrees(Round(y));
      if y >= 0.0 {
        assert Round(y) >= 0;
      }
    }
  }

  /** Where the truncating remainder is not negative it is the Euclidean one. */
  lemma IntRemAgrees(a: int)
    ensures IntRem(a, 16) >= 0 ==> IntRem(a, 16) == a % 16
  {
    if a < 0 && IntRem(a, 16) == 0 {
      assert (-a) % 16 == 0;
      var k := (-a) / 16;
      assert a == 16 * (-k);
    }
  }

  /** Bearings one full turn apart get the same name. */
  lemma Direction16Periodic(x: real)
    ensures Direction16(Some(Finite(x + 360.0))) == Direction16(Some(Finite(x)))
  {
    var y := x / 22.5;
    assert (x + 360.0) / 22.5 == y + 16 as real;
    RoundShift(y, 16);
    var n := Round(y);
    assert Round((x + 360.0) / 22.5) == n + 16;
    ShiftMod16(n);
    assert Direction16(Some(Finite(x + 360.0))) == Some(Points16[(n + 16) % 16]);
  }

  lemma ShiftMod16(n: int)
    ensures (n + 16) % 16 == n % 16
  {
  }

  /** Shifting by a whole number shifts the rounded value by the same amount. */
  lemma RoundShift(y: real, k: int)
    ensures Round(y + k as real) == Round(y) + k
  {
  }

  lemma Direction16Examples()
    ensures Direction16AsWritten(Some(Finite(360.0))) == Some("N")
    ensures Direction16AsWritten(Some(Finite(0.0))) == Some("N")
    ensures Direction16AsWritten(Some(Finite(90.0))) == Some("E")
    ensures Direction16(Some(Finite(-22.5))) == Some("NNW")
  {
    assert Round(360.0 / 22.5) == 16;
    assert Round(90.0 / 22.5) == 4;
    assert Round(-22.5 / 22.5) == -1;
  }

  /**
   * The corrected lookup names the nearest of the sixteen points: sector k is
   * centred on k·22.5 degrees and covers the half-open span from 11.25 below
   * to 11.25 above (halves round up, as `Math.round` does), and the name is
   * the point k sectors round from north, whole turns ignored.
   */
  lemma Direction16Nearest(x: real, k: int)
    requires -11.25 <= x - 22.5 * k as real < 11.25
    ensures Direction16(Some(Finite(x))) == Some(Points16[k % 16])
  {
    RoundIsSector(x, k);
  }

  /**
   * The lookup as written names the same nearest point, except that a bearing
   * below -11.25 finds nothing unless its sector is a whole number of turns
   * from north.
   */
  lemma Direction16AsWrittenNearest(x: real, k: int)
    requires -11.25 <= x - 22.5 * k as real < 11.25
    ensures Direction16AsWritten(Some(Finite(x))).None? <==> x < -11.25 && k % 16 != 0
    ensures Direction16AsWritten(Some(Finite(x))).Some? ==> Direction16AsWritten(Some(Finite(x))) == Some(Points16[k % 16])
  {
    RoundIsSector(x, k);
    var r := IntRem(k, 16);
    IntRemAgrees(k);
    if r < 0 {
      assert k < 0;
      assert (k - r) % 16 == 0;
      ModUnique(k, 16, (k - r) / 16 - 1, r + 16);
    }
  }

  /** The sector a bearing falls in is the rounded bearing divided by 22.5. */
  lemma RoundIsSector(x: real, k: int)
    requires -11.25 <= x - 22.5 * k as real < 11.25
    ensures Round(x / 22.5) == k
  {
    var y := x / 22.5;
    assert y - 0.5 < k as real <= y + 0.5;
  }

  // -------------------------------------------------------------- 8 points

  /** `((degrees % 360) + 360) % 360` equals the representative of degrees in [0, 360). */
  lemma NormalizeIsMod360(x: real)
    ensures Rem360(Rem360(x) + 360.0) == Mod360(x)
  {
    var r := Rem360(x);
    Rem360Mod360(x);
    Rem360Mod360(r + 360.0);
    if x >= 0.0 {
      Mod360Unique(r + 360.0, 1, r);
    } else if r < 0.0 {
      Mod360Unique(r + 360.0, 0, r + 360.0);
    } else {
      Mod360Unique(r + 360.0, 1, 0.0);
    }
  }

  /** Sector of a bearing in [0, 360): round(n / 45) lies in 0..8, and 8 wraps to north. */
  function Sector8(n: real): (i: nat)
    requires 0.0 <= n < 360.0
    ensures i < 8
  {
    IntRem(Round(n / 45.0), 8)
  }

  /**
   * `WeatherTransformerService.getWindDirection`: 'N/A' for a non-finite value,
   * otherwise the 8-point name of the bearing reduced into [0, 360).
   */
  function Direction8(deg: Num): (d: string)
    ensures !deg.IsFinite() ==> d == "N/A"
    ensures deg.IsFinite() ==> d == Points8[Round(Mod360(deg.value) / 45.0) % 8]
  {
    match deg
    case Finite(x) =>
      var normalized := Rem360(Rem360(x) + 360.0);
      NormalizeIsMod360(x);
      Points8[Sector8(normalized)]
    case _ => "N/A"
  }

  /** Every finite bearing is named by one of the eight points. */
  lemma Direction8Named(x: real)
    ensures Direction8(Finite(x)) in Points8 && Direction8(Finite(x)) != "N/A"
  {
  }

  /** Bearings one full turn apart, including negative ones, get the same name. */
  lemma Direction8Periodic(x: real)
    ensures Direction8(Finite(x + 360.0)) == Direction8(Finite(x))
  {
    Mod360Periodic(x);
  }

  /**
   * `OpenWeatherService.getWindDirection`: `degrees %= 360`, plus 360 when the
   * remainder is negative, then the 8-point sector; `None` is `undefined`.
   */
  function OwmDirection(deg: Num): (d: Option<string>)
    ensures !deg.IsFinite() ==> d.None?
    ensures deg.IsFinite() ==> d == Some(Direction8(deg))
  {
    match deg
    case Finite(x) =>
      var r := Rem360(x);
      var n := if r < 0.0 then r + 360.0 else r;
      Rem360Mod360(x);
      Some(Points8[Sector8(n)])
    // NaN and ±Infinity leave NaN after `%= 360`, and no table entry sits at NaN
    case _ => None
  }

  lemma OwmDirectionExamples()
    ensures OwmDirection(Finite(10.0)) == Some("N")
    ensures OwmDirection(Finite(200.0)) == Some("S")
    ensures OwmDirection(Finite(-90.0)) == Some("W")
  {
    assert Round(10.0 / 45.0) == 0;
    assert Round(200.0 / 45.0) == 4;
    Mod360Unique(-90.0, -1, 270.0);
    assert Round(270.0 / 45.0) == 6;
  }

  // ---------------------------------------------------------- transformers

  /** `Number.isFinite(x) ? x : 0`. */
  function Sanitize(x: Num): (r: real)
    ensures x.IsFinite() ==> r == x.value
    ensures !x.IsFinite() ==> r == 0.0
  {
    if x.Finite? then x.value else 0.0
  }

  datatype WindData = WindData(speed: real, degrees: real, direction: string)

  /** `transformWindData(speed, degrees)`: both sanitised; the direction comes from the sanitised degrees. */
  function TransformWind(speed: Num, degrees: Num): (w: WindData)
    ensures w.speed == Sanitize(speed) && w.degrees == Sanitize(degrees)
    ensures w.direction in Points8 && w.direction != "N/A"
    ensures !degrees.IsFinite() ==> w.direction == "N"
    ensures degrees.IsFinite() ==> w.direction == Direction8(degrees)
  {
    var d := Sanitize(degrees);
    Direction8Named(d);
    Mod360Unique(0.0, 0, 0.0);
    WindData(Sanitize(speed), d, Direction8(Finite(d)))
  }

  datatype WeatherData = WeatherData(temperature: real, windSpeed: real, windDirection: string)

  /** `transformWeatherData`: a non-finite temperature becomes 0; wind as in `TransformWind`. */
  function TransformWeather(temp: Num, speed: Num, deg: Num): (w: WeatherData)
    ensures w.temperature == Sanitize(temp)
    ensures w.windSpeed == Sanitize(speed)
    ensures w.windDirection == TransformWind(speed, deg).direction && w.windDirection != "N/A"
  {
    var wind := TransformWind(speed, deg);
    WeatherData(Sanitize(temp), wind.speed, wind.direction)
  }
}

=== FILE: daily_service.dfy ===
/**
 * `WeatherTransformerService.calculateDailyAverages`: forecast points grouped
 * by UTC day into an object, one entry per day in the order the days first
 * appear (`Object.entries` keeps insertion order for date-string keys, which
 * are never array indices), each with the mean wind speed and the most
 * frequent direction. The directions are counted in a second object, whose
 * `Object.entries` order puts array-index keys first and never lists
 * `__proto__`.
 */
module ServiceDaily {
  import opened Wrappers
  import opened JsNumber
  import Tally
  import Sorting
  import DailySummary
  import Text
  import opened Exceptions

  /** One `WeatherForecastData` item: the speed may be any JavaScript number. */
  datatype Item = Item(temperature: Num, windSpeed: Num, windDirection: string, timestamp: int)

  datatype DayAverage = DayAverage(day: int, avgWindSpeed: real, predominantDirection: string)

  const NoDirection := "N/A"

  function ItemDay(x: Item): int {
    DailySummary.DayOf(x.timestamp)
  }

  // --------------------------------------------------------------- average

  /** `Number.isFinite(val) ? val : 0`. */
  function Finite0(x: Num): real {
    if x.Finite? then x.value else 0.0
  }

  /** The sum with every non-finite value counted as 0. */
  function SumFinite(xs: seq<Num>): real
    decreases |xs|
  {
    if |xs| == 0 then 0.0 else SumFinite(xs[..|xs| - 1]) + Finite0(xs[|xs| - 1])
  }

  /** `calculateAverage`: 0 for an empty list, otherwise the mean with non-finite values as 0. */
  function CalculateAverage(xs: seq<Num>): (avg: real)
    ensures |xs| == 0 ==> avg == 0.0
    ensures |xs| > 0 ==> avg * |xs| as real == SumFinite(xs)
  {
    if |xs| == 0 then 0.0 else SumFinite(xs) / |xs| as real
  }

  /** Only the finite values count: replacing every entry by its sanitised value changes nothing. */
  lemma {:induction false} SumFiniteSanitised(xs: seq<Num>)
    ensures SumFinite(xs) == DailySummary.Sum(seq(|xs|, i requires 0 <= i < |xs| => Finite0(xs[i])))
    decreases |xs|
  {
    if |xs| > 0 {
      var n := |xs|;
      var init := xs[..n - 1];
      SumFiniteSanitised(init);
      var ys := seq(n, i requires 0 <= i < n => Finite0(xs[i]));
      assert ys[..n - 1] == seq(n - 1, i requires 0 <= i < n - 1 => Finite0(init[i]));
    }
  }

  /** All finite values within [lo, hi] (lo <= 0 <= hi when some are not finite) keep the average within [lo, hi]. */
  lemma AverageBounds(xs: seq<Num>, lo: real, hi: real)
    requires |xs| > 0
    requires forall i :: 0 <= i < |xs| ==> lo <= Finite0(xs[i]) <= hi
    ensures lo <= CalculateAverage(xs) <= hi
  {
    var ys := seq(|xs|, i requires 0 <= i < |xs| => Finite0(xs[i]));
    SumFiniteSanitised(xs);
    DailySummary.SumBounds(ys, lo, hi);
    DailySummary.DivWithin(SumFinite(xs), |xs| as real, CalculateAverage(xs), lo, hi);
  }

  // ------------------------------------------------------------ own keys

  /** Writing a number to `acc["__proto__"]` is ignored, so this value never becomes an own key. */
  const ProtoKey := "__proto__"

  /**
   * An array index: the canonical decimal form (no sign, no leading zero) of
   * an integer below 2^32 - 1.
   */
  predicate ArrayIndex(s: string) {
    && Text.AllDigits(s)
    && |s| > 0
    && Text.NatToString(Text.DigitsValue(s)) == s
    && Text.DigitsValue(s) < 0xFFFF_FFFF
  }

  function IndexValue(s: string): int {
    if ArrayIndex(s) then Text.DigitsValue(s) else 0
  }

  /** Array indices are canonical, so distinct ones have distinct values. */
  lemma IndexValueInjective(a: string, b: string)
    requires ArrayIndex(a) && ArrayIndex(b) && a != b
    ensures IndexValue(a) != IndexValue(b)
  {
  }

  /**
   * The array-index keys of the `counts` object after assigning each value of
   * arr in turn: every array index once, in ascending numeric order.
   */
  function IndexPart(arr: seq<string>): (ks: seq<string>)
    ensures forall k :: k in ks <==> k in arr && ArrayIndex(k)
    ensures forall i, j :: 0 <= i < j < |ks| ==> IndexValue(ks[i]) < IndexValue(ks[j])
    decreases |arr|
  {
    if |arr| == 0 then []
    else
      var init := arr[..|arr| - 1];
      var x := arr[|arr| - 1];
      assert arr == init + [x];
      var ks := IndexPart(init);
      if !ArrayIndex(x) || x in ks then ks
      else
        InsertIndexKey(x, ks);
        Sorting.Insert(x, ks, IndexValue)
  }

  /** A new array index joins the ascending run in its place. */
  lemma InsertIndexKey(x: string, ks: seq<string>)
    requires ArrayIndex(x) && x !in ks
    requires forall i :: 0 <= i < |ks| ==> ArrayIndex(ks[i])
    requires forall i, j :: 0 <= i < j < |ks| ==> IndexValue(ks[i]) < IndexValue(ks[j])
    ensures var r := Sorting.Insert(x, ks, IndexValue);
      && (forall k :: k in r <==> k in ks || k == x)
      && (forall i, j :: 0 <= i < j < |r| ==> IndexValue(r[i]) < IndexValue(r[j]))
  {
    var r := Sorting.Insert(x, ks, IndexValue);
    forall i | 0 <= i < |ks|
      ensures IndexValue(ks[i]) != IndexValue(x)
    {
      IndexValueInjective(ks[i], x);
    }
    Sorting.InsertSorted(x, ks, IndexValue);
    Sorting.InsertKeepsKeysDistinct(x, ks, IndexValue, IndexValue);
    InsertMembers(x, ks);
  }

  lemma InsertMembers(x: string, ks: seq<string>)
    ensures forall k :: k in Sorting.Insert(x, ks, IndexValue) <==> k in ks || k == x
  {
    var r := Sorting.Insert(x, ks, IndexValue);
    assert forall k :: k in r <==> k in multiset(r);
  }

  /**
   * The other keys of the `counts` object after assigning each value of arr
   * in turn: every value that is neither an array index nor `__proto__`,
   * once, in the order it was first assigned.
   */
  function PlainPart(arr: seq<string>): (ks: seq<string>)
    ensures forall k :: k in ks <==> k in arr && !ArrayIndex(k) && k != ProtoKey
    ensures forall i, j :: 0 <= i < j < |ks| ==> Tally.FirstIndex(arr, ks[i]) < Tally.FirstIndex(arr, ks[j])
    decreases |arr|
  {
    if |arr| == 0 then []
    else
      var init := arr[..|arr| - 1];
      var x := arr[|arr| - 1];
      assert arr == init + [x];
      var ks := PlainPart(init);
      Tally.DedupOrderSnoc(init, x, ks);
      if ArrayIndex(x) || x == ProtoKey || x in ks then ks else ks + [x]
  }

  /**
   * The keys of the `counts` object in `Object.entries` order: the array
   * indices first, ascending, then the other strings in the order they were
   * first assigned; `__proto__` is never among them.
   */
  function EntryKeys(arr: seq<string>): (ks: seq<string>)
    ensures forall k :: k in ks <==> k in arr && k != ProtoKey
    ensures forall i, j :: 0 <= i < j < |ks| ==> ks[i] != ks[j]
    ensures forall i, j :: 0 <= i < j < |ks| && ArrayIndex(ks[j]) ==>
      ArrayIndex(ks[i]) && IndexValue(ks[i]) < IndexValue(ks[j])
    ensures forall i, j :: 0 <= i < j < |ks| && !ArrayIndex(ks[i]) ==>
      !ArrayIndex(ks[j]) && Tally.FirstIndex(arr, ks[i]) < Tally.FirstIndex(arr, ks[j])
  {
    var a := IndexPart(arr);
    var b := PlainPart(arr);
    var ks := a + b;
    forall i | 0 <= i < |ks|
      ensures i < |a| ==> ks[i] == a[i] && ArrayIndex(ks[i])
      ensures |a| <= i ==> ks[i] == b[i - |a|] && !ArrayIndex(ks[i])
    {
      if i < |a| {
        assert a[i] in a;
      } else {
        assert b[i - |a|] in b;
      }
    }
    forall i, j | 0 <= i < j < |ks|
      ensures ks[i] != ks[j]
      ensures ArrayIndex(ks[j]) ==> ArrayIndex(ks[i]) && IndexValue(ks[i]) < IndexValue(ks[j])
      ensures !ArrayIndex(ks[i]) ==> !ArrayIndex(ks[j]) && Tally.FirstIndex(arr, ks[i]) < Tally.FirstIndex(arr, ks[j])
    {
      if j < |a| {
        assert IndexValue(a[i]) < IndexValue(a[j]);
      } else if |a| <= i {
        assert Tally.FirstIndex(arr, b[i - |a|]) < Tally.FirstIndex(arr, b[j - |a|]);
      }
    }
    ks
  }

  /** Without array indices and `__proto__`, the entries keep the order of first appearance. */
  lemma PlainEntryKeys(arr: seq<string>)
    requires forall i :: 0 <= i < |arr| ==> !ArrayIndex(arr[i]) && arr[i] != ProtoKey
    ensures EntryKeys(arr) == Tally.Dedup(arr)
  {
    var a := IndexPart(arr);
    if |a| > 0 {
      assert a[0] in a;
    }
    PlainPartIsDedup(arr);
    assert EntryKeys(arr) == a + PlainPart(arr);
  }

  lemma {:induction false} PlainPartIsDedup(arr: seq<string>)
    requires forall i :: 0 <= i < |arr| ==> !ArrayIndex(arr[i]) && arr[i] != ProtoKey
    ensures PlainPart(arr) == Tally.Dedup(arr)
    decreases |arr|
  {
    if |arr| > 0 {
      var init := arr[..|arr| - 1];
      assert arr == init + [arr[|arr| - 1]];
      PlainPartIsDedup(init);
    }
  }

  // ---------------------------------------------------------- most frequent

  /**
   * `entries.reduce((a, b) => (a[1] > b[1] ? a : b))` over the keys ks with
   * their counts in arr: the accumulator survives only a strictly smaller
   * count, so the position returned holds a most frequent key and no later
   * key ties it.
   */
  function Pick(arr: seq<string>, ks: seq<string>): (i: nat)
    requires |ks| > 0
    ensures i < |ks|
    ensures forall j :: 0 <= j < |ks| ==> Tally.Count(arr, ks[j]) <= Tally.Count(arr, ks[i])
    ensures forall j :: i < j < |ks| ==> Tally.Count(arr, ks[j]) < Tally.Count(arr, ks[i])
    decreases |ks|
  {
    if |ks| == 1 then 0
    else
      var init := ks[..|ks| - 1];
      var a := Pick(arr, init);
      assert forall j :: 0 <= j < |init| ==> ks[j] == init[j];
      if Tally.Count(arr, ks[a]) > Tally.Count(arr, ks[|ks| - 1]) then a else |ks| - 1
  }

  /** The `TypeError` of `reduce` without an initial value on an empty array. */
  const EmptyReduce := "Reduce of empty array with no initial value"

  /**
   * `getMostFrequent`: 'N/A' for an empty list; a `TypeError` when the counts
   * object has no own key (every value is `__proto__`); otherwise the reduce
   * over the own keys in `Object.entries` order.
   */
  function MostFrequent(arr: seq<string>): (r: Result<string, Thrown>)
    ensures |arr| == 0 ==> r == Success(NoDirection)
    ensures r.Failure? <==> |arr| > 0 && forall i :: 0 <= i < |arr| ==> arr[i] == ProtoKey
    ensures r.Failure? ==> r.error == Unknown(true, EmptyReduce)
    ensures |arr| > 0 && r.Success? ==> r.value in arr && r.value != ProtoKey
  {
    if |arr| == 0 then Success(NoDirection)
    else
      var ks := EntryKeys(arr);
      NoKeysIff(arr);
      if |ks| == 0 then Failure(Unknown(true, EmptyReduce))
      else
        var k := ks[Pick(arr, ks)];
        assert k in ks;
        Success(k)
  }

  /** The counts object has no own key exactly when every value is `__proto__`. */
  lemma NoKeysIff(arr: seq<string>)
    ensures |EntryKeys(arr)| == 0 <==> forall i :: 0 <= i < |arr| ==> arr[i] == ProtoKey
  {
    var ks := EntryKeys(arr);
    if |ks| == 0 {
      forall i | 0 <= i < |arr| ensures arr[i] == ProtoKey { assert arr[i] !in ks; }
    } else {
      assert ks[0] in arr;
    }
  }

  /** The result is a most frequent value: no value but `__proto__` occurs more often. */
  lemma MostFrequentIsMax(arr: seq<string>)
    requires |arr| > 0 && MostFrequent(arr).Success?
    ensures forall x :: x != ProtoKey ==> Tally.Count(arr, x) <= Tally.Count(arr, MostFrequent(arr).value)
  {
    var ks := EntryKeys(arr);
    var r := MostFrequent(arr).value;
    assert r == ks[Pick(arr, ks)];
    forall x | x != ProtoKey
      ensures Tally.Count(arr, x) <= Tally.Count(arr, r)
    {
      Tally.CountPositive(arr, x);
      if x in arr {
        assert x in ks;
      }
    }
  }

  /** Ties go to the key `Object.entries` lists last: every key listed after the result is strictly rarer. */
  lemma MostFrequentLastListed(arr: seq<string>)
    requires |arr| > 0 && MostFrequent(arr).Success?
    ensures var ks, r := EntryKeys(arr), MostFrequent(arr).value;
      exists i :: 0 <= i < |ks| && ks[i] == r && forall j :: i < j < |ks| ==> Tally.Count(arr, ks[j]) < Tally.Count(arr, r)
  {
    var i := Pick(arr, EntryKeys(arr));
    assert MostFrequent(arr).value == EntryKeys(arr)[i];
  }

  /** An array-index direction is listed first, so an equally frequent later-listed one wins the tie. */
  lemma IndexKeyListedFirst()
    ensures MostFrequent(["N", "5"]) == Success("N")
  {
    var arr := ["N", "5"];
    KeysOfLetterAndIndex();
    assert Pick(arr, ["5"]) == 0;
  }

  /** `"5"` is an array index and `"N"` is not, so the own keys are listed as `["5", "N"]`. */
  lemma KeysOfLetterAndIndex()
    ensures EntryKeys(["N", "5"]) == ["5", "N"]
  {
    IndexPartOfLetterAndIndex();
    PlainPartOfLetterAndIndex();
  }

  lemma IndexPartOfLetterAndIndex()
    ensures IndexPart(["N", "5"]) == ["5"]
  {
    LetterAndIndex();
    assert ["N", "5"][..1] == ["N"] && ["N"][..0] == [];
    assert IndexPart(["N"]) == [];
    assert Sorting.Insert("5", [], IndexValue) == ["5"];
  }

  lemma PlainPartOfLetterAndIndex()
    ensures PlainPart(["N", "5"]) == ["N"]
  {
    LetterAndIndex();
    assert ["N", "5"][..1] == ["N"] && ["N"][..0] == [];
    assert PlainPart(["N"]) == ["N"];
  }

  lemma LetterAndIndex()
    ensures ArrayIndex("5") && !ArrayIndex("N")
  {
    assert Text.DigitsValue("5") == 5 by {
      assert "5"[..0] == [];
    }
    assert !Text.IsDigit("N"[0]);
  }

  /** Only `__proto__` leaves the counts object without keys, and the reduce throws. */
  lemma OnlyProtoThrows()
    ensures MostFrequent([ProtoKey]) == Failure(Unknown(true, EmptyReduce))
  {
  }

  // ------------------------------------------------------------- grouping

  /** The items of day d, in input order (the `acc[date]` arrays). */
  function DayItems(data: seq<Item>, d: int): (g: seq<Item>)
    ensures forall i :: 0 <= i < |g| ==> ItemDay(g[i]) == d
  {
    Sorting.WithKey(data, ItemDay, d)
  }

  function DayOfItems(data: seq<Item>): (ds: seq<int>)
    ensures |ds| == |data| && forall k :: 0 <= k < |data| ==> ds[k] == ItemDay(data[k])
  {
    seq(|data|, k requires 0 <= k < |data| => ItemDay(data[k]))
  }

  /** The speeds of a group, in order. */
  function Speeds(g: seq<Item>): (speeds: seq<Num>)
    ensures |speeds| == |g| && forall i :: 0 <= i < |g| ==> speeds[i] == g[i].windSpeed
  {
    seq(|g|, i requires 0 <= i < |g| => g[i].windSpeed)
  }

  /** The directions of a group, in order. */
  function Directions(g: seq<Item>): (dirs: seq<string>)
    ensures |dirs| == |g| && forall i :: 0 <= i < |g| ==> dirs[i] == g[i].windDirection
  {
    seq(|g|, i requires 0 <= i < |g| => g[i].windDirection)
  }

  /**
   * The entry of one day: the mean of its speeds and the most frequent of its
   * directions; it throws exactly when every direction of the day is `__proto__`.
   */
  function Entry(data: seq<Item>, d: int): (e: Result<DayAverage, Thrown>)
    ensures e.Success? ==> e.value.day == d
    ensures e.Failure? ==> e.error == Unknown(true, EmptyReduce)
  {
    var g := DayItems(data, d);
    var m := MostFrequent(Directions(g));
    if m.Failure? then Failure(m.error)
    else Success(DayAverage(d, CalculateAverage(Speeds(g)), m.value))
  }

  /** The entry of day d throws exactly when the day has items and all their directions are `__proto__`. */
  lemma EntryFails(data: seq<Item>, d: int)
    ensures var g := DayItems(data, d);
      Entry(data, d).Failure? <==> (|g| > 0 && forall i :: 0 <= i < |g| ==> g[i].windDirection == ProtoKey)
  {
    ProtoDirections(DayItems(data, d));
  }

  lemma ProtoDirections(g: seq<Item>)
    ensures MostFrequent(Directions(g)).Failure? <==>
      (|g| > 0 && forall i :: 0 <= i < |g| ==> g[i].windDirection == ProtoKey)
  {
    var dirs := Directions(g);
    assert (forall i :: 0 <= i < |dirs| ==> dirs[i] == ProtoKey) <==>
      (forall i :: 0 <= i < |g| ==> g[i].windDirection == ProtoKey);
  }

  /** `new Date(ms)` is a valid date only within 8.64e15 milliseconds of the epoch. */
  const MaxTimestamp := 8_640_000_000_000

  /** The `RangeError` of `toISOString` on an invalid date. */
  const InvalidTime := "Invalid time value"

  predicate ValidTime(timestamp: int) {
    -MaxTimestamp <= timestamp <= MaxTimestamp
  }

  predicate ValidTimes(items: seq<Item>) {
    forall k :: 0 <= k < |items| ==> ValidTime(items[k].timestamp)
  }

  /** The entries of the listed days, when none of them throws. */
  function Averages(items: seq<Item>, days: seq<int>): (r: seq<DayAverage>)
    requires forall i :: 0 <= i < |days| ==> Entry(items, days[i]).Success?
    ensures |r| == |days| && forall i :: 0 <= i < |days| ==> Entry(items, days[i]) == Success(r[i])
  {
    seq(|days|, i requires 0 <= i < |days| => Entry(items, days[i]).value)
  }

  /**
   * `calculateDailyAverages(data)`: `None` stands for a value that is not an
   * array, which yields no entries.
   */
  function CalculateDailyAverages(data: Option<seq<Item>>): (r: Result<seq<DayAverage>, Thrown>)
    ensures data.None? ==> r == Success([])
    ensures data.Some? ==> r == DayAverages(data.value)
  {
    if data.None? then Success([]) else DayAverages(data.value)
  }

  /**
   * The entries of an array of items, one per day in the order the days first
   * appear. A timestamp outside the range of `Date` makes `toISOString`
   * throw; a day whose directions are all `__proto__` makes its
   * `getMostFrequent` throw.
   */
  function DayAverages(items: seq<Item>): (r: Result<seq<DayAverage>, Thrown>)
    ensures !ValidTimes(items) ==> r == Failure(Unknown(true, InvalidTime))
    ensures ValidTimes(items) ==>
      (r.Success? <==> forall k :: 0 <= k < |items| ==> Entry(items, ItemDay(items[k])).Success?)
    ensures r.Failure? ==> r.error == Unknown(true, InvalidTime) || r.error == Unknown(true, EmptyReduce)
    ensures r.Success? ==> |r.value| == |Days(items)|
    ensures r.Success? ==> forall i :: 0 <= i < |r.value| ==>
      r.value[i].day == Days(items)[i] && Entry(items, r.value[i].day) == Success(r.value[i])
  {
    if !ValidTimes(items) then Failure(Unknown(true, InvalidTime))
    else
      AllEntries(items, Days(items));
      Grouped(items, Days(items))
  }

  /** The days of the items, each once, in the order they first appear (the keys of `dailyMap`). */
  function Days(items: seq<Item>): seq<int> {
    Tally.Dedup(DayOfItems(items))
  }

  /** The entries of the listed days, or the error of the first day that throws. */
  function Grouped(items: seq<Item>, days: seq<int>): (r: Result<seq<DayAverage>, Thrown>)
    ensures r.Success? <==> forall i :: 0 <= i < |days| ==> Entry(items, days[i]).Success?
    ensures r.Failure? ==> r.error == Unknown(true, EmptyReduce)
    ensures r.Success? ==> |r.value| == |days| && forall i :: 0 <= i < |days| ==> Entry(items, days[i]) == Success(r.value[i])
  {
    if forall i :: 0 <= i < |days| ==> Entry(items, days[i]).Success? then
      Success(Averages(items, days))
    else
      Failure(Unknown(true, EmptyReduce))
  }

  /** Every day in the list has an entry exactly when every item's day has one. */
  lemma AllEntries(items: seq<Item>, days: seq<int>)
    requires days == Days(items)
    ensures (forall i :: 0 <= i < |days| ==> Entry(items, days[i]).Success?) <==>
      (forall k :: 0 <= k < |items| ==> Entry(items, ItemDay(items[k])).Success?)
  {
    var ds := DayOfItems(items);
    assert forall k :: 0 <= k < |items| ==> ds[k] in days;
    assert forall i :: 0 <= i < |days| ==> days[i] in ds;
  }

  /** Every item of day d has the direction `__proto__`. */
  ghost predicate ProtoDay(items: seq<Item>, d: int) {
    forall j :: 0 <= j < |items| && ItemDay(items[j]) == d ==> items[j].windDirection == ProtoKey
  }

  /** The entry of an item's day throws exactly when that whole day is `__proto__`. */
  lemma EntryFailsIff(items: seq<Item>, k: nat)
    requires k < |items|
    ensures Entry(items, ItemDay(items[k])).Failure? <==> ProtoDay(items, ItemDay(items[k]))
  {
    var d := ItemDay(items[k]);
    var g := DayItems(items, d);
    EntryFails(items, d);
    assert items[k] in g;
    if ProtoDay(items, d) {
      forall i | 0 <= i < |g|
        ensures g[i].windDirection == ProtoKey
      {
        assert g[i] in items;
      }
    }
    if Entry(items, d).Failure? {
      forall j | 0 <= j < |items| && ItemDay(items[j]) == d
        ensures items[j].windDirection == ProtoKey
      {
        assert items[j] in g;
      }
    }
  }

  /** With valid timestamps, the averages fail exactly when some day's directions are all `__proto__`. */
  lemma DailyAveragesFailIff(items: seq<Item>)
    requires ValidTimes(items)
    ensures CalculateDailyAverages(Some(items)).Failure? <==>
      exists k :: 0 <= k < |items| && ProtoDay(items, ItemDay(items[k]))
  {
    forall k | 0 <= k < |items|
      ensures Entry(items, ItemDay(items[k])).Failure? <==> ProtoDay(items, ItemDay(items[k]))
    {
      EntryFailsIff(items, k);
    }
  }

  /** One entry per distinct day: every item's day has an entry, and no day has two. */
  lemma OneEntryPerDay(items: seq<Item>)
    ensures var r := CalculateDailyAverages(Some(items));
      r.Success? ==>
      && (forall i, j :: 0 <= i < j < |r.value| ==> r.value[i].day != r.value[j].day)
      && (forall k :: 0 <= k < |items| ==> exists i :: 0 <= i < |r.value| && r.value[i].day == ItemDay(items[k]))
      && (forall i :: 0 <= i < |r.value| ==> |DayItems(items, r.value[i].day)| > 0)
  {
    EveryDayHasEntry(items);
    EveryEntryHasItems(items);
  }

  lemma EveryDayHasEntry(items: seq<Item>)
    ensures var r := CalculateDailyAverages(Some(items));
      r.Success? ==> forall k :: 0 <= k < |items| ==> exists i :: 0 <= i < |r.value| && r.value[i].day == ItemDay(items[k])
  {
    var r := CalculateDailyAverages(Some(items));
    var days := Tally.Dedup(DayOfItems(items));
    if r.Success? {
      forall k | 0 <= k < |items|
        ensures exists i :: 0 <= i < |r.value| && r.value[i].day == ItemDay(items[k])
      {
        assert DayOfItems(items)[k] in days;
        var i :| 0 <= i < |days| && days[i] == ItemDay(items[k]);
        assert r.value[i].day == ItemDay(items[k]);
      }
    }
  }

  lemma EveryEntryHasItems(items: seq<Item>)
    ensures var r := CalculateDailyAverages(Some(items));
      r.Success? ==> forall i :: 0 <= i < |r.value| ==> |DayItems(items, r.value[i].day)| > 0
  {
    var r := CalculateDailyAverages(Some(items));
    var days := Days(items);
    if r.Success? {
      forall i | 0 <= i < |r.value|
        ensures |DayItems(items, r.value[i].day)| > 0
      {
        assert r.value[i].day == days[i];
        DayOfSomeItem(items, days[i]);
      }
    }
  }

  /** A day listed for the items has at least one item. */
  lemma DayOfSomeItem(items: seq<Item>, d: int)
    requires d in DayOfItems(items)
    ensures |DayItems(items, d)| > 0
  {
    var k :| 0 <= k < |items| && DayOfItems(items)[k] == d;
    assert items[k] in DayItems(items, d);
  }

  /** A day in the input always has a direction, so no entry reports 'N/A' unless an item names it. */
  lemma EntryDirectionFromItems(items: seq<Item>, d: int)
    requires exists k :: 0 <= k < |items| && ItemDay(items[k]) == d
    ensures Entry(items, d).Success? ==> exists k :: (0 <= k < |items| && ItemDay(items[k]) == d &&
      items[k].windDirection == Entry(items, d).value.predominantDirection)
  {
    var g := DayItems(items, d);
    var dirs := Directions(g);
    var r := MostFrequent(dirs);
    if r.Success? {
      var i :| 0 <= i < |dirs| && dirs[i] == r.value;
      assert g[i] in items;
      var k :| 0 <= k < |items| && items[k] == g[i];
    }
  }

  /** Without `__proto__` directions and with valid timestamps, every day gets an entry. */
  lemma PlainDirectionsSucceed(items: seq<Item>)
    requires ValidTimes(items)
    requires forall k :: 0 <= k < |items| ==> items[k].windDirection != ProtoKey
    ensures CalculateDailyAverages(Some(items)).Success?
  {
    DailyAveragesFailIff(items);
    assert forall k :: 0 <= k < |items| ==> !ProtoDay(items, ItemDay(items[k]));
  }
}

=== FILE: daily_summary.dfy ===
/**
 * `WeatherTransformer.calculateDailyAverages`: forecast points grouped by UTC
 * date, one summary per date (mean wind speed, predominant direction by mode,
 * highest gust), sorted by ascending date. A date is the day number of its
 * timestamp; comparing `YYYY-MM-DD` strings orders days the same way.
 */
module DailySummary {
  import opened Wrappers
  import Tally
  import Sorting

  /** One forecast point as the weather service builds it from an upstream list item. */
  datatype Point = Point(temperature: Option<real>, windSpeed: real, windGust: Option<real>,
                         windDirectionDeg: Option<real>, windDirection: string, timestamp: int)

  const SecondsPerDay := 86400

  /** The UTC day holding a unix-seconds timestamp (floor division, also before 1970). */
  function DayOf(timestamp: int): int {
    timestamp / SecondsPerDay
  }

  datatype Summary = Summary(day: int, avgWindSpeed: real, predominantDirection: string, maxWindGust: Option<real>)

  // ------------------------------------------------------------ grouping

  function PointDay(p: Point): int {
    DayOf(p.timestamp)
  }

  /** The points of day d, in input order (`groups.get(date).push(p)`). */
  function Group(points: seq<Point>, d: int): (g: seq<Point>)
    ensures forall i :: 0 <= i < |g| ==> DayOf(g[i].timestamp) == d
    ensures (exists k :: 0 <= k < |points| && DayOf(points[k].timestamp) == d) ==> |g| > 0
    ensures forall k :: 0 <= k < |points| && DayOf(points[k].timestamp) == d ==> points[k] in g
  {
    Sorting.WithKey(points, PointDay, d)
  }

  /**
   * The group is the day's points in input order: appending a point appends
   * it to its own day's group and leaves every other group as it was, and a
   * group holds as many points as the input has points of that day.
   */
  lemma GroupIsFilter(points: seq<Point>, p: Point, d: int)
    ensures Group(points + [p], d) == Group(points, d) + (if DayOf(p.timestamp) == d then [p] else [])
    ensures |Group(points, d)| == Tally.Count(DaysOf(points), d)
  {
    GroupSnoc(points, p, d);
    GroupCount(points, d);
  }

  lemma GroupSnoc(points: seq<Point>, p: Point, d: int)
    ensures Group(points + [p], d) == Group(points, d) + (if DayOf(p.timestamp) == d then [p] else [])
  {
    Sorting.WithKeySnoc(points, p, PointDay, d);
  }

  lemma {:induction false} GroupCount(points: seq<Point>, d: int)
    ensures |Group(points, d)| == Tally.Count(DaysOf(points), d)
    decreases |points|
  {
    if |points| > 0 {
      var init := points[..|points| - 1];
      var last := points[|points| - 1];
      assert points == init + [last];
      GroupSnoc(init, last, d);
      GroupCount(init, d);
      var ds := DaysOf(points);
      assert ds[..|ds| - 1] == DaysOf(init);
    }
  }

  /** The day of every point, in input order. */
  function DaysOf(points: seq<Point>): (ds: seq<int>)
    ensures |ds| == |points|
    ensures forall k :: 0 <= k < |points| ==> ds[k] == DayOf(points[k].timestamp)
  {
    seq(|points|, k requires 0 <= k < |points| => DayOf(points[k].timestamp))
  }

  // -------------------------------------------------------- predominance

  /** The loop state of the mode scan: `freq`, `predominantDirection`, `maxCount`. */
  datatype ModeScan = ModeScan(freq: map<string, nat>, best: string, maxCount: nat)

  /** The scan over the day's directions, in order; a count must exceed the maximum to take over. */
  function Scan(dirs: seq<string>): ModeScan
    decreases |dirs|
  {
    if |dirs| == 0 then ModeScan(map[], "N", 0)
    else
      var st := Scan(dirs[..|dirs| - 1]);
      var x := dirs[|dirs| - 1];
      var count := (if x in st.freq then st.freq[x] else 0) + 1;
      if count > st.maxCount then ModeScan(st.freq[x := count], x, count)
      else ModeScan(st.freq[x := count], st.best, st.maxCount)
  }

  /** The direction at position j reaches count m there, and no earlier position reached m. */
  ghost predicate FirstReachesAt(dirs: seq<string>, j: int, m: nat)
    requires 0 <= j < |dirs|
  {
    && Tally.Count(dirs[..j + 1], dirs[j]) == m
    && forall i :: 0 <= i < j ==> Tally.Count(dirs[..i + 1], dirs[i]) < m
  }

  /** The scan's map holds every direction's count so far. */
  lemma {:induction false} ScanCounts(dirs: seq<string>)
    ensures forall x :: x in Scan(dirs).freq ==> Scan(dirs).freq[x] == Tally.Count(dirs, x)
    ensures forall x :: x !in Scan(dirs).freq ==> Tally.Count(dirs, x) == 0
    decreases |dirs|
  {
    if |dirs| > 0 {
      ScanCounts(dirs[..|dirs| - 1]);
    }
  }

  /** No direction occurs more often than the scan's maximum. */
  lemma {:induction false} ScanMaxBounds(dirs: seq<string>)
    ensures forall x :: Tally.Count(dirs, x) <= Scan(dirs).maxCount
    decreases |dirs|
  {
    if |dirs| > 0 {
      var init := dirs[..|dirs| - 1];
      ScanMaxBounds(init);
      ScanCounts(init);
    }
  }

  /** The winner is the direction whose running count first reached the maximum. */
  lemma {:induction false} ScanWinnerFirst(dirs: seq<string>)
    requires |dirs| > 0
    ensures exists j :: 0 <= j < |dirs| && dirs[j] == Scan(dirs).best && FirstReachesAt(dirs, j, Scan(dirs).maxCount)
    decreases |dirs|
  {
    var n := |dirs|;
    var init := dirs[..n - 1];
    var x := dirs[n - 1];
    var st0 := Scan(init);
    ScanCounts(init);
    var count := Tally.Count(init, x) + 1;
    assert count == (if x in st0.freq then st0.freq[x] else 0) + 1;
    if count > st0.maxCount {
      assert Scan(dirs) == ModeScan(st0.freq[x := count], x, count);
      ScanMaxBounds(init);
      NewWinner(dirs, init, count);
    } else {
      assert Scan(dirs) == ModeScan(st0.freq[x := count], st0.best, st0.maxCount);
      if n > 1 {
        ScanWinnerFirst(init);
        var j :| 0 <= j < |init| && init[j] == st0.best && FirstReachesAt(init, j, st0.maxCount);
        FirstReachesExtends(dirs, j, st0.maxCount);
      }
    }
  }

  /** The last direction takes over when its count beats every earlier running count. */
  lemma NewWinner(dirs: seq<string>, init: seq<string>, count: nat)
    requires |dirs| > 0 && init == dirs[..|dirs| - 1]
    requires count == Tally.Count(init, dirs[|dirs| - 1]) + 1
    requires forall x :: Tally.Count(init, x) < count
    ensures FirstReachesAt(dirs, |dirs| - 1, count)
  {
    var n := |dirs|;
    assert dirs[..n] == init + [dirs[n - 1]];
    forall i | 0 <= i < n - 1
      ensures Tally.Count(dirs[..i + 1], dirs[i]) < count
    {
      assert dirs[..i + 1] == init[..i + 1];
      Tally.CountPrefix(init, i + 1, dirs[i]);
    }
  }

  /** A position that first reached m in a prefix still does in the whole. */
  lemma FirstReachesExtends(dirs: seq<string>, j: int, m: nat)
    requires 0 <= j < |dirs| - 1
    requires FirstReachesAt(dirs[..|dirs| - 1], j, m)
    ensures FirstReachesAt(dirs, j, m)
  {
    var init := dirs[..|dirs| - 1];
    assert forall i :: 0 <= i <= j ==> dirs[..i + 1] == init[..i + 1] && dirs[i] == init[i];
  }

  /** The scan's winner occurs exactly maxCount times in the whole day. */
  lemma ScanWinnerCount(dirs: seq<string>)
    requires |dirs| > 0
    ensures Scan(dirs).best in dirs && Tally.Count(dirs, Scan(dirs).best) == Scan(dirs).maxCount
  {
    ScanWinnerFirst(dirs);
    ScanMaxBounds(dirs);
    var st := Scan(dirs);
    var j :| 0 <= j < |dirs| && dirs[j] == st.best && FirstReachesAt(dirs, j, st.maxCount);
    Tally.CountPrefix(dirs, j + 1, dirs[j]);
  }

  /** `predominantDirection` of a non-empty day: a most frequent direction, the first to reach the top count. */
  function Predominant(dirs: seq<string>): (d: string)
    requires |dirs| > 0
    ensures d in dirs
    ensures forall x :: Tally.Count(dirs, x) <= Tally.Count(dirs, d)
    ensures exists j :: 0 <= j < |dirs| && dirs[j] == d && FirstReachesAt(dirs, j, Tally.Count(dirs, d))
  {
    ScanWinnerFirst(dirs);
    ScanWinnerCount(dirs);
    ScanMaxBounds(dirs);
    Scan(dirs).best
  }

  // --------------------------------------------------------------- gusts

  /** `maxGust = Math.max(maxGust ?? g, g)` over the defined gusts, in order. */
  function MaxGust(gusts: seq<Option<real>>): (m: Option<real>)
    ensures m.None? <==> forall i :: 0 <= i < |gusts| ==> gusts[i].None?
    ensures m.Some? ==> exists i :: 0 <= i < |gusts| && gusts[i] == m
    ensures m.Some? ==> forall i :: 0 <= i < |gusts| && gusts[i].Some? ==> gusts[i].value <= m.value
    decreases |gusts|
  {
    if |gusts| == 0 then None
    else
      var init := gusts[..|gusts| - 1];
      var acc := MaxGust(init);
      var g := gusts[|gusts| - 1];
      assert forall i :: 0 <= i < |init| ==> gusts[i] == init[i];
      match g
      case None => acc
      case Some(v) =>
        var prev := acc.GetOr(v);
        Some(if prev >= v then prev else v)
  }

  // -------------------------------------------------------------- speeds

  function Sum(xs: seq<real>): real
    decreases |xs|
  {
    if |xs| == 0 then 0.0 else Sum(xs[..|xs| - 1]) + xs[|xs| - 1]
  }

  /** Every value within [lo, hi] keeps the sum within [n·lo, n·hi]. */
  lemma {:induction false} SumBounds(xs: seq<real>, lo: real, hi: real)
    requires forall i :: 0 <= i < |xs| ==> lo <= xs[i] <= hi
    ensures |xs| as real * lo <= Sum(xs) <= |xs| as real * hi
    decreases |xs|
  {
    if |xs| > 0 {
      var m := (|xs| - 1) as real;
      SumBounds(xs[..|xs| - 1], lo, hi);
      assert |xs| as real * lo == m * lo + lo;
      assert |xs| as real * hi == m * hi + hi;
    }
  }

  /** `arr.reduce((sum, x) => sum + x.windSpeed, 0) / arr.length`. */
  function Mean(xs: seq<real>): (m: real)
    requires |xs| > 0
    ensures m * |xs| as real == Sum(xs)
  {
    Sum(xs) / |xs| as real
  }

  /** The mean of values within [lo, hi] lies within [lo, hi]. */
  lemma MeanWithinBounds(xs: seq<real>, lo: real, hi: real)
    requires |xs| > 0
    requires forall i :: 0 <= i < |xs| ==> lo <= xs[i] <= hi
    ensures lo <= Mean(xs) <= hi
  {
    SumBounds(xs, lo, hi);
    DivWithin(Sum(xs), |xs| as real, Mean(xs), lo, hi);
  }

  lemma DivWithin(sum: real, n: real, avg: real, lo: real, hi: real)
    requires n > 0.0 && avg * n == sum
    requires n * lo <= sum <= n * hi
    ensures lo <= avg <= hi
  {
  }

  // ---------------------------------------------------------- projections

  function Speeds(group: seq<Point>): (xs: seq<real>)
    ensures |xs| == |group| && forall i :: 0 <= i < |group| ==> xs[i] == group[i].windSpeed
  {
    seq(|group|, i requires 0 <= i < |group| => group[i].windSpeed)
  }

  function Directions(group: seq<Point>): (ds: seq<string>)
    ensures |ds| == |group| && forall i :: 0 <= i < |group| ==> ds[i] == group[i].windDirection
  {
    seq(|group|, i requires 0 <= i < |group| => group[i].windDirection)
  }

  function Gusts(group: seq<Point>): (gs: seq<Option<real>>)
    ensures |gs| == |group| && forall i :: 0 <= i < |group| ==> gs[i] == group[i].windGust
  {
    seq(|group|, i requires 0 <= i < |group| => group[i].windGust)
  }

  // ------------------------------------------------------------ summaries

  /** The summary of one non-empty day. */
  function Summarize(day: int, group: seq<Point>): (s: Summary)
    requires |group| > 0
    ensures s.day == day
    ensures s.avgWindSpeed == Mean(Speeds(group))
    ensures s.predominantDirection in Directions(group)
    ensures forall x :: Tally.Count(Directions(group), x) <= Tally.Count(Directions(group), s.predominantDirection)
    ensures s.maxWindGust.None? <==> forall i :: 0 <= i < |group| ==> group[i].windGust.None?
    ensures s.maxWindGust.Some? ==> forall i :: 0 <= i < |group| && group[i].windGust.Some? ==>
      group[i].windGust.value <= s.maxWindGust.value
    ensures s.maxWindGust.Some? ==> exists i :: 0 <= i < |group| && group[i].windGust == s.maxWindGust
  {
    Summary(day, Mean(Speeds(group)), Predominant(Directions(group)), MaxGust(Gusts(group)))
  }

  /** The mean wind speed of a non-empty day lies between its slowest and fastest point. */
  lemma MeanBounds(group: seq<Point>, lo: real, hi: real)
    requires |group| > 0
    requires forall i :: 0 <= i < |group| ==> lo <= group[i].windSpeed <= hi
    ensures lo <= Summarize(0, group).avgWindSpeed <= hi
  {
    MeanWithinBounds(Speeds(group), lo, hi);
  }

  function ByDay(s: Summary): int {
    s.day
  }

  /** The summary of every day that has points, one per day, in first-appearance order. */
  ghost predicate SummariesOf(points: seq<Point>, summaries: seq<Summary>)
  {
    forall k :: 0 <= k < |summaries| ==>
      |Group(points, summaries[k].day)| > 0 && summaries[k] == Summarize(summaries[k].day, Group(points, summaries[k].day))
  }

  /** `calculateDailyAverages(points)`. */
  function DailyAverages(points: seq<Point>): (r: seq<Summary>)
    ensures |points| == 0 ==> r == []
    ensures forall i, j :: 0 <= i < j < |r| ==> r[i].day < r[j].day
    ensures forall k :: 0 <= k < |points| ==> HasDay(r, DayOf(points[k].timestamp))
    ensures SummariesOf(points, r)
  {
    var days := Tally.Dedup(DaysOf(points));
    var summaries := SummariesFor(points, days);
    SortedSummaries(points, days, summaries);
    Sorting.StableSort(summaries, ByDay)
  }

  lemma SortedSummaries(points: seq<Point>, days: seq<int>, summaries: seq<Summary>)
    requires days == Tally.Dedup(DaysOf(points)) && summaries == SummariesFor(points, days)
    ensures var r := Sorting.StableSort(summaries, ByDay);
      && (|points| == 0 ==> r == [])
      && (forall i, j :: 0 <= i < j < |r| ==> r[i].day < r[j].day)
      && (forall k :: 0 <= k < |points| ==> HasDay(r, DayOf(points[k].timestamp)))
      && SummariesOf(points, r)
  {
    assert forall k :: 0 <= k < |points| ==> DaysOf(points)[k] in days;
    Sorting.StableSortStrict(summaries, ByDay);
    SortKeepsSummaries(points, summaries);
    SortKeepsDays(points, days, summaries);
  }

  /** One summary per listed day, in the order of the list; distinct days give distinct keys. */
  function SummariesFor(points: seq<Point>, days: seq<int>): (ss: seq<Summary>)
    requires forall k :: 0 <= k < |days| ==> days[k] in DaysOf(points)
    ensures |ss| == |days| && forall k :: 0 <= k < |days| ==> ss[k].day == days[k]
    ensures SummariesOf(points, ss)
    ensures (forall i, j :: 0 <= i < j < |days| ==> days[i] != days[j]) ==> Sorting.KeysDistinct(ss, ByDay)
  {
    seq(|days|, k requires 0 <= k < |days| =>
      GroupNonEmpty(points, days[k]);
      Summarize(days[k], Group(points, days[k])))
  }

  lemma GroupNonEmpty(points: seq<Point>, d: int)
    requires d in DaysOf(points)
    ensures |Group(points, d)| > 0
  {
    var ds := DaysOf(points);
    var k :| 0 <= k < |ds| && ds[k] == d;
  }

  /** Reordering summaries keeps each one the summary of its day. */
  lemma SortKeepsSummaries(points: seq<Point>, summaries: seq<Summary>)
    requires SummariesOf(points, summaries)
    ensures SummariesOf(points, Sorting.StableSort(summaries, ByDay))
  {
    var r := Sorting.StableSort(summaries, ByDay);
    forall i | 0 <= i < |r|
      ensures |Group(points, r[i].day)| > 0 && r[i] == Summarize(r[i].day, Group(points, r[i].day))
    {
      assert r[i] in multiset(summaries);
      var k :| 0 <= k < |summaries| && summaries[k] == r[i];
    }
  }

  /** Some summary in r is for day d. */
  ghost predicate HasDay(r: seq<Summary>, d: int) {
    exists i :: 0 <= i < |r| && r[i].day == d
  }

  /** Every day that has a point keeps its summary through the sort. */
  lemma SortKeepsDays(points: seq<Point>, days: seq<int>, summaries: seq<Summary>)
    requires forall k :: 0 <= k < |points| ==> DayOf(points[k].timestamp) in days
    requires |summaries| == |days|
    requires forall k :: 0 <= k < |days| ==> summaries[k].day == days[k]
    ensures forall k :: 0 <= k < |points| ==> HasDay(Sorting.StableSort(summaries, ByDay), DayOf(points[k].timestamp))
  {
    var r := Sorting.StableSort(summaries, ByDay);
    forall k | 0 <= k < |points|
      ensures HasDay(r, DayOf(points[k].timestamp))
    {
      var m :| 0 <= m < |days| && days[m] == DayOf(points[k].timestamp);
      SortedHasEntry(summaries, m);
      var i :| 0 <= i < |r| && r[i] == summaries[m];
      assert r[i].day == DayOf(points[k].timestamp);
    }
  }

  lemma SortedHasEntry(summaries: seq<Summary>, m: nat)
    requires m < |summaries|
    ensures exists i :: 0 <= i < |Sorting.StableSort(summaries, ByDay)| && Sorting.StableSort(summaries, ByDay)[i] == summaries[m]
  {
    var r := Sorting.StableSort(summaries, ByDay);
    assert summaries[m] in multiset(r);
  }
}

=== FILE: exceptions.dfy ===
/**
 * What the services throw: the project's own `ApiException` family, NestJS
 * `HttpException`s, axios errors, and anything else. One `Thrown` value
 * stands for one thrown JavaScript object.
 */
module Exceptions {
  import opened Wrappers

  const BadRequestStatus := 400
  const NotFoundStatus := 404
  const ConflictStatus := 409
  /** 429 Too Many Requests, section 4 of RFC 6585. */
  const TooManyRequestsStatus := 429
  const InternalServerErrorStatus := 500
  const BadGatewayStatus := 502
  /** 504 Gateway Timeout, section 15.6.5 of RFC 9110. */
  const GatewayTimeoutStatus := 504

  /** Which constructor built an `ApiException`. */
  datatype ApiKind = PlainApi | RateLimit | Timeout

  datatype ApiException = ApiException(kind: ApiKind, message: string, statusCode: int, code: Option<string>) {
    /** Every member of the family reports the name its base constructor assigns. */
    function Name(): string {
      "ApiException"
    }
  }

  /** `new ApiException(message, statusCode, code?)`. */
  function NewApiException(message: string, statusCode: int, code: Option<string>): (e: ApiException)
    ensures e.message == message && e.statusCode == statusCode && e.code == code
    ensures e.Name() == "ApiException"
  {
    ApiException(PlainApi, message, statusCode, code)
  }

  /** `new RateLimitException(message?)`. */
  function RateLimitException(message: Option<string>): (e: ApiException)
    ensures e.statusCode == TooManyRequestsStatus && e.code == Some("RATE_LIMIT_EXCEEDED")
    ensures message.None? ==> e.message == "Rate limit exceeded"
    ensures message.Some? ==> e.message == message.value
  {
    ApiException(RateLimit, message.GetOr("Rate limit exceeded"), 429, Some("RATE_LIMIT_EXCEEDED"))
  }

  /** `new TimeoutException(message?)`. */
  function TimeoutException(message: Option<string>): (e: ApiException)
    ensures e.statusCode == GatewayTimeoutStatus && e.code == Some("REQUEST_TIMEOUT")
    ensures message.None? ==> e.message == "Request timeout"
    ensures message.Some? ==> e.message == message.value
  {
    ApiException(Timeout, message.GetOr("Request timeout"), 504, Some("REQUEST_TIMEOUT"))
  }

  /** A class-validator `ValidationError`: a property, its failed constraints' messages, nested errors. */
  datatype ValidationError = ValidationError(property: string, constraints: Option<seq<string>>, children: seq<ValidationError>)

  /** One element of an array-valued `message` in an HTTP exception's response body. */
  datatype MessageItem = TextItem(text: string) | ErrorItem(error: ValidationError)

  /** The `message` property of a response body object. */
  datatype MessageField = NoMessage | TextMessage(text: string) | ListMessage(items: seq<MessageItem>)

  /** What `getResponse()` returns: the string passed to the constructor, or a body object. */
  datatype HttpBody = TextBody(text: string) | ObjectBody(message: MessageField, code: Option<string>)

  datatype HttpException = HttpException(status: int, response: HttpBody, message: string)

  /** `new HttpException(message, status)`. */
  function HttpError(message: string, status: int): (e: HttpException)
    ensures e.status == status && e.message == message && e.response == TextBody(message)
  {
    HttpException(status, TextBody(message), message)
  }

  /** `new BadRequestException(message)`: status 400 with a body object carrying the message. */
  function BadRequest(message: string): (e: HttpException)
    ensures e.status == BadRequestStatus && e.message == message
    ensures e.response.ObjectBody? && e.response.message == TextMessage(message)
  {
    HttpException(400, ObjectBody(TextMessage(message), None), message)
  }

  /** The body of an upstream error response, as axios exposes it. */
  datatype AxiosData = NoData | ObjectData(message: Option<string>) | ScalarData

  /** An axios error: the upstream status when a response arrived, its body, and the request. */
  datatype AxiosError = AxiosError(status: Option<int>, data: AxiosData, message: string, url: Option<string>, verb: Option<string>)

  /** Anything a service can throw; `Unknown` covers non-`Error` values too. */
  datatype Thrown =
    | Api(api: ApiException)
    | Http(http: HttpException)
    | Axios(axios: AxiosError)
    | Unknown(isError: bool, message: string)
}

=== FILE: exceptions_filter.dfy ===
/**
 * `AllExceptionsFilter`: turns whatever a request handler threw into the
 * JSON error body and the HTTP status of the reply. The project's own
 * `ApiException`s are reported as they are, NestJS `HttpException`s keep
 * their status (validation failures become one 400 with the failed
 * constraints per field), axios errors report the upstream status, and
 * anything else is a 500.
 */
module ExceptionsFilter {
  import opened Wrappers
  import opened Exceptions

  const ValidationFailed := "Validation failed"
  const InternalError := "Internal server error"

  /** The `message` of the reply: a text, or the array an `HttpException` carried. */
  datatype ReplyMessage = Text(text: string) | Items(items: seq<MessageItem>)

  /** The `details` of the reply, absent for most exceptions. */
  datatype Details =
    | NoDetails
    | FieldErrors(fields: map<string, seq<string>>)
    | Request(url: Option<string>, verb: Option<string>)
    | ErrorMessage(text: string)

  /** `ErrorResponse` without the timestamp. */
  datatype ErrorResponse = ErrorResponse(statusCode: int, message: ReplyMessage, code: Option<string>, path: string, details: Details)

  /** What the HTTP adapter sends: the status and the body. */
  datatype Reply = Reply(status: int, body: ErrorResponse)

  // ------------------------------------------------------------ validation

  /** An item with a non-empty `property` and a `constraints` object. */
  predicate IsConstraintItem(item: MessageItem) {
    item.ErrorItem? && item.error.property != "" && item.error.constraints.Some?
  }

  /** `isValidationError`: the body's `message` is an array of constraint items (an empty array counts). */
  predicate IsValidationError(body: HttpBody): (b: bool)
    ensures b ==> body.ObjectBody? && body.message.ListMessage?
    ensures b ==> forall i :: 0 <= i < |body.message.items| ==>
      body.message.items[i].ErrorItem? && body.message.items[i].error.property != ""
    ensures body.ObjectBody? && body.message.ListMessage? && |body.message.items| == 0 ==> b
  {
    body.ObjectBody? && body.message.ListMessage? && forall i :: 0 <= i < |body.message.items| ==> IsConstraintItem(body.message.items[i])
  }

  function ErrorsOf(items: seq<MessageItem>): (es: seq<ValidationError>)
    requires forall i :: 0 <= i < |items| ==> items[i].ErrorItem?
    ensures |es| == |items| && forall i :: 0 <= i < |items| ==> es[i] == items[i].error
  {
    seq(|items|, i requires 0 <= i < |items| => items[i].error)
  }

  function Size(e: ValidationError): nat
    decreases e
  {
    1 + SizeAll(e.children)
  }

  function SizeAll(es: seq<ValidationError>): nat
    decreases es
  {
    if |es| == 0 then 0 else Size(es[0]) + SizeAll(es[1..])
  }

  /** `Object.values(constraints)`, or nothing when there are no constraints. */
  function Messages(e: ValidationError): seq<string> {
    if e.constraints.Some? then e.constraints.value else []
  }

  /** The entries of a nested result under `parent.` keys. */
  function Prefixed(parent: string, m: map<string, seq<string>>): (r: map<string, seq<string>>)
    ensures forall k :: k in m <==> parent + "." + k in r
    ensures forall k :: k in m ==> r[parent + "." + k] == m[k]
    ensures forall k :: k in r ==> |k| > |parent|
  {
    var keys := set k | k in m :: parent + "." + k;
    var r := map j | j in keys :: m[j[|parent| + 1..]];
    forall k | k in m ensures parent + "." + k in r && r[parent + "." + k] == m[k] {
      assert (parent + "." + k)[|parent| + 1..] == k;
    }
    forall j | j in r ensures exists k :: k in m && j == parent + "." + k {
    }
    r
  }

  /** One step of the `reduce`: the error's own messages, then its children's entries under its name. */
  function Step(acc: map<string, seq<string>>, e: ValidationError): map<string, seq<string>>
    decreases Size(e), 0
  {
    var own := acc[e.property := Messages(e)];
    if |e.children| > 0 then own + Prefixed(e.property, FormatFrom(map[], e.children)) else own
  }

  function FormatFrom(acc: map<string, seq<string>>, es: seq<ValidationError>): map<string, seq<string>>
    decreases SizeAll(es), 1
  {
    if |es| == 0 then acc else FormatFrom(Step(acc, es[0]), es[1..])
  }

  /** `formatValidationErrors`: every error's property is a key. */
  function Format(es: seq<ValidationError>): (r: map<string, seq<string>>)
    ensures forall i :: 0 <= i < |es| ==> es[i].property in r
  {
    FormatFromHasProperties(map[], es);
    FormatFrom(map[], es)
  }

  /** A reduce step keeps every key it was given and adds the error's property. */
  lemma StepGrows(acc: map<string, seq<string>>, e: ValidationError)
    ensures forall k :: k in acc ==> k in Step(acc, e)
    ensures e.property in Step(acc, e)
  {
  }

  lemma {:induction false} FormatFromHasProperties(acc: map<string, seq<string>>, es: seq<ValidationError>)
    ensures forall k :: k in acc ==> k in FormatFrom(acc, es)
    ensures forall i :: 0 <= i < |es| ==> es[i].property in FormatFrom(acc, es)
    decreases |es|
  {
    if |es| > 0 {
      StepGrows(acc, es[0]);
      FormatFromHasProperties(Step(acc, es[0]), es[1..]);
      assert forall i :: 1 <= i < |es| ==> es[i] == es[1..][i - 1];
    }
  }

  /** A key of the formatted errors is some error's property, or a property followed by a key of its children's result. */
  ghost predicate Named(es: seq<ValidationError>, k: string) {
    exists i :: 0 <= i < |es| && (es[i].property == k || exists k' :: k' in Format(es[i].children) && k == es[i].property + "." + k')
  }

  lemma StepKeys(acc: map<string, seq<string>>, e: ValidationError, k: string)
    ensures k in Step(acc, e) <==> k in acc || NamedBy(e, k)
  {
    if |e.children| == 0 {
      assert Format(e.children) == map[];
    }
  }

  /** The key comes from this error: its property, or its property followed by a nested key. */
  ghost predicate NamedBy(e: ValidationError, k: string) {
    e.property == k || exists k' :: k' in Format(e.children) && k == e.property + "." + k'
  }

  lemma NamedSplit(es: seq<ValidationError>, k: string)
    requires |es| > 0
    ensures Named(es, k) <==> NamedBy(es[0], k) || Named(es[1..], k)
  {
    if Named(es[1..], k) {
      var i :| 0 <= i < |es[1..]| && (es[1..][i].property == k || exists k' :: k' in Format(es[1..][i].children) && k == es[1..][i].property + "." + k');
      assert es[i + 1] == es[1..][i];
    }
    if Named(es, k) {
      var i :| 0 <= i < |es| && (es[i].property == k || exists k' :: k' in Format(es[i].children) && k == es[i].property + "." + k');
      if i > 0 {
        assert es[1..][i - 1] == es[i];
      }
    }
  }

  lemma {:induction false} FormatFromKeys(acc: map<string, seq<string>>, es: seq<ValidationError>, k: string)
    ensures k in FormatFrom(acc, es) <==> k in acc || Named(es, k)
    decreases |es|
  {
    if |es| > 0 {
      StepKeys(acc, es[0], k);
      FormatFromKeys(Step(acc, es[0]), es[1..], k);
      NamedSplit(es, k);
    }
  }

  /** Every error's property is a key, and so is every nested key under its parent's name; there are no others. */
  lemma FormatKeys(es: seq<ValidationError>, k: string)
    ensures k in Format(es) <==> Named(es, k)
  {
    FormatFromKeys(map[], es, k);
  }

  lemma {:induction false} FormatFromAppend(acc: map<string, seq<string>>, es: seq<ValidationError>, e: ValidationError)
    ensures FormatFrom(acc, es + [e]) == Step(FormatFrom(acc, es), e)
    decreases |es|
  {
    if |es| == 0 {
      assert es + [e] == [e];
    } else {
      assert (es + [e])[0] == es[0] && (es + [e])[1..] == es[1..] + [e];
      FormatFromAppend(Step(acc, es[0]), es[1..], e);
    }
  }

  /** The last error naming a property decides that property's messages: later errors overwrite earlier ones. */
  lemma LastErrorWins(es: seq<ValidationError>, e: ValidationError)
    ensures e.property in Format(es + [e]) && Format(es + [e])[e.property] == Messages(e)
  {
    FormatFromAppend(map[], es, e);
  }

  /** A nested error appears under `parent.child` with its own messages when it is the last of its siblings and the parent is the last error. */
  lemma NestedKey(es: seq<ValidationError>, parent: ValidationError, siblings: seq<ValidationError>, child: ValidationError)
    requires parent.children == siblings + [child]
    ensures var k := parent.property + "." + child.property;
      k in Format(es + [parent]) && Format(es + [parent])[k] == Messages(child)
  {
    FormatFromAppend(map[], es, parent);
    LastErrorWins(siblings, child);
    assert |parent.children| > 0;
  }

  // ------------------------------------------------------------ dispatch

  /** `handleHttpException`. */
  function HandleHttp(h: HttpException, path: string): (r: ErrorResponse)
    ensures IsValidationError(h.response) ==>
      && r.statusCode == BadRequestStatus && r.message == Text(ValidationFailed) && r.code == Some("VALIDATION_ERROR")
      && r.details.FieldErrors?
    ensures !IsValidationError(h.response) ==> r.statusCode == h.status && r.details == NoDetails
    ensures !IsValidationError(h.response) && h.response.TextBody? ==> r.message == Text(h.message) && r.code.None?
    ensures !IsValidationError(h.response) && h.response.ObjectBody? ==> r.code == h.response.code
    ensures !IsValidationError(h.response) && h.response.ObjectBody? && h.response.message.ListMessage? ==>
      r.message == Items(h.response.message.items)
    ensures !IsValidationError(h.response) && h.response.ObjectBody? && h.response.message.TextMessage? && h.response.message.text != "" ==>
      r.message == Text(h.response.message.text)
    ensures (!IsValidationError(h.response) && h.response.ObjectBody? && !h.response.message.ListMessage?
      && !(h.response.message.TextMessage? && h.response.message.text != "")) ==> r.message == Text(h.message)
    ensures r.path == path
  {
    if IsValidationError(h.response) then
      var items := h.response.message.items;
      ErrorResponse(400, Text(ValidationFailed), Some("VALIDATION_ERROR"), path, FieldErrors(Format(ErrorsOf(items))))
    else
      match h.response
      case TextBody(_) => ErrorResponse(h.status, Text(h.message), None, path, NoDetails)
      case ObjectBody(message, code) =>
        var m := match message
          case ListMessage(items) => Items(items)
          case TextMessage(t) => if t != "" then Text(t) else Text(h.message)
          case NoMessage => Text(h.message);
        ErrorResponse(h.status, m, code, path, NoDetails)
  }

  /** `getAxiosErrorMessage`: the body's own message when the body is an object carrying a non-empty one. */
  function AxiosMessage(x: AxiosError): (m: string)
    ensures x.data.ObjectData? && x.data.message.Some? && x.data.message.value != "" ==> m == x.data.message.value
    ensures !(x.data.ObjectData? && x.data.message.Some? && x.data.message.value != "") ==> m == x.message
  {
    match x.data
    case ObjectData(Some(m)) => if m != "" then m else x.message
    case _ => x.message
  }

  /** `handleAxiosError`: the upstream status, or 502 when there was no (non-zero) status. */
  function HandleAxios(x: AxiosError, path: string): (r: ErrorResponse)
    ensures x.status.Some? && x.status.value != 0 ==> r.statusCode == x.status.value
    ensures x.status.None? || x.status == Some(0) ==> r.statusCode == BadGatewayStatus
    ensures r.message == Text(AxiosMessage(x)) && r.code == Some("EXTERNAL_API_ERROR")
    ensures r.details == Request(x.url, x.verb) && r.path == path
  {
    var status := if x.status.Some? && x.status.value != 0 then x.status.value else 502;
    ErrorResponse(status, Text(AxiosMessage(x)), Some("EXTERNAL_API_ERROR"), path, Request(x.url, x.verb))
  }

  /** `catch`: dispatch on the kind of exception, then reply with the body's own status. */
  function Catch(exception: Thrown, path: string): (r: Reply)
    ensures r.status == r.body.statusCode && r.body.path == path
    ensures exception.Api? ==> r.body == ErrorResponse(exception.api.statusCode, Text(exception.api.message), exception.api.code, path, NoDetails)
    ensures exception.Http? ==> r.body == HandleHttp(exception.http, path)
    ensures exception.Axios? ==> r.body == HandleAxios(exception.axios, path)
    ensures exception.Unknown? ==>
      && r.body.statusCode == InternalServerErrorStatus && r.body.message == Text(InternalError) && r.body.code == Some("INTERNAL_ERROR")
      && r.body.details == (if exception.isError then ErrorMessage(exception.message) else NoDetails)
  {
    var body := match exception
      case Api(a) => ErrorResponse(a.statusCode, Text(a.message), a.code, path, NoDetails)
      case Http(h) => HandleHttp(h, path)
      case Axios(x) => HandleAxios(x, path)
      case Unknown(isError, m) =>
        ErrorResponse(500, Text(InternalError), Some("INTERNAL_ERROR"), path, if isError then ErrorMessage(m) else NoDetails);
    Reply(body.statusCode, body)
  }

  // ------------------------------------------------------------ consequences

  /** Both `ApiException` subclasses are reported with their own status and code. */
  lemma SubclassesReportThemselves(message: Option<string>, path: string)
    ensures var r := Catch(Api(RateLimitException(message)), path);
      r.status == TooManyRequestsStatus && r.body.code == Some("RATE_LIMIT_EXCEEDED")
    ensures var r := Catch(Api(TimeoutException(message)), path);
      r.status == GatewayTimeoutStatus && r.body.code == Some("REQUEST_TIMEOUT")
  {
  }

  /** A `BadRequestException` with a message reaches the client as 400 with that message and no code. */
  lemma BadRequestReported(message: string, path: string)
    requires message != ""
    ensures Catch(Http(BadRequest(message)), path).body == ErrorResponse(BadRequestStatus, Text(message), None, path, NoDetails)
  {
  }

  /** An `HttpException` whose `message` is an empty array is a validation failure with no fields. */
  lemma EmptyListIsValidation(status: int, text: string, code: Option<string>, path: string)
    ensures var r := Catch(Http(HttpException(status, ObjectBody(ListMessage([]), code), text)), path);
      r.status == BadRequestStatus && r.body.details == FieldErrors(map[])
  {
    assert ErrorsOf([]) == [];
  }

  /** Validation errors are reported per field, each field mapped to the messages of the last error naming it. */
  lemma ValidationFields(status: int, text: string, items: seq<MessageItem>, path: string, k: string)
    requires forall i :: 0 <= i < |items| ==> IsConstraintItem(items[i])
    ensures var r := Catch(Http(HttpException(status, ObjectBody(ListMessage(items), None), text)), path);
      && r.status == BadRequestStatus
      && r.body.details.FieldErrors?
      && (k in r.body.details.fields <==> Named(ErrorsOf(items), k))
  {
    FormatKeys(ErrorsOf(items), k);
  }

  /** A plain string item in a `message` array is not a validation failure: the array is reported with the exception's status. */
  lemma StringItemsKeepStatus(status: int, text: string, item: string, path: string)
    ensures var r := Catch(Http(HttpException(status, ObjectBody(ListMessage([TextItem(item)]), None), text)), path);
      r.status == status && r.body.message == Items([TextItem(item)])
  {
    assert !IsConstraintItem(TextItem(item));
  }
}

=== FILE: inflight.dfy ===
/**
 * `InflightRequestsService`: a registry of pending results by request key.
 * Promises are modelled as tickets: the n-th factory invocation produces
 * ticket n, and every caller handed that ticket later observes that
 * invocation's outcome. Registering, joining and settling are discrete events.
 */
module Inflight {
  import opened Wrappers

  /**
   * The registry map plus the history of factory invocations: ticket t is the
   * invocation recorded at `started[t]`, made for that key.
   */
  datatype Registry = Registry(inflight: map<string, nat>, started: seq<string>)

  /** No key in flight and nothing invoked yet: a freshly constructed service. */
  function Empty(): (r: Registry)
    ensures Valid(r) && |r.inflight| == 0 && |r.started| == 0
  {
    Registry(map[], [])
  }

  /** Every registered ticket is an invocation made for the key it is registered under. */
  ghost predicate Valid(r: Registry) {
    forall k :: k in r.inflight ==> r.inflight[k] < |r.started| && r.started[r.inflight[k]] == k
  }

  /** Result of `run(key, factory)`: the new registry, the ticket returned, and whether factory was called. */
  datatype Joined = Joined(registry: Registry, ticket: nat, invoked: bool)

  /**
   * `run(key, factory)`: a registered key hands back its pending ticket without
   * calling factory; an absent key calls factory once and registers the new ticket.
   */
  function Run(r: Registry, key: string): (j: Joined)
    ensures j.invoked <==> key !in r.inflight
    ensures !j.invoked ==> j.registry == r && j.ticket == r.inflight[key]
    ensures j.invoked ==> j.ticket == |r.started| && j.registry.started == r.started + [key]
    ensures key in j.registry.inflight && j.registry.inflight[key] == j.ticket
    ensures forall k :: k != key ==> (k in j.registry.inflight <==> k in r.inflight)
    ensures forall k :: k != key && k in r.inflight ==> j.registry.inflight[k] == r.inflight[k]
  {
    if key in r.inflight then Joined(r, r.inflight[key], false)
    else
      var t := |r.started|;
      Joined(Registry(r.inflight[key := t], r.started + [key]), t, true)
  }

  /** The `finally` handler: once the pending result settles, its key is deleted, whatever the outcome. */
  function Settle(r: Registry, key: string): (r': Registry)
    ensures key !in r'.inflight
    ensures r'.started == r.started
    ensures forall k :: k != key ==> (k in r'.inflight <==> k in r.inflight)
    ensures forall k :: k != key && k in r.inflight ==> r'.inflight[k] == r.inflight[k]
  {
    Registry(r.inflight - {key}, r.started)
  }

  lemma RunKeepsValid(r: Registry, key: string)
    requires Valid(r)
    ensures Valid(Run(r, key).registry)
  {
  }

  lemma SettleKeepsValid(r: Registry, key: string)
    requires Valid(r)
    ensures Valid(Settle(r, key))
  {
  }

  /** Two keys in flight never share a pending result. */
  lemma DistinctKeysDistinctTickets(r: Registry, k1: string, k2: string)
    requires Valid(r) && k1 in r.inflight && k2 in r.inflight && k1 != k2
    ensures r.inflight[k1] != r.inflight[k2]
  {
  }

  /** After settlement the next call on the key starts a fresh computation with a new ticket. */
  lemma SettledKeyStartsAfresh(r: Registry, key: string)
    requires Valid(r) && key in r.inflight
    ensures var j := Run(Settle(r, key), key);
      j.invoked && j.ticket != r.inflight[key]
  {
  }

  /** `.catch((e) => { throw e; })`: the outcome a waiting caller sees is the factory's own. */
  function Rethrow<T, E>(outcome: Result<T, E>): (seen: Result<T, E>)
    ensures seen.Failure? <==> outcome.Failure?
    ensures seen.Failure? ==> seen.error == outcome.error
    ensures seen.Success? ==> seen.value == outcome.value
  {
    match outcome
    case Success(v) => Success(v)
    case Failure(e) => Failure(e)
  }

  /** What a caller holding ticket t observes, given every invocation's outcome. */
  function Await<T, E>(outcomes: seq<Result<T, E>>, t: nat): (seen: Result<T, E>)
    requires t < |outcomes|
    ensures seen == outcomes[t]
  {
    Rethrow(outcomes[t])
  }

  // ----------------------------------------------------------- many calls

  /** Issues `run` for each key in turn, with no settlement in between; returns the tickets handed out. */
  function RunAll(r: Registry, keys: seq<string>): (out: (Registry, seq<nat>))
    ensures |out.1| == |keys|
    ensures |out.0.started| >= |r.started| && out.0.started[..|r.started|] == r.started
    ensures r.inflight.Keys <= out.0.inflight.Keys
    decreases |keys|
  {
    if |keys| == 0 then (r, [])
    else
      var j := Run(r, keys[0]);
      var rest := RunAll(j.registry, keys[1..]);
      var n, m := |r.started|, |j.registry.started|;
      assert rest.0.started[..n] == rest.0.started[..m][..n];
      (rest.0, [j.ticket] + rest.1)
  }

  /** The keys of `keys` outside `seen`, each at its first occurrence, in order. */
  function Firsts(seen: set<string>, keys: seq<string>): seq<string>
    decreases |keys|
  {
    if |keys| == 0 then []
    else if keys[0] in seen then Firsts(seen, keys[1..])
    else [keys[0]] + Firsts(seen + {keys[0]}, keys[1..])
  }

  /** `Firsts` lists only keys of `keys` that are outside `seen`. */
  lemma {:induction false} FirstsUnseen(seen: set<string>, keys: seq<string>)
    ensures forall x :: x in Firsts(seen, keys) ==> x !in seen && x in keys
    decreases |keys|
  {
    if |keys| > 0 {
      var tail := keys[1..];
      assert forall x :: x in tail ==> x in keys;
      if keys[0] in seen {
        FirstsUnseen(seen, tail);
      } else {
        FirstsUnseen(seen + {keys[0]}, tail);
      }
    }
  }

  /** `Firsts` never lists a key twice. */
  lemma {:induction false} FirstsDistinct(seen: set<string>, keys: seq<string>)
    ensures forall i, j :: 0 <= i < j < |Firsts(seen, keys)| ==> Firsts(seen, keys)[i] != Firsts(seen, keys)[j]
    decreases |keys|
  {
    if |keys| > 0 {
      var tail := keys[1..];
      if keys[0] in seen {
        FirstsDistinct(seen, tail);
      } else {
        FirstsDistinct(seen + {keys[0]}, tail);
        FirstsUnseen(seen + {keys[0]}, tail);
        var f := Firsts(seen + {keys[0]}, tail);
        assert Firsts(seen, keys) == [keys[0]] + f;
        assert forall i :: 0 <= i < |f| ==> f[i] in f;
      }
    }
  }

  /** `Firsts` misses no key: each key outside `seen` appears in it. */
  lemma {:induction false} FirstsComplete(seen: set<string>, keys: seq<string>, k: string)
    requires k in keys && k !in seen
    ensures k in Firsts(seen, keys)
    decreases |keys|
  {
    if keys[0] != k {
      assert k in keys[1..];
      if keys[0] in seen {
        FirstsComplete(seen, keys[1..], k);
      } else {
        FirstsComplete(seen + {keys[0]}, keys[1..], k);
      }
    }
  }

  /**
   * Without settlements in between, a burst of calls invokes the factory exactly
   * once for each distinct key not already in flight, in first-call order.
   */
  lemma RunAllInvokesOncePerKey(r: Registry, keys: seq<string>)
    requires Valid(r)
    ensures RunAll(r, keys).0.started == r.started + Firsts(r.inflight.Keys, keys)
    ensures forall i :: 0 <= i < |keys| ==> keys[i] in RunAll(r, keys).0.inflight
    ensures Valid(RunAll(r, keys).0)
  {
    RunAllStarts(r, keys);
    RunAllRegisters(r, keys);
    RunAllKeepsValid(r, keys);
  }

  lemma {:induction false} RunAllStarts(r: Registry, keys: seq<string>)
    ensures RunAll(r, keys).0.started == r.started + Firsts(r.inflight.Keys, keys)
    decreases |keys|
  {
    if |keys| > 0 {
      var j := Run(r, keys[0]);
      var tail := keys[1..];
      RunAllStarts(j.registry, tail);
      assert RunAll(r, keys).0 == RunAll(j.registry, tail).0;
      if j.invoked {
        assert j.registry.inflight.Keys == r.inflight.Keys + {keys[0]};
        assert Firsts(r.inflight.Keys, keys) == [keys[0]] + Firsts(j.registry.inflight.Keys, tail);
        assert r.started + [keys[0]] + Firsts(j.registry.inflight.Keys, tail)
            == r.started + ([keys[0]] + Firsts(j.registry.inflight.Keys, tail));
      } else {
        assert j.registry == r;
      }
    }
  }

  lemma {:induction false} RunAllRegisters(r: Registry, keys: seq<string>)
    ensures forall i :: 0 <= i < |keys| ==> keys[i] in RunAll(r, keys).0.inflight
    decreases |keys|
  {
    if |keys| > 0 {
      var j := Run(r, keys[0]);
      var tail := keys[1..];
      var out := RunAll(j.registry, tail).0;
      assert RunAll(r, keys).0 == out;
      RunAllRegisters(j.registry, tail);
      forall i | 0 <= i < |keys| ensures keys[i] in out.inflight {
        if i == 0 {
          assert keys[0] in j.registry.inflight.Keys;
        } else {
          assert keys[i] == tail[i - 1];
        }
      }
    }
  }

  lemma {:induction false} RunAllKeepsValid(r: Registry, keys: seq<string>)
    requires Valid(r)
    ensures Valid(RunAll(r, keys).0)
    decreases |keys|
  {
    if |keys| > 0 {
      var j := Run(r, keys[0]);
      RunKeepsValid(r, keys[0]);
      RunAllKeepsValid(j.registry, keys[1..]);
    }
  }

  /** Every caller of a burst on one key receives the same ticket, so they all see one outcome. */
  lemma {:induction false} SameKeySharesTicket(r: Registry, keys: seq<string>, key: string)
    requires forall i :: 0 <= i < |keys| ==> keys[i] == key
    requires key in r.inflight
    ensures forall i :: 0 <= i < |keys| ==> RunAll(r, keys).1[i] == r.inflight[key]
    ensures RunAll(r, keys).0 == r
    decreases |keys|
  {
    if |keys| > 0 {
      SameKeySharesTicket(r, keys[1..], key);
    }
  }

  /**
   * N concurrent calls on an idle key: one factory invocation, and every caller,
   * on success or failure alike, observes that invocation's outcome.
   */
  lemma BurstOnIdleKey<T, E>(r: Registry, key: string, n: nat, outcomes: seq<Result<T, E>>)
    requires Valid(r) && key !in r.inflight && n >= 1
    requires |outcomes| == |r.started| + 1
    ensures var out := RunAll(r, seq(n, _ => key));
      && out.0.started == r.started + [key]
      && forall i :: 0 <= i < n ==> out.1[i] == |r.started| && Await(outcomes, out.1[i]) == outcomes[|r.started|]
  {
    var keys := seq(n, _ => key);
    var j := Run(r, key);
    var tail := keys[1..];
    SameKeySharesTicket(j.registry, tail, key);
    RunAllInvokesOncePerKey(r, keys);
    assert Firsts(r.inflight.Keys, keys) == [key] + Firsts(r.inflight.Keys + {key}, tail);
    FirstsAllSeen(r.inflight.Keys + {key}, tail, key);
  }

  lemma {:induction false} FirstsAllSeen(seen: set<string>, keys: seq<string>, key: string)
    requires key in seen && forall i :: 0 <= i < |keys| ==> keys[i] == key
    ensures Firsts(seen, keys) == []
    decreases |keys|
  {
    if |keys| > 0 {
      FirstsAllSeen(seen, keys[1..], key);
    }
  }
}

=== FILE: location_search.dfy ===
/**
 * `LocationSearchService`: autocomplete over the provider's geocoding
 * endpoint. Short queries answer nothing; longer ones read the transformed
 * places from the cache under the lower-cased query or fetch and cache them
 * for an hour, and every answer is ranked by how well the place's name (and
 * state) matches the query.
 */
module LocationSearch {
  import opened Wrappers
  import opened Text
  import opened Exceptions
  import Store
  import RateLimiter
  import Sorting

  const MinimumQueryLength := 2
  const CacheTtlSec := 3600
  const OwmLimitPerHour := 2000
  const SearchFailed := "Failed to fetch location data"

  const ExactMatch := 100
  const StartsWith := 75
  const Contains := 50
  const StateMatch := 25

  /** One place of the geocoding answer. */
  datatype Place = Place(name: string, country: string, state: Option<string>, lat: real, lon: real)

  /** One transformed result. */
  datatype Location = Location(name: string, country: string, state: Option<string>, lat: real, lon: real, displayName: string)

  /** What the geocoding request did: resolved with places, or rejected. */
  datatype GeoReply = Places(places: seq<Place>) | Rejected(error: Thrown)

  // ------------------------------------------------------------ transform

  /** A JavaScript string is truthy when it is not empty. */
  predicate Present(state: Option<string>) {
    state.Some? && state.value != ""
  }

  /** `buildDisplayName`: name, then the state when it is a non-empty text, then the country, comma-separated. */
  function DisplayName(name: string, state: Option<string>, country: string): (d: string)
    ensures Present(state) ==> d == name + ", " + state.value + ", " + country
    ensures !Present(state) ==> d == name + ", " + country
    ensures IsPrefix(name, d)
    ensures |country| <= |d| && d[|d| - |country|..] == country
  {
    var parts := [name] + (if Present(state) then [state.value] else []) + [country];
    JoinParts(parts)
  }

  function JoinParts(parts: seq<string>): string
    requires 2 <= |parts| <= 3
  {
    if |parts| == 2 then parts[0] + ", " + parts[1] else parts[0] + ", " + parts[1] + ", " + parts[2]
  }

  function Transform(p: Place): (l: Location)
    ensures l.name == p.name && l.country == p.country && l.state == p.state && l.lat == p.lat && l.lon == p.lon
    ensures l.displayName == DisplayName(p.name, p.state, p.country)
  {
    Location(p.name, p.country, p.state, p.lat, p.lon, DisplayName(p.name, p.state, p.country))
  }

  /** `transformLocations`: one result per place, in the provider's order. */
  function TransformAll(places: seq<Place>): (ls: seq<Location>)
    ensures |ls| == |places|
    ensures forall i :: 0 <= i < |places| ==> ls[i] == Transform(places[i])
  {
    seq(|places|, i requires 0 <= i < |places| => Transform(places[i]))
  }

  // --------------------------------------------------------------- scoring

  /** `calculateRelevanceScore` against an already lower-cased query. */
  function Score(l: Location, query: string): (score: int)
    ensures var name := Lower(l.name);
      && (name == query ==> ExactMatch <= score <= ExactMatch + StateMatch)
      && (name != query && IsPrefix(query, name) ==> StartsWith <= score <= StartsWith + StateMatch)
      && (!IsPrefix(query, name) && Text.Contains(name, query) ==> Contains <= score <= Contains + StateMatch)
      && (!Text.Contains(name, query) ==> 0 <= score <= StateMatch)
    ensures l.state.Some? && Text.Contains(Lower(l.state.value), query) ==> score in {25, 75, 100, 125}
    ensures !(l.state.Some? && Text.Contains(Lower(l.state.value), query)) ==> score in {0, 50, 75, 100}
  {
    var name := Lower(l.name);
    var base := if name == query then ExactMatch
      else if IsPrefix(query, name) then StartsWith
      else if Text.Contains(name, query) then Contains
      else 0;
    PrefixMeansContains(query, name);
    base + (if l.state.Some? && Text.Contains(Lower(l.state.value), query) then StateMatch else 0)
  }

  lemma PrefixMeansContains(p: string, s: string)
    ensures IsPrefix(p, s) ==> Text.Contains(s, p)
  {
    if IsPrefix(p, s) {
      PrefixIsContained(p, s);
    }
  }

  /** The sort key: a higher score sorts first. */
  function Rank(query: string): Location -> int {
    l => -Score(l, query)
  }

  /** `processSearchResults`: the results by descending score; equal scores keep their order. */
  function Ranked(ls: seq<Location>, query: string): (r: seq<Location>)
    ensures multiset(r) == multiset(ls)
    ensures forall i, j :: 0 <= i < j < |r| ==> Score(r[i], Lower(query)) >= Score(r[j], Lower(query))
  {
    Sorting.StableSort(ls, Rank(Lower(query)))
  }

  /** Results with the same score come out in the order the provider listed them. */
  lemma RankedIsStable(ls: seq<Location>, query: string, score: int)
    ensures Sorting.WithKey(Ranked(ls, query), Rank(Lower(query)), -score) == Sorting.WithKey(ls, Rank(Lower(query)), -score)
  {
    var key := Rank(Lower(query));
    assert Ranked(ls, query) == Sorting.StableSort(ls, key);
    Sorting.StableSortIsStable(ls, key, -score);
  }

  /**
   * A place whose name is the query (ignoring case) comes before every place
   * whose name does not contain it.
   */
  lemma ExactMatchFirst(ls: seq<Location>, query: string, i: int, j: int)
    requires 0 <= i < |Ranked(ls, query)| && 0 <= j < |Ranked(ls, query)|
    requires Lower(Ranked(ls, query)[i].name) == Lower(query)
    requires !Text.Contains(Lower(Ranked(ls, query)[j].name), Lower(query))
    ensures i < j
  {
    var r := Ranked(ls, query);
    var q := Lower(query);
    ScoreOfExact(r[i], q);
    ScoreOfUnrelated(r[j], q);
    HigherScoreFirst(r, q, i, j);
  }

  lemma HigherScoreFirst(r: seq<Location>, q: string, i: int, j: int)
    requires forall a, b :: 0 <= a < b < |r| ==> Score(r[a], q) >= Score(r[b], q)
    requires 0 <= i < |r| && 0 <= j < |r| && Score(r[i], q) > Score(r[j], q)
    ensures i < j
  {
  }

  lemma ScoreOfExact(l: Location, q: string)
    requires Lower(l.name) == q
    ensures Score(l, q) >= ExactMatch
  {
  }

  lemma ScoreOfUnrelated(l: Location, q: string)
    requires !Text.Contains(Lower(l.name), q)
    ensures Score(l, q) <= StateMatch
  {
  }

  // ----------------------------------------------------------------- search

  const CacheKeyPrefix := "location_search_"

  /** `location_search_<lower-cased query>`. */
  function CacheKey(query: string): (key: string)
    ensures |key| == |CacheKeyPrefix| + |query| && key[..|CacheKeyPrefix|] == CacheKeyPrefix
    ensures forall i :: 0 <= i < |query| ==> key[|CacheKeyPrefix| + i] == Text.LowerChar(query[i])
  {
    CacheKeyPrefix + Lower(query)
  }

  /** Two queries share a cache entry exactly when they agree up to the case of ASCII letters. */
  lemma CacheKeyIgnoresCase(q1: string, q2: string)
    ensures CacheKey(q1) == CacheKey(q2) <==> Lower(q1) == Lower(q2)
  {
    if CacheKey(q1) == CacheKey(q2) {
      assert Lower(q1) == CacheKey(q1)[|CacheKeyPrefix|..];
      assert Lower(q2) == CacheKey(q2)[|CacheKeyPrefix|..];
    }
  }

  const Quota := RateLimiter.Bucket("owm:requests", OwmLimitPerHour, 3600)

  /** The cache, the limiter's counters, and the caller's result after one search. */
  datatype Step = Step(cache: Store.Store<seq<Location>>, counters: RateLimiter.Counters, result: Result<seq<Location>, Thrown>)

  /** `getCachedOrFetchLocations` with `fetchLocations`: the cached list, or a fresh one cached for an hour. */
  function Lookup(cache: Store.Store<seq<Location>>, counters: RateLimiter.Counters, mode: RateLimiter.Mode,
                  now: nat, query: string, reply: GeoReply): (r: Step)
    ensures Store.Get(cache, CacheKey(query), now).Some? ==>
      r == Step(cache, counters, Success(Store.Get(cache, CacheKey(query), now).value))
    ensures Store.Get(cache, CacheKey(query), now).None? ==>
      r.counters == RateLimiter.Consume(counters, mode, Quota, now).counters
    ensures r.result.Failure? ==> r.cache == cache && r.result.error == Http(HttpError(SearchFailed, BadRequestStatus))
    ensures r.result.Success? && Store.Get(cache, CacheKey(query), now).None? ==>
      && RateLimiter.Consume(counters, mode, Quota, now).outcome.Pass? && reply.Places?
      && r.result.value == TransformAll(reply.places)
      && r.cache == Store.Set(cache, CacheKey(query), r.result.value, CacheTtlSec, now)
  {
    var key := CacheKey(query);
    match Store.Get(cache, key, now)
    case Some(hit) => Step(cache, counters, Success(hit))
    case None =>
      // the limiter runs inside the `try`, so its refusal is mapped like any other failure
      var limited := RateLimiter.Consume(counters, mode, Quota, now);
      if limited.outcome.Fail? || reply.Rejected? then Step(cache, limited.counters, Failure(Http(HttpError(SearchFailed, 400))))
      else
        var results := TransformAll(reply.places);
        Step(Store.Set(cache, key, results, CacheTtlSec, now), limited.counters, Success(results))
  }

  /** `searchLocationsWithAutocomplete`: nothing for a short query, otherwise the ranked lookup. */
  function Search(cache: Store.Store<seq<Location>>, counters: RateLimiter.Counters, mode: RateLimiter.Mode,
                  now: nat, query: string, reply: GeoReply): (r: Step)
    ensures |query| < MinimumQueryLength ==> r == Step(cache, counters, Success([]))
    ensures |query| >= MinimumQueryLength ==>
      var found := Lookup(cache, counters, mode, now, query, reply);
      && r.cache == found.cache && r.counters == found.counters
      && (r.result.Success? <==> found.result.Success?)
      && (r.result.Success? ==> r.result.value == Ranked(found.result.value, query))
    ensures r.result.Failure? ==> r.result.error == Http(HttpError(SearchFailed, BadRequestStatus))
  {
    if |query| < MinimumQueryLength then Step(cache, counters, Success([]))
    else
      var found := Lookup(cache, counters, mode, now, query, reply);
      match found.result
      case Success(ls) => Step(found.cache, found.counters, Success(Ranked(ls, query)))
      case Failure(_) => Step(found.cache, found.counters, Failure(Http(HttpError(SearchFailed, 400))))
  }

  /**
   * Queries differing only in case share a cache entry: once one has been
   * answered, the other is served from the cache, re-ranked, with no request
   * and no quota charged.
   */
  lemma CaseInsensitiveCache(cache: Store.Store<seq<Location>>, counters: RateLimiter.Counters, mode: RateLimiter.Mode,
                             t0: nat, t1: nat, q1: string, q2: string, reply1: GeoReply, reply2: GeoReply)
    requires |q1| >= MinimumQueryLength && Lower(q1) == Lower(q2)
    requires t0 <= t1 < t0 + CacheTtlSec
    requires Store.Get(cache, CacheKey(q1), t0).None?
    requires Search(cache, counters, mode, t0, q1, reply1).result.Success?
    ensures var s1 := Search(cache, counters, mode, t0, q1, reply1);
      var s2 := Search(s1.cache, s1.counters, mode, t1, q2, reply2);
      && s2.cache == s1.cache && s2.counters == s1.counters
      && s2.result.Success? && multiset(s2.result.value) == multiset(s1.result.value)
  {
    var s1 := Search(cache, counters, mode, t0, q1, reply1);
    var found := Lookup(cache, counters, mode, t0, q1, reply1);
    Store.ReadAfterSet(cache, CacheKey(q1), found.result.value, CacheTtlSec, t0, t1);
    assert CacheKey(q2) == CacheKey(q1);
    LowerIdempotent(q1);
    assert |q2| == |q1|;
  }
}

=== FILE: locations.dfy ===
/**
 * `LocationsService`: a client's favourite places over a table of rows.
 * Names are normalised, a new favourite that duplicates an active one (same
 * name ignoring case, or coordinates within a tolerance) is refused, an
 * inactive duplicate is revived instead of adding a row, and deletion only
 * clears the active flag. Coordinates are in millionths of a degree.
 */
module Locations {
  import opened Wrappers
  import opened Text
  import opened Exceptions
  import Sorting

  const Eps := 500
  const AlreadyExists := "Location already exists"
  const NotFound := "Location not found"

  datatype Row = Row(id: nat, name: string, latitude: int, longitude: int, isActive: bool, clientId: string, updatedAt: int)

  type Table = seq<Row>

  // ------------------------------------------------------------ names

  /** Only plain spaces remain as white space, and never two in a row. */
  predicate Collapsed(s: string) {
    && (forall i :: 0 <= i < |s| && IsSpace(s[i]) ==> s[i] == ' ')
    && (forall i :: 0 <= i < |s| - 1 ==> !(s[i] == ' ' && s[i + 1] == ' '))
  }

  lemma TrimStartShrinks(s: string)
    requires |s| > 0 && IsSpace(s[0])
    ensures |TrimStart(s)| < |s|
  {
  }

  /** `replace(/\s+/g, ' ')`: every run of white space becomes one space. */
  function Collapse(s: string): string
    decreases |s|
  {
    if |s| == 0 then ""
    else if IsSpace(s[0]) then
      TrimStartShrinks(s);
      " " + Collapse(TrimStart(s))
    else
      [s[0]] + Collapse(s[1..])
  }

  lemma CollapseSpace(s: string)
    requires |s| > 0 && IsSpace(s[0])
    ensures |TrimStart(s)| < |s| && Collapse(s) == " " + Collapse(TrimStart(s))
  {
  }

  lemma CollapseOther(s: string)
    requires |s| > 0 && !IsSpace(s[0])
    ensures Collapse(s) == [s[0]] + Collapse(s[1..])
  {
  }

  /** The first character of the collapsed text: a space for a space run, otherwise the same character. */
  lemma CollapseFirst(s: string)
    ensures |Collapse(s)| == 0 <==> |s| == 0
    ensures |s| > 0 && IsSpace(s[0]) ==> Collapse(s)[0] == ' '
    ensures |s| > 0 && !IsSpace(s[0]) ==> Collapse(s)[0] == s[0]
  {
  }

  /** Text that does not end in white space does not end in white space once collapsed. */
  lemma {:induction false} CollapseLast(s: string)
    requires |s| > 0 && !IsSpace(s[|s| - 1])
    ensures |Collapse(s)| > 0 && !IsSpace(Collapse(s)[|Collapse(s)| - 1])
    decreases |s|
  {
    if IsSpace(s[0]) {
      CollapseSpace(s);
      var rest := TrimStart(s);
      assert |rest| > 0;
      assert rest[|rest| - 1] == s[|s| - 1];
      CollapseLast(rest);
    } else {
      CollapseOther(s);
      if |s| > 1 {
        assert s[1..][|s| - 2] == s[|s| - 1];
        CollapseLast(s[1..]);
      }
    }
  }

  lemma ConsCollapsed(c: char, q: string)
    requires Collapsed(q)
    requires IsSpace(c) ==> c == ' '
    requires c == ' ' && |q| > 0 ==> q[0] != ' '
    ensures Collapsed([c] + q)
  {
    var r := [c] + q;
    forall i | 0 <= i < |r| - 1 ensures !(r[i] == ' ' && r[i + 1] == ' ') {
      if i > 0 {
        assert r[i] == q[i - 1] && r[i + 1] == q[i];
      }
    }
  }

  /** The output of `Collapse` is collapsed. */
  lemma {:induction false} CollapseIsCollapsed(s: string)
    ensures Collapsed(Collapse(s))
    decreases |s|
  {
    if |s| > 0 {
      if IsSpace(s[0]) {
        CollapseSpace(s);
        var rest := TrimStart(s);
        CollapseIsCollapsed(rest);
        CollapseFirst(rest);
        ConsCollapsed(' ', Collapse(rest));
      } else {
        CollapseOther(s);
        CollapseIsCollapsed(s[1..]);
        ConsCollapsed(s[0], Collapse(s[1..]));
      }
    }
  }

  /** A collapsed text is left as it is. */
  lemma {:induction false} CollapseFixes(s: string)
    requires Collapsed(s)
    ensures Collapse(s) == s
    decreases |s|
  {
    if |s| > 0 {
      CollapsedTail(s);
      CollapseFixes(s[1..]);
      if IsSpace(s[0]) {
        CollapseSpace(s);
        TrimStartOne(s);
      } else {
        CollapseOther(s);
      }
    }
  }

  lemma CollapsedTail(s: string)
    requires |s| > 0 && Collapsed(s)
    ensures Collapsed(s[1..])
  {
    forall i | 0 <= i < |s[1..]| - 1 ensures !(s[1..][i] == ' ' && s[1..][i + 1] == ' ') {
      assert s[1..][i] == s[i + 1] && s[1..][i + 1] == s[i + 2];
    }
  }

  lemma TrimStartOne(s: string)
    requires |s| > 0 && IsSpace(s[0]) && Collapsed(s)
    ensures TrimStart(s) == s[1..]
  {
    assert s[0] == ' ';
    if |s| > 1 {
      assert s[1] != ' ';
      assert !IsSpace(s[1]);
      assert TrimStart(s[1..]) == s[1..];
    }
  }

  /** `name.trim().replace(/\s+/g, ' ')`. */
  function NormalizeName(s: string): (r: string)
    ensures Collapsed(r)
    ensures |r| > 0 ==> !IsSpace(r[0]) && !IsSpace(r[|r| - 1])
    ensures |r| == 0 <==> |Trim(s)| == 0
  {
    var t := Trim(s);
    CollapseFirst(t);
    CollapseIsCollapsed(t);
    if |t| > 0 then CollapseLast(t); Collapse(t) else Collapse(t)
  }

  /** Normalising twice changes nothing more. */
  lemma NormalizeIdempotent(s: string)
    ensures NormalizeName(NormalizeName(s)) == NormalizeName(s)
  {
    var r := NormalizeName(s);
    assert TrimStart(r) == r;
    assert TrimEnd(r) == r;
    CollapseFixes(r);
  }

  /** A non-empty run of characters none of which is white space. */
  predicate Word(a: string) {
    |a| > 0 && forall i :: 0 <= i < |a| ==> !IsSpace(a[i])
  }

  /** A run of white space only (possibly empty). */
  predicate Blank(w: string) {
    forall i :: 0 <= i < |w| ==> IsSpace(w[i])
  }

  lemma {:induction false} TrimStartBlank(w: string, x: string)
    requires Blank(w) && (|x| > 0 ==> !IsSpace(x[0]))
    ensures TrimStart(w + x) == x
    decreases |w|
  {
    if |w| > 0 {
      assert (w + x)[1..] == w[1..] + x;
      TrimStartBlank(w[1..], x);
    } else {
      assert w + x == x;
    }
  }

  lemma {:induction false} TrimEndBlank(x: string, w: string)
    requires Blank(w) && (|x| > 0 ==> !IsSpace(x[|x| - 1]))
    ensures TrimEnd(x + w) == x
    decreases |w|
  {
    if |w| > 0 {
      assert (x + w)[..|x + w| - 1] == x + w[..|w| - 1];
      TrimEndBlank(x, w[..|w| - 1]);
    } else {
      assert x + w == x;
    }
  }

  /** A word passes through `Collapse` unchanged. */
  lemma {:induction false} CollapseWord(a: string, rest: string)
    requires Word(a)
    ensures Collapse(a + rest) == a + Collapse(rest)
    decreases |a|
  {
    var x := a + rest;
    assert x[0] == a[0];
    CollapseOther(x);
    var tail := a[1..];
    assert x[1..] == tail + rest;
    if |tail| > 0 {
      assert Word(tail) by {
        forall i | 0 <= i < |tail| ensures !IsSpace(tail[i]) { assert tail[i] == a[i + 1]; }
      }
      CollapseWord(tail, rest);
      assert [a[0]] + (tail + Collapse(rest)) == a + Collapse(rest);
    } else {
      assert tail + rest == rest;
      assert [a[0]] == a;
    }
  }

  /** A white-space run before a word becomes one space. */
  lemma CollapseBlank(w: string, rest: string)
    requires |w| > 0 && Blank(w) && (|rest| > 0 ==> !IsSpace(rest[0]))
    ensures Collapse(w + rest) == " " + Collapse(rest)
  {
    CollapseSpace(w + rest);
    TrimStartBlank(w, rest);
  }

  /** White space around a text that neither starts nor ends with it is trimmed away. */
  lemma TrimPadded(l: string, x: string, r: string)
    requires Blank(l) && Blank(r) && |x| > 0 && !IsSpace(x[0]) && !IsSpace(x[|x| - 1])
    ensures Trim(l + x + r) == x
  {
    assert l + x + r == l + (x + r);
    TrimStartBlank(l, x + r);
    TrimEndBlank(x, r);
  }

  lemma CollapseTwoWords(a: string, w: string, b: string)
    requires Word(a) && |w| > 0 && Blank(w) && Word(b)
    ensures Collapse(a + w + b) == a + " " + b
  {
    assert a + w + b == a + (w + b);
    CollapseWord(a, w + b);
    CollapseBlank(w, b);
    CollapseWordAlone(b);
  }

  lemma CollapseWordAlone(b: string)
    requires Word(b)
    ensures Collapse(b) == b
  {
    CollapseWord(b, "");
    assert b + "" == b;
    assert Collapse("") == "";
  }

  /**
   * Two words separated by any white-space run and padded by any white space
   * normalise to the words joined by one space.
   */
  lemma NormalizeTwoWords(l: string, a: string, w: string, b: string, r: string)
    requires Blank(l) && Word(a) && |w| > 0 && Blank(w) && Word(b) && Blank(r)
    ensures NormalizeName(l + (a + w + b) + r) == a + " " + b
  {
    var x := a + w + b;
    assert x[0] == a[0];
    assert x[|x| - 1] == b[|b| - 1];
    TrimPadded(l, x, r);
    CollapseTwoWords(a, w, b);
  }

  lemma NormalizeExample()
    ensures NormalizeName(" New  Name ") == "New Name"
  {
    ExampleParts();
    NormalizeTwoWords(" ", "New", "  ", "Name", " ");
  }

  lemma ExampleParts()
    ensures Word("New") && Word("Name") && Blank(" ") && Blank("  ")
    ensures " " + ("New" + "  " + "Name") + " " == " New  Name "
    ensures "New" + " " + "Name" == "New Name"
  {
    LetterIsNotSpace('N');
    LetterIsNotSpace('e');
    LetterIsNotSpace('w');
    LetterIsNotSpace('a');
    LetterIsNotSpace('m');
  }

  lemma LetterIsNotSpace(c: char)
    requires 'A' <= c <= 'z'
    ensures !IsSpace(c)
  {
  }

  // ------------------------------------------------------------ duplicates

  function Abs(x: int): nat {
    if x < 0 then -x else x
  }

  /** The row matches a name (`ILike`) or coordinates within the tolerance (`BETWEEN`, both ends included). */
  predicate Matches(r: Row, name: string, lat: int, lon: int) {
    Lower(r.name) == Lower(name) || (Abs(r.latitude - lat) <= Eps && Abs(r.longitude - lon) <= Eps)
  }

  /** A row of the client, in the given state, matching name or coordinates. */
  predicate Candidate(r: Row, clientId: string, active: bool, name: string, lat: int, lon: int) {
    r.clientId == clientId && r.isActive == active && Matches(r, name, lat, lon)
  }

  /** `findOne`: the first candidate in table order. */
  function FindFirst(t: Table, clientId: string, active: bool, name: string, lat: int, lon: int): (i: Option<nat>)
    ensures i.Some? ==> i.value < |t| && Candidate(t[i.value], clientId, active, name, lat, lon)
    ensures i.Some? ==> forall j :: 0 <= j < i.value ==> !Candidate(t[j], clientId, active, name, lat, lon)
    ensures i.None? ==> forall j :: 0 <= j < |t| ==> !Candidate(t[j], clientId, active, name, lat, lon)
    decreases |t|
  {
    if |t| == 0 then None
    else if Candidate(t[|t| - 1], clientId, active, name, lat, lon) then
      match FindFirst(t[..|t| - 1], clientId, active, name, lat, lon)
      case Some(i) => Some(i)
      case None => Some(|t| - 1)
    else FindFirst(t[..|t| - 1], clientId, active, name, lat, lon)
  }

  /** Two active rows of one client that duplicate each other. */
  ghost predicate Duplicates(a: Row, b: Row) {
    a.clientId == b.clientId && a.isActive && b.isActive && Matches(a, b.name, b.latitude, b.longitude)
  }

  /** No client has two active favourites with the same name or nearly the same place. */
  ghost predicate NoActiveDuplicates(t: Table) {
    forall i, j :: 0 <= i < |t| && 0 <= j < |t| && i != j ==> !Duplicates(t[i], t[j])
  }

  ghost predicate IdsDistinct(t: Table) {
    forall i, j :: 0 <= i < j < |t| ==> t[i].id != t[j].id
  }

  /** What `create` did: refused, revived row i, or added a row at the end. */
  datatype Created = Conflict | Revived(index: nat) | Added

  datatype CreateResult = CreateResult(table: Table, kind: Created, result: Result<Row, Thrown>)

  /** `create(dto, clientId)`; `nextId` is the id the table would generate, `now` the save time. */
  function Create(t: Table, clientId: string, name: string, lat: int, lon: int, nextId: nat, now: int): (r: CreateResult)
    ensures var n := NormalizeName(name);
      && (r.kind == Conflict <==> exists j :: 0 <= j < |t| && Candidate(t[j], clientId, true, n, lat, lon))
      && (r.kind == Conflict ==> r.table == t && r.result == Failure(Http(HttpError(AlreadyExists, ConflictStatus))))
      && (r.kind.Revived? ==> (r.kind.index < |t| && Candidate(t[r.kind.index], clientId, false, n, lat, lon)))
      && (r.kind == Added ==> forall j :: 0 <= j < |t| ==> !Candidate(t[j], clientId, false, n, lat, lon))
    ensures r.kind.Revived? ==> var i := r.kind.index;
      && |r.table| == |t|
      && r.table[i] == t[i].(isActive := true, name := NormalizeName(name), latitude := lat, longitude := lon, updatedAt := now)
      && (forall j :: 0 <= j < |t| && j != i ==> r.table[j] == t[j])
      && r.result == Success(r.table[i])
    ensures r.kind == Added ==>
      r.table == t + [Row(nextId, NormalizeName(name), lat, lon, true, clientId, now)] && r.result == Success(r.table[|t|])
  {
    var n := NormalizeName(name);
    match FindFirst(t, clientId, true, n, lat, lon)
    case Some(_) => CreateResult(t, Conflict, Failure(Http(HttpError(AlreadyExists, 409))))
    case None =>
      match FindFirst(t, clientId, false, n, lat, lon)
      case Some(i) =>
        var row := t[i].(isActive := true, name := n, latitude := lat, longitude := lon, updatedAt := now);
        CreateResult(t[i := row], Revived(i), Success(row))
      case None =>
        var row := Row(nextId, n, lat, lon, true, clientId, now);
        CreateResult(t + [row], Added, Success(row))
  }

  lemma MatchesSymmetric(a: Row, b: Row)
    ensures Matches(a, b.name, b.latitude, b.longitude) <==> Matches(b, a.name, a.latitude, a.longitude)
  {
  }

  /** `create` never leaves a client with two active duplicates, and a fresh id keeps ids distinct. */
  lemma CreateKeepsInvariants(t: Table, clientId: string, name: string, lat: int, lon: int, nextId: nat, now: int)
    requires NoActiveDuplicates(t) && IdsDistinct(t)
    requires forall j :: 0 <= j < |t| ==> t[j].id != nextId
    ensures NoActiveDuplicates(Create(t, clientId, name, lat, lon, nextId, now).table)
    ensures IdsDistinct(Create(t, clientId, name, lat, lon, nextId, now).table)
  {
    var r := Create(t, clientId, name, lat, lon, nextId, now);
    var t' := r.table;
    if r.kind.Revived? || r.kind == Added {
      var k := if r.kind.Revived? then r.kind.index else |t|;
      forall i, j | 0 <= i < |t'| && 0 <= j < |t'| && i != j
        ensures !Duplicates(t'[i], t'[j])
      {
        if i == k {
          MatchesSymmetric(t'[i], t'[j]);
          assert j < |t| && t'[j] == t[j];
        } else if j == k {
          assert i < |t| && t'[i] == t[i];
        } else {
          assert t'[i] == t[i] && t'[j] == t[j];
        }
      }
    }
  }

  // ------------------------------------------------------------ update

  /**
   * A field of the update body: left out, sent as JSON `null`, or given a
   * value. The optional-field validation lets `null` through unchecked.
   */
  datatype Field<T> = Absent | Null | Given(value: T)

  /** The optional fields of an update. */
  datatype Patch = Patch(name: Field<string>, latitude: Field<int>, longitude: Field<int>, isActive: Field<bool>)

  /** What `.trim()` on a `null` name throws. */
  const NullName := "Cannot read properties of null (reading 'trim')"
  /** What the database answers when the non-null `isActive` column is set to `null`. */
  const NullIsActive := "null value in column \"isActive\" violates not-null constraint"

  /** `findOne({ id, clientId })`, active or not. */
  function FindById(t: Table, id: int, clientId: string, activeOnly: bool): (i: Option<nat>)
    ensures i.Some? ==> i.value < |t| && t[i.value].id == id && t[i.value].clientId == clientId && (activeOnly ==> t[i.value].isActive)
    ensures i.None? ==> forall j :: 0 <= j < |t| ==> !(t[j].id == id && t[j].clientId == clientId && (activeOnly ==> t[j].isActive))
    decreases |t|
  {
    if |t| == 0 then None
    else
      var last := t[|t| - 1];
      match FindById(t[..|t| - 1], id, clientId, activeOnly)
      case Some(i) => Some(i)
      case None => if last.id == id && last.clientId == clientId && (activeOnly ==> last.isActive) then Some(|t| - 1) else None
  }

  /** `Number(x)` of a coordinate field that is present: `null` becomes 0. */
  function Coordinate(f: Field<int>, current: int): (v: int)
    ensures f.Absent? ==> v == current
    ensures f.Null? ==> v == 0
    ensures f.Given? ==> v == f.value
  {
    match f
    case Absent => current
    case Null => 0
    case Given(x) => x
  }

  /**
   * The assignments of `update` and the save that follows: a `null` name
   * throws before anything is saved, a `null` flag is refused by the
   * database, and every other field the body carries is written.
   */
  function Apply(row: Row, p: Patch, now: int): (r: Result<Row, Thrown>)
    ensures r.Failure? <==> p.name.Null? || p.isActive.Null?
    ensures p.name.Null? ==> r == Failure(Unknown(true, NullName))
    ensures !p.name.Null? && p.isActive.Null? ==> r == Failure(Unknown(true, NullIsActive))
    ensures r.Success? ==> r.value.id == row.id && r.value.clientId == row.clientId && r.value.updatedAt == now
    ensures r.Success? ==> r.value.name == (if p.name.Given? then NormalizeName(p.name.value) else row.name)
    ensures r.Success? ==> r.value.latitude == Coordinate(p.latitude, row.latitude) && r.value.longitude == Coordinate(p.longitude, row.longitude)
    ensures r.Success? ==> r.value.isActive == (if p.isActive.Given? then p.isActive.value else row.isActive)
  {
    if p.name.Null? then Failure(Unknown(true, NullName))
    else if p.isActive.Null? then Failure(Unknown(true, NullIsActive))
    else
      Success(row.(name := if p.name.Given? then NormalizeName(p.name.value) else row.name,
                   latitude := Coordinate(p.latitude, row.latitude),
                   longitude := Coordinate(p.longitude, row.longitude),
                   isActive := if p.isActive.Given? then p.isActive.value else row.isActive,
                   updatedAt := now))
  }

  /** `update(id, clientId, dto)`: only the fields the patch carries change, on the client's own row. */
  function Update(t: Table, id: int, clientId: string, p: Patch, now: int): (r: Result<Table, Thrown>)
    ensures FindById(t, id, clientId, false).None? ==> r == Failure(Http(HttpError(NotFound, NotFoundStatus)))
    ensures r.Failure? <==> (forall j :: 0 <= j < |t| ==> !(t[j].id == id && t[j].clientId == clientId)) || p.name.Null? || p.isActive.Null?
    ensures r.Failure? && FindById(t, id, clientId, false).Some? ==> r == Failure(Apply(t[FindById(t, id, clientId, false).value], p, now).error)
    ensures r.Success? ==> |r.value| == |t| && exists i :: (0 <= i < |t| && t[i].id == id && t[i].clientId == clientId
      && r.value[i] == Apply(t[i], p, now).value && forall j :: 0 <= j < |t| && j != i ==> r.value[j] == t[j])
  {
    match FindById(t, id, clientId, false)
    case None => Failure(Http(HttpError(NotFound, 404)))
    case Some(i) =>
      match Apply(t[i], p, now)
      case Failure(e) => Failure(e)
      case Success(row) => Success(t[i := row])
  }

  /** An empty patch only touches the save time. */
  lemma EmptyPatch(row: Row, now: int)
    ensures Apply(row, Patch(Absent, Absent, Absent, Absent), now) == Success(row.(updatedAt := now))
  {
  }

  /** Sending the same patch again changes nothing but the save time. */
  lemma ApplyIdempotent(row: Row, p: Patch, now: int, later: int)
    requires Apply(row, p, now).Success?
    ensures Apply(Apply(row, p, now).value, p, later) == Apply(row, p, later)
  {
  }

  /** A `null` coordinate is stored as 0, not left alone. */
  lemma NullCoordinateIsZero(row: Row, name: Field<string>, isActive: Field<bool>, now: int)
    requires !name.Null? && !isActive.Null?
    ensures Apply(row, Patch(name, Null, Null, isActive), now).Success?
    ensures var r := Apply(row, Patch(name, Null, Null, isActive), now).value;
      r.latitude == 0 && r.longitude == 0
  {
  }

  // ------------------------------------------------------------ delete

  /** `removeOne(id, clientId)`: the client's active row becomes inactive. */
  function RemoveOne(t: Table, id: int, clientId: string, now: int): (r: Result<Table, Thrown>)
    ensures r.Failure? <==> forall j :: 0 <= j < |t| ==> !(t[j].id == id && t[j].clientId == clientId && t[j].isActive)
    ensures r.Failure? ==> r.error == Http(HttpError(NotFound, NotFoundStatus))
    ensures r.Success? ==> |r.value| == |t| && exists i :: (0 <= i < |t| && t[i].id == id && t[i].clientId == clientId
      && t[i].isActive && r.value[i] == t[i].(isActive := false, updatedAt := now)
      && forall j :: 0 <= j < |t| && j != i ==> r.value[j] == t[j])
  {
    match FindById(t, id, clientId, true)
    case None => Failure(Http(HttpError(NotFound, 404)))
    case Some(i) => Success(t[i := t[i].(isActive := false, updatedAt := now)])
  }

  predicate ActiveOf(r: Row, clientId: string) {
    r.clientId == clientId && r.isActive
  }

  /** `removeAll(clientId)`: every active row of the client becomes inactive; no other row changes. */
  function RemoveAll(t: Table, clientId: string, now: int): (r: Result<Table, Thrown>)
    ensures r.Failure? <==> forall j :: 0 <= j < |t| ==> !ActiveOf(t[j], clientId)
    ensures r.Failure? ==> r.error == Http(HttpError(NotFound, NotFoundStatus))
    ensures r.Success? ==> |r.value| == |t|
    ensures r.Success? ==> forall j :: 0 <= j < |t| ==>
      r.value[j] == if ActiveOf(t[j], clientId) then t[j].(isActive := false, updatedAt := now) else t[j]
  {
    if forall j :: 0 <= j < |t| ==> !ActiveOf(t[j], clientId) then Failure(Http(HttpError(NotFound, 404)))
    else Success(seq(|t|, j requires 0 <= j < |t| => if ActiveOf(t[j], clientId) then t[j].(isActive := false, updatedAt := now) else t[j]))
  }

  /** After removing all, the client has no active favourite left and can remove no more. */
  lemma RemoveAllThenNothing(t: Table, clientId: string, now: int, later: int)
    requires RemoveAll(t, clientId, now).Success?
    ensures var t' := RemoveAll(t, clientId, now).value;
      RemoveAll(t', clientId, later).Failure?
  {
  }

  // ------------------------------------------------------------ listing

  /** The active rows of the client, in table order. */
  function ActiveRows(t: Table, clientId: string): (rs: seq<Row>)
    ensures forall k :: 0 <= k < |rs| ==> ActiveOf(rs[k], clientId) && rs[k] in t
    ensures forall j :: 0 <= j < |t| && ActiveOf(t[j], clientId) ==> t[j] in rs
    decreases |t|
  {
    if |t| == 0 then []
    else
      var init := ActiveRows(t[..|t| - 1], clientId);
      assert forall j :: 0 <= j < |t| - 1 ==> t[..|t| - 1][j] == t[j];
      if ActiveOf(t[|t| - 1], clientId) then init + [t[|t| - 1]] else init
  }

  function ByRecency(r: Row): int {
    -r.updatedAt
  }

  /** `order: { updatedAt: 'DESC' }`: the client's active rows, most recently updated first. */
  function Recent(t: Table, clientId: string): (rs: seq<Row>)
    ensures multiset(rs) == multiset(ActiveRows(t, clientId))
    ensures forall k, m :: 0 <= k < m < |rs| ==> rs[k].updatedAt >= rs[m].updatedAt
    ensures forall k :: 0 <= k < |rs| ==> ActiveOf(rs[k], clientId)
  {
    var active := ActiveRows(t, clientId);
    var rs := Sorting.StableSort(active, ByRecency);
    RecentFacts(active, clientId, rs);
    rs
  }

  lemma RecentFacts(active: seq<Row>, clientId: string, rs: seq<Row>)
    requires forall k :: 0 <= k < |active| ==> ActiveOf(active[k], clientId)
    requires rs == Sorting.StableSort(active, ByRecency)
    ensures forall k, m :: 0 <= k < m < |rs| ==> rs[k].updatedAt >= rs[m].updatedAt
    ensures forall k :: 0 <= k < |rs| ==> ActiveOf(rs[k], clientId)
  {
    forall k | 0 <= k < |rs| ensures ActiveOf(rs[k], clientId) {
      assert rs[k] in multiset(active);
      var j :| 0 <= j < |active| && active[j] == rs[k];
    }
    forall k, m | 0 <= k < m < |rs| ensures rs[k].updatedAt >= rs[m].updatedAt {
      assert ByRecency(rs[k]) <= ByRecency(rs[m]);
    }
  }

  /** `skip` then `take`: the part of `all` from `skip` on, at most `take` long. */
  function Window<T>(all: seq<T>, skip: nat, take: nat): (w: seq<T>)
    ensures |w| == (if skip >= |all| then 0 else if skip + take <= |all| then take else |all| - skip)
    ensures forall k :: 0 <= k < |w| ==> w[k] == all[skip + k]
  {
    if skip >= |all| then [] else all[skip..if skip + take <= |all| then skip + take else |all|]
  }

  function Skip(page: int, pageSize: int): (n: nat)
    requires page >= 1 && pageSize >= 1
    ensures n == (page - 1) * pageSize
  {
    var p: nat := page - 1;
    p * pageSize
  }

  datatype Page<W> = Page(total: nat, page: int, pageSize: int, items: seq<(Row, W)>)

  /**
   * The rows paired with their summaries, or the error of the first row whose
   * summary failed (one failure rejects the whole `Promise.all`).
   */
  function Enrich<W>(rows: seq<Row>, weather: Row -> Result<W, Thrown>): (r: Result<seq<(Row, W)>, Thrown>)
    ensures r.Failure? <==> exists k :: 0 <= k < |rows| && weather(rows[k]).Failure?
    ensures r.Failure? ==> exists k :: 0 <= k < |rows| && weather(rows[k]) == Failure(r.error)
    ensures r.Success? ==> |r.value| == |rows| && forall k :: 0 <= k < |rows| ==> r.value[k] == (rows[k], weather(rows[k]).value)
    decreases |rows|
  {
    if |rows| == 0 then Success([])
    else
      match weather(rows[0])
      case Failure(e) => Failure(e)
      case Success(w) =>
        match Enrich(rows[1..], weather)
        case Failure(e) =>
          assert forall k :: 1 <= k < |rows| ==> rows[k] == rows[1..][k - 1];
          Failure(e)
        case Success(tail) =>
          assert forall k :: 1 <= k < |rows| ==> rows[k] == rows[1..][k - 1];
          Success([(rows[0], w)] + tail)
  }

  /**
   * `findAllMinimal`: the client's active rows, most recently updated first,
   * skipping `(page - 1) * pageSize` and taking `pageSize`, each paired with
   * its current-weather summary (`weather` stands for `getCurrentSummary` on
   * the row's coordinates with the chosen units and the client's bucket).
   */
  function FindAllMinimal<W>(t: Table, clientId: string, page: int, pageSize: int, weather: Row -> Result<W, Thrown>): (r: Result<Page<W>, Thrown>)
    requires page >= 1 && 1 <= pageSize <= 50
    ensures var w := Window(Recent(t, clientId), Skip(page, pageSize), pageSize);
      && (r.Failure? <==> exists k :: 0 <= k < |w| && weather(w[k]).Failure?)
      && (r.Success? ==> r.value.total == |ActiveRows(t, clientId)| && r.value.page == page && r.value.pageSize == pageSize)
      && (r.Success? ==> |r.value.items| == |w| && forall k :: 0 <= k < |w| ==> r.value.items[k] == (w[k], weather(w[k]).value))
  {
    var w := Window(Recent(t, clientId), Skip(page, pageSize), pageSize);
    match Enrich(w, weather)
    case Failure(e) => Failure(e)
    case Success(items) => Success(Page(|ActiveRows(t, clientId)|, page, pageSize, items))
  }

  /** The page's rows are the window of the recency order. */
  lemma PageRows<W>(t: Table, clientId: string, page: int, pageSize: int, weather: Row -> Result<W, Thrown>)
    requires page >= 1 && 1 <= pageSize <= 50
    requires FindAllMinimal(t, clientId, page, pageSize, weather).Success?
    ensures var items := FindAllMinimal(t, clientId, page, pageSize, weather).value.items;
      && |items| <= pageSize
      && forall k :: 0 <= k < |items| ==> items[k].0 == Recent(t, clientId)[Skip(page, pageSize) + k]
  {
  }

  /** A page holds at most `pageSize` of the client's active rows, newest first. */
  lemma PageIsOrdered<W>(t: Table, clientId: string, page: int, pageSize: int, weather: Row -> Result<W, Thrown>)
    requires page >= 1 && 1 <= pageSize <= 50
    requires FindAllMinimal(t, clientId, page, pageSize, weather).Success?
    ensures var items := FindAllMinimal(t, clientId, page, pageSize, weather).value.items;
      && |items| <= pageSize
      && (forall k :: 0 <= k < |items| ==> ActiveOf(items[k].0, clientId))
      && (forall k, m :: 0 <= k < m < |items| ==> items[k].0.updatedAt >= items[m].0.updatedAt)
  {
    PageRows(t, clientId, page, pageSize, weather);
  }

  /** Consecutive pages do not overlap: a page p + 1 starts at row p * pageSize. */
  lemma PagesAreConsecutive<W>(t: Table, clientId: string, page: int, pageSize: int, weather: Row -> Result<W, Thrown>)
    requires page >= 1 && 1 <= pageSize <= 50
    ensures var next := FindAllMinimal(t, clientId, page + 1, pageSize, weather);
      next.Success? && |next.value.items| > 0 ==>
        page * pageSize < |Recent(t, clientId)| && next.value.items[0].0 == Recent(t, clientId)[page * pageSize]
  {
    var next := FindAllMinimal(t, clientId, page + 1, pageSize, weather);
    if next.Success? && |next.value.items| > 0 {
      PageRows(t, clientId, page + 1, pageSize, weather);
      SkipNext(page, pageSize);
    }
  }

  lemma SkipNext(page: int, pageSize: int)
    requires page >= 1 && pageSize >= 1
    ensures Skip(page + 1, pageSize) == page * pageSize
  {
  }
}

=== FILE: locations_controller.dfy ===
/**
 * `LocationsController`: every favourite-locations route first checks the
 * `X-Client-Id` header, which must be a UUID of version 4, and only then
 * hands the request to `LocationsService`.
 */
module LocationsController {
  import opened Wrappers
  import opened Text
  import opened Exceptions
  import Locations
  import WeatherService
  import QueryDto
  import ExceptionsFilter

  const HeaderRequired := "X-Client-Id header is required"
  const HeaderInvalid := "X-Client-Id must be a valid UUID v4"

  // ------------------------------------------------------------ UUID v4

  predicate IsHex(c: char) {
    ('0' <= c <= '9') || ('a' <= c <= 'f') || ('A' <= c <= 'F')
  }

  function HexValue(c: char): (v: nat)
    requires IsHex(c)
    ensures v < 16
  {
    if '0' <= c <= '9' then c as nat - '0' as nat
    else if 'a' <= c <= 'f' then c as nat - 'a' as nat + 10
    else c as nat - 'A' as nat + 10
  }

  predicate HexRun(g: string) {
    forall i :: 0 <= i < |g| ==> IsHex(g[i])
  }

  /**
   * The textual UUID of RFC 4122 with version 4: five hexadecimal fields of
   * 8, 4, 4, 4 and 12 digits joined by hyphens, where the version field
   * (the high nibble of time_hi_and_version, section 4.1.3) is 4 and the
   * variant (the two high bits of clock_seq_hi_and_reserved, section 4.1.1)
   * is binary 10.
   */
  predicate UuidV4(s: string) {
    && |s| == 36
    && s[8] == '-' && s[13] == '-' && s[18] == '-' && s[23] == '-'
    && HexRun(s[..8]) && HexRun(s[9..13]) && HexRun(s[14..18]) && HexRun(s[19..23]) && HexRun(s[24..])
    && IsHex(s[14]) && HexValue(s[14]) == 4
    && IsHex(s[19]) && HexValue(s[19]) / 4 == 2
  }

  /** One position of the pattern `^[0-9a-f]{8}-[0-9a-f]{4}-4[0-9a-f]{3}-[89ab][0-9a-f]{3}-[0-9a-f]{12}$` under `/i`. */
  datatype CharClass = Hex | Dash | Four | VariantDigit

  function ClassAt(i: nat): CharClass {
    if i == 8 || i == 13 || i == 18 || i == 23 then Dash
    else if i == 14 then Four
    else if i == 19 then VariantDigit
    else Hex
  }

  predicate Accepts(k: CharClass, c: char) {
    match k
    case Hex => IsHex(c)
    case Dash => c == '-'
    case Four => c == '4'
    case VariantDigit => c in "89abAB"
  }

  /** The regular expression, anchored at both ends, case-insensitive. */
  predicate MatchesPattern(s: string) {
    |s| == 36 && forall i :: 0 <= i < |s| ==> Accepts(ClassAt(i), s[i])
  }

  lemma FourIsVersion(c: char)
    ensures c == '4' <==> IsHex(c) && HexValue(c) == 4
  {
  }

  lemma VariantDigits(c: char)
    ensures c in "89abAB" <==> IsHex(c) && HexValue(c) / 4 == 2
  {
  }

  lemma HexRunAt(s: string, lo: int, hi: int)
    requires 0 <= lo <= hi <= |s|
    ensures HexRun(s[lo..hi]) <==> forall i :: lo <= i < hi ==> IsHex(s[i])
  {
    if HexRun(s[lo..hi]) {
      forall i | lo <= i < hi ensures IsHex(s[i]) {
        assert s[lo..hi][i - lo] == s[i];
      }
    }
  }

  /** The pattern accepts exactly the version-4 UUIDs. */
  lemma PatternIsUuidV4(s: string)
    ensures MatchesPattern(s) <==> UuidV4(s)
  {
    if |s| == 36 {
      FourIsVersion(s[14]);
      VariantDigits(s[19]);
      HexRunAt(s, 0, 8);
      HexRunAt(s, 9, 13);
      HexRunAt(s, 14, 18);
      HexRunAt(s, 19, 23);
      HexRunAt(s, 24, 36);
      assert s[24..] == s[24..36];
      if UuidV4(s) {
        forall i | 0 <= i < |s| ensures Accepts(ClassAt(i), s[i]) {
          if i == 14 {
          } else if i == 19 {
          } else if i < 8 {
            assert IsHex(s[i]);
          } else if 8 < i < 13 || 14 < i < 18 || 19 < i < 23 || 23 < i {
            assert IsHex(s[i]);
          }
        }
      }
      if MatchesPattern(s) {
        assert forall i :: 0 <= i < 8 ==> Accepts(ClassAt(i), s[i]);
        assert s[8] == '-' && s[13] == '-' && s[18] == '-' && s[23] == '-' by {
          assert Accepts(ClassAt(8), s[8]) && Accepts(ClassAt(13), s[13]);
          assert Accepts(ClassAt(18), s[18]) && Accepts(ClassAt(23), s[23]);
        }
        assert Accepts(ClassAt(14), s[14]) && Accepts(ClassAt(19), s[19]);
      }
    }
  }

  /**
   * `assertUuidV4`: a missing or empty header is refused as missing, one
   * that is not a version-4 UUID as invalid; otherwise the header is the
   * client id.
   */
  function CheckClientId(header: Option<string>): (r: Result<string, Thrown>)
    ensures header.None? || header == Some("") ==> r == Failure(Http(BadRequest(HeaderRequired)))
    ensures header.Some? && header.value != "" && !UuidV4(header.value) ==> r == Failure(Http(BadRequest(HeaderInvalid)))
    ensures r.Success? <==> header.Some? && UuidV4(header.value)
    ensures r.Success? ==> r.value == header.value
  {
    match header
    case None => Failure(Http(BadRequest(HeaderRequired)))
    case Some(v) =>
      PatternIsUuidV4(v);
      if v == "" then Failure(Http(BadRequest(HeaderRequired)))
      else if !MatchesPattern(v) then Failure(Http(BadRequest(HeaderInvalid)))
      else Success(v)
  }

  /** The example id of the API documentation passes. */
  lemma DocumentedIdPasses()
    ensures CheckClientId(Some("00000000-0000-4000-8000-000000000000")).Success?
  {
    var good := "00000000-0000-4000-8000-000000000000";
    assert MatchesPattern(good);
    PatternIsUuidV4(good);
  }

  /** The same id with version 1 does not pass. */
  lemma VersionOneRefused()
    ensures CheckClientId(Some("00000000-0000-1000-8000-000000000000")) == Failure(Http(BadRequest(HeaderInvalid)))
  {
    var v1 := "00000000-0000-1000-8000-000000000000";
    assert !Accepts(ClassAt(14), v1[14]);
    PatternIsUuidV4(v1);
  }

  /** The same id with the variant bits 00 does not pass. */
  lemma VariantZeroRefused()
    ensures CheckClientId(Some("00000000-0000-4000-0000-000000000000")) == Failure(Http(BadRequest(HeaderInvalid)))
  {
    var v0 := "00000000-0000-4000-0000-000000000000";
    assert !Accepts(ClassAt(19), v0[19]);
    PatternIsUuidV4(v0);
  }

  /** Hexadecimal digits are accepted in either case. */
  lemma CaseDoesNotMatter(s: string)
    requires UuidV4(s)
    ensures UuidV4(Lower(s))
  {
    var l := Lower(s);
    PatternIsUuidV4(s);
    PatternIsUuidV4(l);
    forall i | 0 <= i < |l| ensures Accepts(ClassAt(i), l[i]) {
      LowerKeepsClass(ClassAt(i), s[i]);
    }
  }

  lemma LowerKeepsClass(k: CharClass, c: char)
    requires Accepts(k, c)
    ensures Accepts(k, LowerChar(c))
  {
  }

  // ------------------------------------------------------------ path ids

  /** Decimal digits, optionally after one `+` or `-` sign. */
  predicate SignedDigits(t: string) {
    AllDigits(t) || (|t| >= 2 && (t[0] == '+' || t[0] == '-') && AllDigits(t[1..]))
  }

  /** The value of optionally signed decimal digits; no digits at all is 0. */
  function SignedValue(t: string): int
    requires SignedDigits(t)
  {
    if AllDigits(t) then DigitsValue(t)
    else if t[0] == '-' then -(DigitsValue(t[1..]) as int)
    else DigitsValue(t[1..])
  }

  /**
   * `Number(id)` for a path segment, when it is an integer: blank text is 0,
   * and optionally signed decimal digits (white space around them allowed)
   * are their value. Anything else is `NaN` or a fraction here.
   */
  function PathId(s: string): (id: Option<int>)
    ensures Trim(s) == "" ==> id == Some(0)
    ensures id.Some? <==> SignedDigits(Trim(s))
    ensures id.Some? ==> id.value == SignedValue(Trim(s))
  {
    var t := Trim(s);
    if SignedDigits(t) then Some(SignedValue(t)) else None
  }

  /** The id rendered in a URL comes back unchanged. */
  lemma PathIdRoundTrip(n: nat)
    ensures PathId(NatToString(n)) == Some(n)
  {
    var s := NatToString(n);
    DigitsValueOfNatToString(n);
    DigitNotSpace(s[0]);
    DigitNotSpace(s[|s| - 1]);
    TrimVisible(s);
  }

  /** A sign before the digits is read too: `-5` is -5 and `+5` is 5. */
  lemma PathIdSigned(sign: char, d: string)
    requires sign == '+' || sign == '-'
    requires |d| >= 1 && AllDigits(d)
    ensures var v: int := DigitsValue(d); PathId([sign] + d) == Some(if sign == '-' then -v else v)
  {
    SignedVisible(sign, d);
    SignedValueOf(sign, d);
  }

  lemma SignedValueOf(sign: char, d: string)
    requires sign == '+' || sign == '-'
    requires AllDigits(d)
    ensures SignedDigits([sign] + d) == (|d| >= 1)
    ensures var v: int := DigitsValue(d); |d| >= 1 ==> SignedValue([sign] + d) == (if sign == '-' then -v else v)
  {
    var s := [sign] + d;
    assert s[1..] == d;
    assert !IsDigit(s[0]);
  }

  lemma SignedVisible(sign: char, d: string)
    requires sign == '+' || sign == '-'
    requires |d| >= 1 && AllDigits(d)
    ensures Trim([sign] + d) == [sign] + d
  {
    var s := [sign] + d;
    DigitNotSpace(d[|d| - 1]);
    assert s[|s| - 1] == d[|d| - 1];
    TrimVisible(s);
  }

  lemma DigitNotSpace(c: char)
    requires IsDigit(c)
    ensures !IsSpace(c)
  {
  }

  /** Range of the `integer` column behind `id`. */
  const IntegerMin := -2147483648
  const IntegerMax := 2147483647

  const InvalidInteger := "invalid input syntax for type integer"
  const IntegerOutOfRange := "value out of range for type integer"

  /**
   * Looking a row up by `Number(id)`: a value that is not an integer, or one
   * outside the column's range, makes the database reject the query.
   */
  function QueryId(s: string): (r: Result<int, Thrown>)
    ensures r.Success? <==> PathId(s).Some? && IntegerMin <= PathId(s).value <= IntegerMax
    ensures r.Success? ==> r.value == PathId(s).value
    ensures PathId(s).None? ==> r == Failure(Unknown(true, InvalidInteger))
    ensures PathId(s).Some? && r.Failure? ==> r == Failure(Unknown(true, IntegerOutOfRange))
  {
    match PathId(s)
    case None => Failure(Unknown(true, InvalidInteger))
    case Some(n) =>
      if IntegerMin <= n <= IntegerMax then Success(n) else Failure(Unknown(true, IntegerOutOfRange))
  }

  // ------------------------------------------------------------ handlers

  /** The table after a request and what the caller receives. */
  datatype Reply<A> = Reply(table: Locations.Table, result: Result<A, Thrown>)

  /** `POST /locations`. */
  function Create(t: Locations.Table, header: Option<string>, name: string, lat: int, lon: int, nextId: nat, now: int): (r: Reply<Locations.Row>)
    ensures CheckClientId(header).Failure? ==> r == Reply(t, Failure(CheckClientId(header).error))
    ensures CheckClientId(header).Success? ==>
      var c := Locations.Create(t, header.value, name, lat, lon, nextId, now);
      r == Reply(c.table, c.result)
  {
    match CheckClientId(header)
    case Failure(e) => Reply(t, Failure(e))
    case Success(clientId) =>
      var c := Locations.Create(t, clientId, name, lat, lon, nextId, now);
      Reply(c.table, c.result)
  }

  /** The `units` query value metric units are asked for by. */
  const MetricParam := QueryDto.Str(WeatherService.UnitsText(WeatherService.Metric))

  /**
   * `GET /locations`: the `units` query value is not validated; when it is
   * absent metric units are used, and any other value (an unknown text, a
   * repeated parameter) is handed on as it came. `summary(units)` stands for
   * the current-weather lookup with that value.
   */
  function FindAll<W>(t: Locations.Table, header: Option<string>, page: int, pageSize: int,
                      units: QueryDto.Param, summary: QueryDto.Param -> Locations.Row -> Result<W, Thrown>): (r: Result<Locations.Page<W>, Thrown>)
    requires page >= 1 && 1 <= pageSize <= 50
    ensures CheckClientId(header).Failure? ==> r == Failure(CheckClientId(header).error)
    ensures CheckClientId(header).Success? && units.Missing? ==>
      r == Locations.FindAllMinimal(t, header.value, page, pageSize, summary(MetricParam))
    ensures CheckClientId(header).Success? && !units.Missing? ==>
      r == Locations.FindAllMinimal(t, header.value, page, pageSize, summary(units))
  {
    match CheckClientId(header)
    case Failure(e) => Failure(e)
    case Success(clientId) =>
      var u := if units.Missing? then MetricParam else units;
      Locations.FindAllMinimal(t, clientId, page, pageSize, summary(u))
  }

  /** Leaving the units out is the same as asking for metric units. */
  lemma FindAllDefaultsToMetric<W>(t: Locations.Table, header: Option<string>, page: int, pageSize: int,
                                   summary: QueryDto.Param -> Locations.Row -> Result<W, Thrown>)
    requires page >= 1 && 1 <= pageSize <= 50
    ensures FindAll(t, header, page, pageSize, QueryDto.Missing, summary) == FindAll(t, header, page, pageSize, MetricParam, summary)
  {
  }

  /** `PATCH /locations/:id`; an id the database cannot take as an integer fails the query. */
  function Update(t: Locations.Table, header: Option<string>, id: string, p: Locations.Patch, now: int): (r: Reply<Locations.Table>)
    ensures CheckClientId(header).Failure? ==> r == Reply(t, Failure(CheckClientId(header).error))
    ensures CheckClientId(header).Success? && QueryId(id).Failure? ==>
      r == Reply(t, Failure(QueryId(id).error))
    ensures CheckClientId(header).Success? && QueryId(id).Success? ==>
      var u := Locations.Update(t, QueryId(id).value, header.value, p, now);
      r == Reply(if u.Success? then u.value else t, u)
  {
    match CheckClientId(header)
    case Failure(e) => Reply(t, Failure(e))
    case Success(clientId) =>
      match QueryId(id)
      case Failure(e) => Reply(t, Failure(e))
      case Success(n) =>
        var u := Locations.Update(t, n, clientId, p, now);
        Reply(if u.Success? then u.value else t, u)
  }

  /** `DELETE /locations/:id`. */
  function RemoveOne(t: Locations.Table, header: Option<string>, id: string, now: int): (r: Reply<Locations.Table>)
    ensures CheckClientId(header).Failure? ==> r == Reply(t, Failure(CheckClientId(header).error))
    ensures CheckClientId(header).Success? && QueryId(id).Failure? ==>
      r == Reply(t, Failure(QueryId(id).error))
    ensures CheckClientId(header).Success? && QueryId(id).Success? ==>
      var u := Locations.RemoveOne(t, QueryId(id).value, header.value, now);
      r == Reply(if u.Success? then u.value else t, u)
  {
    match CheckClientId(header)
    case Failure(e) => Reply(t, Failure(e))
    case Success(clientId) =>
      match QueryId(id)
      case Failure(e) => Reply(t, Failure(e))
      case Success(n) =>
        var u := Locations.RemoveOne(t, n, clientId, now);
        Reply(if u.Success? then u.value else t, u)
  }

  /** `DELETE /locations`. */
  function RemoveAll(t: Locations.Table, header: Option<string>, now: int): (r: Reply<Locations.Table>)
    ensures CheckClientId(header).Failure? ==> r == Reply(t, Failure(CheckClientId(header).error))
    ensures CheckClientId(header).Success? ==>
      var u := Locations.RemoveAll(t, header.value, now);
      r == Reply(if u.Success? then u.value else t, u)
  {
    match CheckClientId(header)
    case Failure(e) => Reply(t, Failure(e))
    case Success(clientId) =>
      var u := Locations.RemoveAll(t, clientId, now);
      Reply(if u.Success? then u.value else t, u)
  }

  /** A request without a valid client id leaves every client's favourites as they were and answers 400. */
  lemma InvalidHeaderChangesNothing(t: Locations.Table, header: Option<string>, name: string, lat: int, lon: int,
                                    nextId: nat, id: string, p: Locations.Patch, now: int)
    requires header.None? || !UuidV4(header.value)
    ensures Create(t, header, name, lat, lon, nextId, now).table == t
    ensures Update(t, header, id, p, now).table == t
    ensures RemoveOne(t, header, id, now).table == t
    ensures RemoveAll(t, header, now).table == t
    ensures var e := Create(t, header, name, lat, lon, nextId, now).result;
      e.Failure? && e.error.Http? && e.error.http.status == BadRequestStatus
  {
  }

  /**
   * With a valid client id, an id that is not an integer (`abc`, `1.5`) or
   * lies outside the column's range changes nothing and is answered 500
   * `INTERNAL_ERROR`, not 404.
   */
  lemma RejectedIdIsServerError(t: Locations.Table, header: Option<string>, id: string, p: Locations.Patch,
                                now: int, path: string)
    requires CheckClientId(header).Success?
    requires PathId(id).None? || PathId(id).value < IntegerMin || PathId(id).value > IntegerMax
    ensures Update(t, header, id, p, now).table == t && RemoveOne(t, header, id, now).table == t
    ensures var e := Update(t, header, id, p, now).result;
      e.Failure? && ExceptionsFilter.Catch(e.error, path).status == InternalServerErrorStatus
    ensures var e := RemoveOne(t, header, id, now).result;
      e.Failure? && ExceptionsFilter.Catch(e.error, path).body.code == Some("INTERNAL_ERROR")
  {
  }
}

=== FILE: numbers.dfy ===
/**
 * JavaScript numbers as the services meet them: exact reals for finite values
 * (no binary floating-point rounding) plus NaN and the two infinities, and the
 * few built-ins the core applies to them.
 */
module JsNumber {

  datatype Num = Finite(value: real) | NaN | PosInf | NegInf {
    /** `Number.isFinite`. */
    predicate IsFinite() {
      Finite?
    }
  }

  /** `Math.min` on integers. */
  function Min(a: int, b: int): int {
    if a <= b then a else b
  }

  /** `Math.max` on integers. */
  function Max(a: int, b: int): int {
    if a >= b then a else b
  }

  /** `Math.trunc` on a finite value: drops the fraction, toward zero. */
  function Trunc(x: real): (t: int)
    ensures x >= 0.0 ==> t as real <= x < t as real + 1.0
    ensures x < 0.0 ==> t as real - 1.0 < x <= t as real
  {
    if x >= 0.0 then x.Floor else -((-x).Floor)
  }

  /** `Math.round` on a finite value: the nearest integer, halves rounded up toward +∞. */
  function Round(x: real): (n: int)
    ensures x - 0.5 < n as real <= x + 0.5
  {
    (x + 0.5).Floor
  }

  /** Integer `a % n` in JavaScript: truncating, so the remainder takes the sign of a. */
  function IntRem(a: int, n: int): (r: int)
    requires n > 0
    ensures a >= 0 ==> 0 <= r < n && r == a % n
    ensures a < 0 ==> -n < r <= 0
    ensures (a - r) % n == 0
  {
    TruncRemDivides(a, n);
    if a >= 0 then a % n else -((-a) % n)
  }

  /** Taking away the truncating remainder leaves a multiple of the divisor. */
  lemma TruncRemDivides(a: int, n: int)
    requires n > 0
    ensures a >= 0 ==> (a - a % n) % n == 0
    ensures a < 0 ==> (a + (-a) % n) % n == 0
  {
    if a >= 0 {
      ModUnique(a - a % n, n, a / n, 0);
    } else {
      ModUnique(a + (-a) % n, n, -((-a) / n), 0);
    }
  }

  /** Euclidean division is unique: a decomposition y = n·a + b with 0 ≤ b < n fixes the remainder. */
  lemma ModUnique(y: int, n: int, a: int, b: int)
    requires n > 0 && 0 <= b < n && y == n * a + b
    ensures y % n == b
  {
    var q, r := y / n, y % n;
    var d := a - q;
    assert n * d == r - b;
    if d >= 1 {
      MulAtLeast(n, d);
    } else if d <= -1 {
      MulAtLeast(n, -d);
    }
  }

  lemma MulAtLeast(n: int, d: int)
    requires n > 0 && d >= 1
    ensures n * d >= n
  {
  }

  /** Real `a % 360` in JavaScript: truncating, so the remainder takes the sign of a. */
  function Rem360(a: real): (r: real)
    ensures a >= 0.0 ==> 0.0 <= r < 360.0
    ensures a < 0.0 ==> -360.0 < r <= 0.0
  {
    var q := Trunc(a / 360.0);
    a - 360.0 * q as real
  }

  /** The representative of a in [0, 360) modulo 360: `a - 360 * floor(a / 360)`. */
  function Mod360(a: real): (r: real)
    ensures 0.0 <= r < 360.0
  {
    a - 360.0 * (a / 360.0).Floor as real
  }

  /** The truncating remainder agrees with the representative up to one turn for negative a. */
  lemma Rem360Mod360(a: real)
    ensures a >= 0.0 ==> Rem360(a) == Mod360(a)
    ensures a < 0.0 && Rem360(a) < 0.0 ==> Rem360(a) + 360.0 == Mod360(a)
    ensures a < 0.0 && Rem360(a) == 0.0 ==> Mod360(a) == 0.0
  {
    var q := Trunc(a / 360.0);
    var r := Rem360(a);
    assert a == 360.0 * q as real + r;
    if a >= 0.0 {
      Mod360Unique(a, q, r);
    } else if r < 0.0 {
      assert a == 360.0 * (q - 1) as real + (r + 360.0);
      Mod360Unique(a, q - 1, r + 360.0);
    } else {
      Mod360Unique(a, q, 0.0);
    }
  }

  /** Two reals 360 apart have the same representative. */
  lemma Mod360Periodic(a: real)
    ensures Mod360(a + 360.0) == Mod360(a)
  {
    assert ((a + 360.0) / 360.0).Floor == (a / 360.0).Floor + 1;
  }

  /** Mod360 picks the only value in [0, 360) that differs from a by a multiple of 360. */
  lemma Mod360Unique(a: real, q: int, r: real)
    requires 0.0 <= r < 360.0 && a == 360.0 * q as real + r
    ensures Mod360(a) == r
  {
    assert a / 360.0 == q as real + r / 360.0;
    assert (a / 360.0).Floor == q;
  }
}

=== FILE: openweather.dfy ===
/**
 * `OpenWeatherService`: current conditions for a coordinate pair through a
 * plain read-through cache. A cache hit answers without touching the limiter
 * or the provider; a miss charges the hourly provider quota, fetches, and
 * caches the shaped answer for 30 minutes. The coordinates enter the cache
 * key unrounded, as JavaScript renders the numbers, so they are given here as
 * those texts.
 */
module OpenWeather {
  import opened Wrappers
  import opened Text
  import opened JsNumber
  import opened Exceptions
  import Store
  import RateLimiter
  import Compass

  const OwmLimitPerHour := 2000
  const CacheTtlSec := 1800
  const FetchFailed := "Failed to fetch weather data"
  const ConfigMissing := "OpenWeather API configuration is missing"

  /** The two configuration values; `None` when unset. */
  datatype Config = Config(apiKey: Option<string>, apiUrl: Option<string>)

  datatype Service = Service(apiKey: string, apiUrl: string)

  /** The constructor refuses a missing or empty key or URL. */
  function NewService(c: Config): (r: Result<Service, Thrown>)
    ensures r.Success? <==> c.apiKey.Some? && c.apiKey.value != "" && c.apiUrl.Some? && c.apiUrl.value != ""
    ensures r.Success? ==> r.value == Service(c.apiKey.value, c.apiUrl.value)
    ensures r.Failure? ==> r.error == Unknown(true, ConfigMissing)
  {
    if c.apiKey.None? || c.apiKey.value == "" || c.apiUrl.None? || c.apiUrl.value == "" then
      Failure(Unknown(true, ConfigMissing))
    else
      Success(Service(c.apiKey.value, c.apiUrl.value))
  }

  /** The shaped answer; the direction is `None` (undefined) for a bearing that is not finite. */
  datatype WeatherData = WeatherData(temperature: Num, windSpeed: Num, windDirection: Option<string>)

  /** The fields of the provider's body; `Body(None)` when `main` or `wind` is missing. */
  datatype Fields = Fields(temp: Num, speed: Num, deg: Num)

  /** What `axios.get` did: resolved with a body (2xx), or rejected. */
  datatype Reply = Body(fields: Option<Fields>) | Rejected(error: Thrown)

  /** `weather_${lat}_${lon}`, from the texts of the two numbers. */
  function CacheKey(lat: string, lon: string): (key: string)
    ensures |key| == 9 + |lat| + |lon| && key[..8] == "weather_"
    ensures key[8..8 + |lat|] == lat && key[8 + |lat|] == '_' && key[9 + |lat|..] == lon
  {
    "weather_" + lat + "_" + lon
  }

  /**
   * The rendering of a number never holds `_`, so two coordinate pairs share a
   * cache entry exactly when their texts agree: `51.5074` and `51.507` stay
   * apart, as do `1.5` and `1.50` if the caller's numbers rendered so.
   */
  lemma CacheKeyInjective(lat1: string, lon1: string, lat2: string, lon2: string)
    requires Lacks(lat1, '_') && Lacks(lat2, '_')
    ensures CacheKey(lat1, lon1) == CacheKey(lat2, lon2) <==> lat1 == lat2 && lon1 == lon2
  {
    if CacheKey(lat1, lon1) == CacheKey(lat2, lon2) {
      assert CacheKey(lat1, lon1) == "weather_" + (lat1 + "_" + lon1);
      assert CacheKey(lat2, lon2) == "weather_" + (lat2 + "_" + lon2);
      assert lat1 + "_" + lon1 == CacheKey(lat1, lon1)[8..] == lat2 + "_" + lon2;
      JoinSplitsOn(lat1, lon1, lat2, lon2, '_');
    }
  }

  const Quota := RateLimiter.Bucket("owm:requests", OwmLimitPerHour, 3600)

  /** The cache, the limiter's counters, and the caller's result after one call. */
  datatype Step = Step(cache: Store.Store<WeatherData>, counters: RateLimiter.Counters, result: Result<WeatherData, Thrown>)

  /** `getWeatherByCoordinates`. */
  function GetWeather(cache: Store.Store<WeatherData>, counters: RateLimiter.Counters, mode: RateLimiter.Mode,
                      now: nat, lat: string, lon: string, reply: Reply): (r: Step)
    // a cached answer is returned as is: no quota charged, nothing written
    ensures Store.Get(cache, CacheKey(lat, lon), now).Some? ==>
      r == Step(cache, counters, Success(Store.Get(cache, CacheKey(lat, lon), now).value))
    // a miss charges the hourly quota; a refusal propagates as the limiter's own exception
    ensures Store.Get(cache, CacheKey(lat, lon), now).None? ==>
      r.counters == RateLimiter.Consume(counters, mode, Quota, now).counters
    ensures Store.Get(cache, CacheKey(lat, lon), now).None? && RateLimiter.Consume(counters, mode, Quota, now).outcome.Fail? ==>
      r.cache == cache && r.result == Failure(Api(RateLimitException(None)))
    // every provider failure becomes the same 400, and nothing is cached
    ensures r.result.Failure? ==> r.cache == cache
    ensures r.result.Failure? && !r.result.error.Api? ==> r.result.error == Http(HttpError(FetchFailed, BadRequestStatus))
    ensures r.result.Success? && Store.Get(cache, CacheKey(lat, lon), now).None? ==>
      && reply.Body? && reply.fields.Some?
      && r.result.value == Shape(reply.fields.value)
      && r.cache == Store.Set(cache, CacheKey(lat, lon), r.result.value, CacheTtlSec, now)
  {
    var key := CacheKey(lat, lon);
    match Store.Get(cache, key, now)
    case Some(hit) => Step(cache, counters, Success(hit))
    case None =>
      var limited := RateLimiter.Consume(counters, mode, Quota, now);
      if limited.outcome.Fail? then Step(cache, limited.counters, Failure(Api(limited.outcome.error)))
      else match reply
        case Body(Some(f)) =>
          var data := Shape(f);
          Step(Store.Set(cache, key, data, CacheTtlSec, now), limited.counters, Success(data))
        // a rejected request, or a body without `main`/`wind` (a TypeError), lands in the catch
        case _ => Step(cache, limited.counters, Failure(Http(HttpError(FetchFailed, 400))))
  }

  /** The answer built from the provider's fields, with the bearing named on the 8-point compass. */
  function Shape(f: Fields): (w: WeatherData)
    ensures w.temperature == f.temp && w.windSpeed == f.speed
    ensures f.deg.IsFinite() ==> w.windDirection == Some(Compass.Direction8(f.deg))
    ensures !f.deg.IsFinite() ==> w.windDirection.None?
  {
    WeatherData(f.temp, f.speed, Compass.OwmDirection(f.deg))
  }

  /**
   * A successful fetch is served from the cache for the next 30 minutes:
   * the second call returns the same answer, charges nothing and ignores the
   * provider; after that the entry has lapsed and the quota is charged again.
   */
  lemma FetchThenHit(cache: Store.Store<WeatherData>, counters: RateLimiter.Counters, mode: RateLimiter.Mode,
                     t0: nat, t1: nat, lat: string, lon: string, first: Reply, second: Reply)
    requires t0 <= t1
    requires Store.Get(cache, CacheKey(lat, lon), t0).None?
    requires GetWeather(cache, counters, mode, t0, lat, lon, first).result.Success?
    ensures var s1 := GetWeather(cache, counters, mode, t0, lat, lon, first);
      var s2 := GetWeather(s1.cache, s1.counters, mode, t1, lat, lon, second);
      && (t1 < t0 + CacheTtlSec ==> s2 == Step(s1.cache, s1.counters, s1.result))
      && (t1 >= t0 + CacheTtlSec ==> s2.counters == RateLimiter.Consume(s1.counters, mode, Quota, t1).counters)
  {
    var s1 := GetWeather(cache, counters, mode, t0, lat, lon, first);
    Store.ReadAfterSet(cache, CacheKey(lat, lon), s1.result.value, CacheTtlSec, t0, t1);
  }

  /** The provider's sample answers: 10 degrees is north and 200 degrees is south. */
  lemma ShapeExamples()
    ensures Shape(Fields(Finite(22.0), Finite(4.0), Finite(10.0))) == WeatherData(Finite(22.0), Finite(4.0), Some("N"))
    ensures Shape(Fields(Finite(0.0), Finite(0.0), Finite(200.0))).windDirection == Some("S")
  {
    Compass.OwmDirectionExamples();
  }
}

=== FILE: query_dto.dfy ===
/**
 * `WindForecastParamsDto` and `WindForecastQueryDto`: how the raw query and
 * path values are coerced (first element of a repeated parameter, lower-cased
 * enums with a fallback, lenient integers, floats) and which coerced values
 * the validation accepts.
 */
module QueryDto {
  import opened Wrappers
  import opened Text
  import opened JsNumber
  import WeatherService

  /** A raw request value: `Missing` is `undefined`; `Other` is null or an object. */
  datatype Param =
    | Missing
    | Str(s: string)
    | Number(n: Num)
    | Bool(b: bool)
    | List(items: seq<Param>)
    | Other

  /** `firstParam`: a repeated parameter contributes its first value (undefined when there is none). */
  function FirstParam(v: Param): (r: Param)
    ensures !v.List? ==> r == v
    ensures v.List? && |v.items| > 0 ==> r == v.items[0]
    ensures v.List? && |v.items| == 0 ==> r == Missing
  {
    match v
    case List(items) => if |items| > 0 then items[0] else Missing
    case _ => v
  }

  /**
   * `String(n)` for the numbers whose rendering the model spells out: integers
   * and the non-finite values. A number with a fractional part is rendered by
   * its integer part followed by a point; the fraction digits are not modelled.
   */
  function NumberString(n: Num): (s: string)
    ensures n.Finite? ==> |s| > 0 && (s[0] == '-' || IsDigit(s[0]))
  {
    match n
    case Finite(x) =>
      var t := Trunc(x);
      if t as real == x then IntToString(t) else IntToString(t) + "."
    case NaN => "NaN"
    case PosInf => "Infinity"
    case NegInf => "-Infinity"
  }

  /** `toLowerEnumValue(value, fallback)`. */
  function ToLowerEnum(v: Param, fallback: string): (r: string)
    ensures Lower(r) == r
    ensures FirstParam(v).Str? ==> r == Lower(FirstParam(v).s)
    ensures FirstParam(v).Bool? ==> r == (if FirstParam(v).b then "true" else "false")
    ensures FirstParam(v).Number? ==> r == Lower(NumberString(FirstParam(v).n))
    ensures !(FirstParam(v).Str? || FirstParam(v).Bool? || FirstParam(v).Number?) ==> r == Lower(fallback)
  {
    var f := FirstParam(v);
    var r := match f
      case Str(s) => Lower(s)
      case Number(n) => Lower(NumberString(n))
      case Bool(b) => if b then "true" else "false"
      case _ => Lower(fallback);
    LowerIdempotent(match f case Str(s) => s case Number(n) => NumberString(n) case _ => fallback);
    r
  }

  /** `toIntOrUndefined`: an integral number, or the leading integer of a trimmed non-empty string. */
  function ToInt(v: Param): (r: Option<int>)
    ensures FirstParam(v).Number? ==>
      r == (if FirstParam(v).n.Finite? && IsInteger(FirstParam(v).n.value) then Some(Trunc(FirstParam(v).n.value)) else None)
    ensures FirstParam(v).Str? ==> r == ParseInt(Trim(FirstParam(v).s))
    ensures !(FirstParam(v).Number? || FirstParam(v).Str?) ==> r.None?
  {
    match FirstParam(v)
    case Number(n) => if n.Finite? && IsInteger(n.value) then Some(Trunc(n.value)) else None
    case Str(s) =>
      var trimmed := Trim(s);
      if trimmed == "" then None else ParseInt(trimmed)
    case _ => None
  }

  predicate IsInteger(x: real) {
    Trunc(x) as real == x
  }

  /** Any integer written as text, with blanks before it or a non-digit tail, reads back as itself. */
  lemma ToIntOfText(i: int, pre: string, suffix: string)
    requires forall k :: 0 <= k < |pre| ==> IsSpace(pre[k])
    requires |suffix| > 0 ==> !IsDigit(suffix[0]) && !IsSpace(suffix[|suffix| - 1])
    ensures ToInt(Str(pre + IntToString(i) + suffix)) == Some(i)
  {
    var body := IntToString(i) + suffix;
    var s := pre + IntToString(i) + suffix;
    assert s == pre + body;
    IntToStringVisible(i, suffix);
    TrimAround(pre, body);
    assert Trim(s) == body;
    ParseIntOfIntToString(i, suffix);
    assert ParseInt(body) == Some(i);
    ToIntOfStr(s);
  }

  lemma ToIntOfStr(s: string)
    ensures ToInt(Str(s)) == ParseInt(Trim(s))
  {
    if Trim(s) == "" {
      assert LeadingDigits("") == 0;
    }
  }

  lemma IntToStringVisible(i: int, suffix: string)
    requires |suffix| > 0 ==> !IsSpace(suffix[|suffix| - 1])
    ensures var body := IntToString(i) + suffix;
      |body| > 0 && !IsSpace(body[0]) && !IsSpace(body[|body| - 1])
  {
    var t := IntToString(i);
    assert |t| > 0 && (t[0] == '-' || IsDigit(t[0])) && IsDigit(t[|t| - 1]) by {
      var m: nat := if i < 0 then -i else i;
      assert IsDigit(NatToString(m)[|NatToString(m)| - 1]);
    }
  }

  /** Leading blanks go, and nothing else does, when the text after them starts and ends with a visible character. */
  lemma TrimAround(pre: string, body: string)
    requires forall k :: 0 <= k < |pre| ==> IsSpace(pre[k])
    requires |body| > 0 && !IsSpace(body[0]) && !IsSpace(body[|body| - 1])
    ensures Trim(pre + body) == body
  {
    TrimStartBlanks(pre, body);
  }

  lemma {:induction false} TrimStartBlanks(pre: string, body: string)
    requires forall k :: 0 <= k < |pre| ==> IsSpace(pre[k])
    requires |body| > 0 && !IsSpace(body[0])
    ensures TrimStart(pre + body) == body
    decreases |pre|
  {
    if |pre| == 0 {
      assert pre + body == body;
    } else {
      assert (pre + body)[1..] == pre[1..] + body;
      TrimStartBlanks(pre[1..], body);
    }
  }

  // ---------------------------------------------------------------- floats

  function Pow10(k: nat): (p: nat)
    ensures p >= 1
  {
    if k == 0 then 1 else 10 * Pow10(k - 1)
  }

  /** Digits, optionally followed by a point and more digits; `None` when there is no digit at all. */
  function UnsignedDecimal(rest: string): (r: Option<real>)
    ensures r.Some? ==> r.value >= 0.0
  {
    var n := LeadingDigits(rest);
    var afterPoint := if n < |rest| && rest[n] == '.' then rest[n + 1..] else "";
    var m := LeadingDigits(afterPoint);
    if n + m == 0 then None
    else Some(DigitsValue(rest[..n]) as real + DigitsValue(afterPoint[..m]) as real / Pow10(m) as real)
  }

  /**
   * `parseFloat` on the decimal forms: optional blanks, sign, digits, and a
   * fraction after a point; NaN when no digit is found. Exponents and the
   * word `Infinity` are not modelled.
   */
  function ParseFloat(s: string): (r: Num)
    ensures r.NaN? || r.Finite?
  {
    var t := TrimStart(s);
    var negative := |t| > 0 && t[0] == '-';
    var sign := if |t| > 0 && (t[0] == '-' || t[0] == '+') then 1 else 0;
    match UnsignedDecimal(t[sign..])
    case None => NaN
    case Some(x) => Finite(if negative then -x else x)
  }

  /** A run of digits with nothing after it is read as the whole number it spells. */
  lemma UnsignedDecimalOfNat(m: nat)
    ensures UnsignedDecimal(NatToString(m)) == Some(m as real)
  {
    var d := NatToString(m);
    LeadingDigitsOfNumber(m, "");
    assert d + "" == d;
    DigitsValueOfNatToString(m);
    UnsignedDecimalOfDigits(d);
  }

  lemma UnsignedDecimalOfDigits(d: string)
    requires |d| > 0 && LeadingDigits(d) == |d|
    ensures AllDigits(d) && UnsignedDecimal(d) == Some(DigitsValue(d) as real)
  {
    assert d[..|d|] == d;
    assert LeadingDigits("") == 0;
    assert ""[..0] == "";
    assert DigitsValue("") == 0 && Pow10(0) == 1;
  }

  /** An integer written as text parses back to itself. */
  lemma ParseFloatOfInt(i: int)
    ensures ParseFloat(IntToString(i)) == Finite(i as real)
  {
    var m: nat := if i < 0 then -i else i;
    UnsignedDecimalOfNat(m);
    IntToStringParts(i);
  }

  /** The text of an integer starts with no blank, carries a minus sign exactly when negative, then the digits. */
  lemma IntToStringParts(i: int)
    ensures var s := IntToString(i);
      var sign := if i < 0 then 1 else 0;
      && TrimStart(s) == s
      && |s| > 0 && (s[0] == '-' <==> i < 0) && s[0] != '+'
      && s[sign..] == NatToString(if i < 0 then -i else i)
  {
    var s := IntToString(i);
    IntToStringVisible(i, "");
    assert s + "" == s;
    TrimStartBlanks("", s);
    assert "" + s == s;
  }

  /** `toFloat`: numbers as they are, strings through `parseFloat`, anything else NaN. */
  function ToFloat(v: Param): (r: Num)
    ensures FirstParam(v).Number? ==> r == FirstParam(v).n
    ensures FirstParam(v).Str? ==> r == ParseFloat(FirstParam(v).s)
    ensures !(FirstParam(v).Number? || FirstParam(v).Str?) ==> r == NaN
  {
    match FirstParam(v)
    case Number(n) => n
    case Str(s) => ParseFloat(s)
    case _ => NaN
  }

  // ------------------------------------------------------------ validation

  /** `@IsNumber() @Min(lo) @Max(hi)`: a finite number (not NaN, not infinite) within [lo, hi]. */
  predicate InRange(x: Num, lo: real, hi: real) {
    x.Finite? && lo <= x.value <= hi
  }

  /** The validated path coordinates, or the names of the failing properties in declaration order. */
  function ValidateParams(lat: Param, lon: Param): (r: Result<(real, real), seq<string>>)
    ensures r.Success? <==> InRange(ToFloat(lat), -90.0, 90.0) && InRange(ToFloat(lon), -180.0, 180.0)
    ensures r.Success? ==> r.value == (ToFloat(lat).value, ToFloat(lon).value)
    ensures r.Failure? ==> ("lat" in r.error <==> !InRange(ToFloat(lat), -90.0, 90.0))
    ensures r.Failure? ==> ("lon" in r.error <==> !InRange(ToFloat(lon), -180.0, 180.0))
  {
    var a := ToFloat(lat);
    var b := ToFloat(lon);
    var errors := (if InRange(a, -90.0, 90.0) then [] else ["lat"]) + (if InRange(b, -180.0, 180.0) then [] else ["lon"]);
    if errors == [] then Success((a.value, b.value)) else Failure(errors)
  }

  function ParseUnits(s: string): (r: Option<WeatherService.Units>)
    ensures r.Some? ==> WeatherService.UnitsText(r.value) == s
  {
    if s == "standard" then Some(WeatherService.Standard)
    else if s == "metric" then Some(WeatherService.Metric)
    else if s == "imperial" then Some(WeatherService.Imperial)
    else None
  }

  function ParseGranularity(s: string): (r: Option<WeatherService.Granularity>)
    ensures r.Some? ==> WeatherService.GranularityText(r.value) == s
  {
    if s == "hourly" then Some(WeatherService.Hourly)
    else if s == "daily" then Some(WeatherService.Daily)
    else None
  }

  /** Each enum value is recognised from its own text, so `@IsEnum` accepts exactly the enum's texts. */
  lemma ParseEnumRoundTrip(u: WeatherService.Units, g: WeatherService.Granularity)
    ensures ParseUnits(WeatherService.UnitsText(u)) == Some(u)
    ensures ParseGranularity(WeatherService.GranularityText(g)) == Some(g)
  {
  }

  /**
   * The validated query. `range` is checked (an integer in 3..120) only for an
   * hourly query that carries one; `days` (1..7) only for a daily query that
   * carries one; a value that does not apply passes through unchecked.
   */
  function ValidateQuery(units: Param, granularity: Param, range: Param, days: Param): (r: Result<WeatherService.ForecastQuery, seq<string>>)
    ensures var u := ParseUnits(ToLowerEnum(units, "metric"));
      var g := ParseGranularity(ToLowerEnum(granularity, "hourly"));
      r.Success? <==>
        && u.Some? && g.Some?
        && (g.value == WeatherService.Hourly && ToInt(range).Some? ==> 3 <= ToInt(range).value <= 120)
        && (g.value == WeatherService.Daily && ToInt(days).Some? ==> 1 <= ToInt(days).value <= 7)
    ensures r.Success? ==> r.value == WeatherService.ForecastQuery(
      ParseUnits(ToLowerEnum(units, "metric")).value, ParseGranularity(ToLowerEnum(granularity, "hourly")).value,
      ToInt(range), ToInt(days))
    ensures r.Failure? ==> |r.error| > 0
  {
    Check(ParseUnits(ToLowerEnum(units, "metric")), ParseGranularity(ToLowerEnum(granularity, "hourly")), ToInt(range), ToInt(days))
  }

  /** The checks on the already converted values, one property name per failed check. */
  function Check(u: Option<WeatherService.Units>, g: Option<WeatherService.Granularity>, rg: Option<int>, ds: Option<int>)
    : (r: Result<WeatherService.ForecastQuery, seq<string>>)
    ensures r.Success? <==>
      && u.Some? && g.Some?
      && (g.value == WeatherService.Hourly && rg.Some? ==> 3 <= rg.value <= 120)
      && (g.value == WeatherService.Daily && ds.Some? ==> 1 <= ds.value <= 7)
    ensures r.Success? ==> r.value == WeatherService.ForecastQuery(u.value, g.value, rg, ds)
    ensures r.Failure? ==> |r.error| > 0
  {
    var badRange := g == Some(WeatherService.Hourly) && rg.Some? && !(3 <= rg.value <= 120);
    var badDays := g == Some(WeatherService.Daily) && ds.Some? && !(1 <= ds.value <= 7);
    var errors :=
      (if u.None? then ["units"] else [])
      + (if g.None? then ["granularity"] else [])
      + (if badRange then ["range"] else [])
      + (if badDays then ["days"] else []);
    if u.Some? && g.Some? && !badRange && !badDays then Success(WeatherService.ForecastQuery(u.value, g.value, rg, ds))
    else Failure(errors)
  }

  /** Absent units and granularity fall back to metric and hourly. */
  lemma QueryDefaults()
    ensures ValidateQuery(Missing, Missing, Missing, Missing) ==
      Success(WeatherService.ForecastQuery(WeatherService.Metric, WeatherService.Hourly, None, None))
  {
    UnitsDefault();
    GranularityDefault();
    assert ToInt(Missing) == None;
  }

  lemma UnitsDefault()
    ensures ParseUnits(ToLowerEnum(Missing, "metric")) == Some(WeatherService.Metric)
  {
    LowerOfLowercase("metric");
    assert ToLowerEnum(Missing, "metric") == "metric";
  }

  lemma GranularityDefault()
    ensures ParseGranularity(ToLowerEnum(Missing, "hourly")) == Some(WeatherService.Hourly)
  {
    LowerOfLowercase("hourly");
    assert ToLowerEnum(Missing, "hourly") == "hourly";
  }

  lemma UnitsOfText(s: string, u: WeatherService.Units)
    requires Lower(s) == WeatherService.UnitsText(u)
    ensures ParseUnits(ToLowerEnum(Str(s), "metric")) == Some(u)
  {
    ParseEnumRoundTrip(u, WeatherService.Hourly);
  }

  /** The units are read case-insensitively: any capitalisation of an enum text selects it. */
  lemma UnitsCaseInsensitive(s: string, u: WeatherService.Units)
    requires Lower(s) == WeatherService.UnitsText(u)
    ensures ValidateQuery(Str(s), Missing, Missing, Missing).Success?
    ensures ValidateQuery(Str(s), Missing, Missing, Missing).value.units == u
  {
    UnitsOfText(s, u);
    OnlyUnits(Str(s), u);
  }

  lemma OnlyUnits(units: Param, u: WeatherService.Units)
    requires ParseUnits(ToLowerEnum(units, "metric")) == Some(u)
    ensures ValidateQuery(units, Missing, Missing, Missing) == Success(WeatherService.ForecastQuery(u, WeatherService.Hourly, None, None))
  {
    GranularityDefault();
    assert ToInt(Missing) == None;
  }

  /**
   * A query that passed validation asks the provider for exactly the points
   * it needs: ceil(range / 3) three-hour points for an hourly query, eight per
   * day (capped at forty) for a daily one.
   */
  lemma ValidQueryCount(units: Param, granularity: Param, range: Param, days: Param)
    requires ValidateQuery(units, granularity, range, days).Success?
    ensures var q := ValidateQuery(units, granularity, range, days).value;
      && (q.granularity == WeatherService.Hourly ==>
           1 <= WeatherService.Cnt(q) <= WeatherService.MaxCnt && 3 * WeatherService.Cnt(q) >= q.range.GetOr(WeatherService.DefaultRangeHours))
      && (q.granularity == WeatherService.Daily ==>
           1 <= WeatherService.Cnt(q) && (q.days.Some? && q.days.value <= 5 ==> WeatherService.Cnt(q) == 8 * q.days.value))
  {
    var q := ValidateQuery(units, granularity, range, days).value;
    WeatherService.CntWithinLimits(q);
  }

  /** A number of hours repeated in the query counts by its first value only. */
  lemma RepeatedRange(i: int, rest: seq<Param>)
    ensures ToInt(List([Str(IntToString(i))] + rest)) == Some(i)
  {
    var t := IntToString(i);
    ToIntOfPlainText(i);
    FirstCounts(t, rest);
  }

  lemma ToIntOfPlainText(i: int)
    ensures ToInt(Str(IntToString(i))) == Some(i)
  {
    var t := IntToString(i);
    IntToStringVisible(i, "");
    assert t + "" == t;
    TrimAround("", t);
    assert "" + t == t;
    ParseIntOfIntToString(i, "");
    ToIntOfStr(t);
  }

  /** Only the first value of a repeated parameter is read. */
  lemma FirstCounts(x: string, rest: seq<Param>)
    ensures ToInt(List([Str(x)] + rest)) == ToInt(Str(x))
  {
    assert FirstParam(List([Str(x)] + rest)) == Str(x);
  }
}

=== FILE: rate_limiter.dfy ===
/**
 * `RateLimiterService`: fixed-window counters in the shared store. With a
 * Redis client present (`Atomic`) a call increments first and then checks;
 * without one (`Fallback`) it reads, checks, and writes back.
 */
module RateLimiter {
  import opened Wrappers
  import opened Text
  import Store
  import Sorting
  import opened Exceptions
  import opened JsNumber

  /** Whether the cache exposes a Redis client with INCR/EXPIRE. */
  datatype Mode = Atomic | Fallback

  /** Counter values by counter key. */
  type Counters = Store.Store<int>

  datatype Bucket = Bucket(key: string, limit: int, windowSec: int)

  predicate ValidBucket(b: Bucket) {
    b.windowSec > 0
  }

  /**
   * The start of the window holding now, `floor(now / windowSec) * windowSec`,
   * computed by repeated subtraction; `WindowStartIsFloor` shows the two agree.
   */
  function WindowStart(now: nat, windowSec: int): (ws: nat)
    requires windowSec > 0
    ensures ws <= now < ws + windowSec
    decreases now
  {
    if now < windowSec then 0 else WindowStart(now - windowSec, windowSec) + windowSec
  }

  /** Euclidean division is determined by any quotient/remainder pair. */
  lemma DivUnique(a: int, q: int, r: int, w: int)
    requires w > 0 && 0 <= r < w && a == q * w + r
    ensures a / w == q && a % w == r
  {
    var q', r' := a / w, a % w;
    if q' < q {
      MulAtLeast(q - q', w);
    } else if q < q' {
      MulAtLeast(q' - q, w);
    }
  }

  lemma MulAtLeast(k: int, w: int)
    requires k >= 1 && w > 0
    ensures k * w >= w
  {
  }

  /** The window start is the largest multiple of windowSec not after now. */
  lemma {:induction false} WindowStartIsFloor(now: nat, w: int)
    requires w > 0
    ensures WindowStart(now, w) == (now / w) * w
    ensures WindowStart(now, w) % w == 0
    decreases now
  {
    var ws := WindowStart(now, w);
    if now < w {
      DivUnique(now, 0, now, w);
    } else {
      WindowStartIsFloor(now - w, w);
      var q := (now - w) / w;
      DivUnique(now - w, q, now - w - q * w, w);
      DivUnique(now, q + 1, now - w - q * w, w);
      DivUnique(ws, q + 1, 0, w);
    }
  }

  /** Every instant of a window maps back to that window's start. */
  lemma SameWindow(t: nat, t': nat, w: int)
    requires w > 0
    requires WindowStart(t, w) <= t' < WindowStart(t, w) + w
    ensures WindowStart(t', w) == WindowStart(t, w)
  {
    var q := t / w;
    WindowStartIsFloor(t, w);
    WindowStartIsFloor(t', w);
    DivUnique(t', q, t' - q * w, w);
  }

  /** `${key}:${windowStart}`. */
  function CounterKey(key: string, windowStart: nat): string {
    key + ":" + NatToString(windowStart)
  }

  function KeyOf(b: Bucket, now: nat): string
    requires ValidBucket(b)
  {
    CounterKey(b.key, WindowStart(now, b.windowSec))
  }

  /** In `key:digits` the colon before the digits is the last one. */
  lemma LastColon(k: string, d: string)
    requires AllDigits(d)
    ensures (k + ":" + d)[|k|] == ':'
    ensures forall i :: |k| < i < |k + ":" + d| ==> (k + ":" + d)[i] != ':'
  {
    forall i | |k| < i < |k + ":" + d|
      ensures (k + ":" + d)[i] != ':'
    {
      assert (k + ":" + d)[i] == d[i - |k| - 1];
    }
  }

  /** A bucket key and a window start can be read back from their counter key. */
  lemma CounterKeyInjective(k1: string, w1: nat, k2: string, w2: nat)
    requires CounterKey(k1, w1) == CounterKey(k2, w2)
    ensures k1 == k2 && w1 == w2
  {
    var s := CounterKey(k1, w1);
    var d1, d2 := NatToString(w1), NatToString(w2);
    LastColon(k1, d1);
    LastColon(k2, d2);
    assert |k1| == |k2|;
    assert k1 == s[..|k1|] == k2;
    assert d1 == s[|k1| + 1..] == d2;
    NatToStringInjective(w1, w2);
  }

  /** Instants in different windows of one bucket use different counters, so quota returns after rollover. */
  lemma NewWindowNewCounter(b: Bucket, t1: nat, t2: nat)
    requires ValidBucket(b)
    requires WindowStart(t1, b.windowSec) != WindowStart(t2, b.windowSec)
    ensures KeyOf(b, t1) != KeyOf(b, t2)
  {
    if KeyOf(b, t1) == KeyOf(b, t2) {
      CounterKeyInjective(b.key, WindowStart(t1, b.windowSec), b.key, WindowStart(t2, b.windowSec));
    }
  }

  /** The counter a reader sees: the live stored count, absent counting as 0. */
  function Count(s: Counters, ck: string, now: nat): int {
    Store.Get(s, ck, now).GetOr(0)
  }

  /** Redis INCR: a missing or lapsed key restarts from 0 without expiry; a live key keeps its expiry. */
  function Incr(s: Counters, ck: string, now: nat): (r: (Counters, int))
    ensures r.1 == Count(s, ck, now) + 1
    ensures ck in r.0 && r.0[ck].value == r.1
    ensures forall k :: k != ck ==> (k in r.0 <==> k in s) && (k in s ==> r.0[k] == s[k])
  {
    var c := Count(s, ck, now) + 1;
    var expiry := if ck in s && Store.Live(s[ck], now) then s[ck].expiresAt else None;
    (s[ck := Store.Entry(c, expiry)], c)
  }

  /** Redis EXPIRE on a present key. */
  function Expire(s: Counters, ck: string, ttl: int, now: nat): (r: Counters)
    requires ck in s
    ensures r == s[ck := Store.Entry(s[ck].value, Some(now + ttl))]
  {
    s[ck := Store.Entry(s[ck].value, Some(now + ttl))]
  }

  /** Whether a call is turned away, given the count it observes before acting. */
  predicate Rejects(mode: Mode, limit: int, before: int) {
    match mode
    case Atomic => before + 1 > limit
    case Fallback => before >= limit
  }

  datatype ConsumeResult = ConsumeResult(counters: Counters, outcome: Outcome<ApiException>)

  /** `consume(key, limit, windowSec)` at instant now. */
  function Consume(s: Counters, mode: Mode, b: Bucket, now: nat): (r: ConsumeResult)
    requires ValidBucket(b)
    ensures var ck := KeyOf(b, now);
      var before := Count(s, ck, now);
      && (r.outcome.Fail? <==> Rejects(mode, b.limit, before))
      && (r.outcome.Fail? ==> r.outcome.error == RateLimitException(None))
      && (mode == Atomic ==> Count(r.counters, ck, now) == before + 1)
      && (mode == Fallback ==> Count(r.counters, ck, now) == if r.outcome.Fail? then before else before + 1)
      && (mode == Fallback && r.outcome.Fail? ==> r.counters == s)
      && (forall k :: k != ck ==> (k in r.counters <==> k in s) && (k in s ==> r.counters[k] == s[k]))
  {
    var ws := WindowStart(now, b.windowSec);
    var ck := CounterKey(b.key, ws);
    match mode
    case Atomic => ConsumeAtomic(s, ck, b.limit, b.windowSec, now)
    case Fallback => ConsumeFallback(s, ck, b.limit, ws + b.windowSec - now, now)
  }

  /** The atomic path: INCR, EXPIRE on the first increment, then compare with the limit. */
  function ConsumeAtomic(s: Counters, ck: string, limit: int, windowSec: int, now: nat): (r: ConsumeResult)
    requires windowSec > 0
    ensures var before := Count(s, ck, now);
      && (r.outcome.Fail? <==> before + 1 > limit)
      && (r.outcome.Fail? ==> r.outcome.error == RateLimitException(None))
      && Count(r.counters, ck, now) == before + 1
      && (forall k :: k != ck ==> (k in r.counters <==> k in s) && (k in s ==> r.counters[k] == s[k]))
  {
    var (s1, count) := Incr(s, ck, now);
    var s2 := if count == 1 then Expire(s1, ck, windowSec, now) else s1;
    if count > limit then ConsumeResult(s2, Fail(RateLimitException(None)))
    else ConsumeResult(s2, Pass)
  }

  /** The fallback path: read, compare with the limit, and store the next count until the window ends. */
  function ConsumeFallback(s: Counters, ck: string, limit: int, ttl: int, now: nat): (r: ConsumeResult)
    requires ttl > 0
    ensures var before := Count(s, ck, now);
      && (r.outcome.Fail? <==> before >= limit)
      && (r.outcome.Fail? ==> r.outcome.error == RateLimitException(None) && r.counters == s)
      && (r.outcome.Pass? ==> ck in r.counters && r.counters[ck] == Store.Entry(before + 1, Some(now + ttl)))
      && Count(r.counters, ck, now) == (if r.outcome.Fail? then before else before + 1)
      && (forall k :: k != ck ==> (k in r.counters <==> k in s) && (k in s ==> r.counters[k] == s[k]))
  {
    var current := Count(s, ck, now);
    if current >= limit then ConsumeResult(s, Fail(RateLimitException(None)))
    else ConsumeResult(Store.Set(s, ck, current + 1, ttl, now), Pass)
  }

  /** Atomic path: the expiry is set to windowSec exactly when the increment created the counter. */
  lemma AtomicExpiry(s: Counters, b: Bucket, now: nat)
    requires ValidBucket(b)
    ensures var ck := KeyOf(b, now);
      var r := Consume(s, Atomic, b, now);
      && ck in r.counters
      && (Count(s, ck, now) == 0 ==> r.counters[ck].expiresAt == Some(now + b.windowSec))
      && (Count(s, ck, now) != 0 ==> r.counters[ck].expiresAt == s[ck].expiresAt)
  {
  }

  /** Fallback path: a successful call stores the new count until the window ends, a TTL within [1, windowSec]. */
  lemma FallbackExpiry(s: Counters, b: Bucket, now: nat)
    requires ValidBucket(b)
    requires Consume(s, Fallback, b, now).outcome.Pass?
    ensures var ws := WindowStart(now, b.windowSec);
      var ttl := ws + b.windowSec - now;
      && 1 <= ttl <= b.windowSec
      && Consume(s, Fallback, b, now).counters[KeyOf(b, now)]
         == Store.Entry(Count(s, KeyOf(b, now), now) + 1, Some(now + ttl))
  {
    ConsumeIsFallback(s, b, now);
  }

  lemma ConsumeIsFallback(s: Counters, b: Bucket, now: nat)
    requires ValidBucket(b)
    ensures var ws := WindowStart(now, b.windowSec);
      Consume(s, Fallback, b, now) == ConsumeFallback(s, KeyOf(b, now), b.limit, ws + b.windowSec - now, now)
  {
  }

  // ------------------------------------------------------------ one window

  /** Runs calls on one bucket at the given instants; reports which calls passed. */
  function RunCalls(s: Counters, mode: Mode, b: Bucket, times: seq<nat>): (r: (Counters, seq<bool>))
    requires ValidBucket(b)
    ensures |r.1| == |times|
    decreases |times|
  {
    if |times| == 0 then (s, [])
    else
      var step := Consume(s, mode, b, times[0]);
      var rest := RunCalls(step.counters, mode, b, times[1..]);
      (rest.0, [step.outcome.Pass?] + rest.1)
  }

  /** The counter for window ws holds c, alive until at least the end of the window. */
  ghost predicate HoldsCount(s: Counters, ck: string, c: int, ws: nat, windowSec: int) {
    if c == 0 then ck !in s
    else ck in s && s[ck].value == c && s[ck].expiresAt.Some? && s[ck].expiresAt.value >= ws + windowSec
  }

  /** The count a run of `done` calls leaves behind: every call counts when atomic, only passes otherwise. */
  function Level(mode: Mode, limit: int, done: nat): int {
    if mode == Atomic then done else Min(done, Max(limit, 0))
  }

  /** One call inside window ws, after `done` earlier calls there. */
  lemma StepInWindow(s: Counters, mode: Mode, b: Bucket, t: nat, ws: nat, done: nat)
    requires ValidBucket(b) && WindowStart(t, b.windowSec) == ws
    requires HoldsCount(s, CounterKey(b.key, ws), Level(mode, b.limit, done), ws, b.windowSec)
    ensures var step := Consume(s, mode, b, t);
      && (step.outcome.Pass? <==> done < b.limit)
      && HoldsCount(step.counters, CounterKey(b.key, ws), Level(mode, b.limit, done + 1), ws, b.windowSec)
  {
    var ck := CounterKey(b.key, ws);
    assert KeyOf(b, t) == ck;
    assert Count(s, ck, t) == Level(mode, b.limit, done);
  }

  lemma {:induction false} RunCallsInWindow(s: Counters, mode: Mode, b: Bucket, times: seq<nat>, ws: nat, done: nat)
    requires ValidBucket(b)
    requires forall i :: 0 <= i < |times| ==> WindowStart(times[i], b.windowSec) == ws
    requires HoldsCount(s, CounterKey(b.key, ws), Level(mode, b.limit, done), ws, b.windowSec)
    ensures forall i :: 0 <= i < |times| ==> (RunCalls(s, mode, b, times).1[i] <==> done + i < b.limit)
    decreases |times|
  {
    if |times| > 0 {
      var step := Consume(s, mode, b, times[0]);
      StepInWindow(s, mode, b, times[0], ws, done);
      var tail := times[1..];
      assert forall i :: 0 <= i < |tail| ==> tail[i] == times[i + 1];
      RunCallsInWindow(step.counters, mode, b, tail, ws, done + 1);
      var r := RunCalls(s, mode, b, times);
      var rest := RunCalls(step.counters, mode, b, tail);
      assert r.1 == [step.outcome.Pass?] + rest.1;
      forall i | 0 <= i < |times|
        ensures r.1[i] <==> done + i < b.limit
      {
        if i > 0 {
          assert r.1[i] == rest.1[i - 1];
        }
      }
    }
  }

  /**
   * Within one window, starting from an unused counter, exactly the first `limit`
   * calls pass and every later call fails, in either mode.
   */
  lemma QuotaPerWindow(s: Counters, mode: Mode, b: Bucket, times: seq<nat>)
    requires ValidBucket(b) && |times| > 0
    requires forall i :: 0 <= i < |times| ==> WindowStart(times[i], b.windowSec) == WindowStart(times[0], b.windowSec)
    requires KeyOf(b, times[0]) !in s
    ensures forall i :: 0 <= i < |times| ==> (RunCalls(s, mode, b, times).1[i] <==> i < b.limit)
  {
    RunCallsInWindow(s, mode, b, times, WindowStart(times[0], b.windowSec), 0);
  }

  // ----------------------------------------------------------- multi bucket

  datatype MultiResult = MultiResult(counters: Counters, outcome: Outcome<ApiException>, consumed: nat)

  /** Consumes the buckets in the given order, stopping at the first rejection. */
  function ConsumeAll(s: Counters, mode: Mode, bs: seq<Bucket>, now: nat): (r: MultiResult)
    requires forall i :: 0 <= i < |bs| ==> ValidBucket(bs[i])
    ensures r.consumed <= |bs|
    ensures r.outcome.Pass? ==> r.consumed == |bs|
    ensures r.outcome.Fail? ==> r.consumed >= 1 && r.outcome.error == RateLimitException(None)
    decreases |bs|
  {
    if |bs| == 0 then MultiResult(s, Pass, 0)
    else
      var step := Consume(s, mode, bs[0], now);
      if step.outcome.Fail? then MultiResult(step.counters, step.outcome, 1)
      else
        var rest := ConsumeAll(step.counters, mode, bs[1..], now);
        MultiResult(rest.counters, rest.outcome, rest.consumed + 1)
  }

  function ByWindow(b: Bucket): int {
    b.windowSec
  }

  /** `consumeMulti(buckets)`: the buckets in ascending window order (stable), via a sorted copy. */
  function ConsumeMulti(s: Counters, mode: Mode, buckets: seq<Bucket>, now: nat): (r: MultiResult)
    requires forall i :: 0 <= i < |buckets| ==> ValidBucket(buckets[i])
    ensures r.consumed <= |buckets|
    ensures r.outcome.Pass? ==> r.consumed == |buckets|
    ensures r.outcome.Fail? ==> r.consumed >= 1 && r.outcome.error == RateLimitException(None)
  {
    var sorted := Sorting.StableSort(buckets, ByWindow);
    assert forall i :: 0 <= i < |sorted| ==> sorted[i] in multiset(buckets);
    ConsumeAll(s, mode, sorted, now)
  }

  /** The evaluation order is a stable reordering of the caller's buckets by ascending window. */
  lemma ConsumeMultiOrder(buckets: seq<Bucket>)
    ensures var sorted := Sorting.StableSort(buckets, ByWindow);
      && multiset(sorted) == multiset(buckets)
      && (forall i, j :: 0 <= i < j < |sorted| ==> sorted[i].windowSec <= sorted[j].windowSec)
      && (forall w :: Sorting.WithKey(sorted, ByWindow, w) == Sorting.WithKey(buckets, ByWindow, w))
  {
    var sorted := Sorting.StableSort(buckets, ByWindow);
    assert Sorting.SortedBy(sorted, ByWindow);
    forall w
      ensures Sorting.WithKey(sorted, ByWindow, w) == Sorting.WithKey(buckets, ByWindow, w)
    {
      Sorting.StableSortIsStable(buckets, ByWindow, w);
    }
  }

  ghost predicate DistinctKeys(bs: seq<Bucket>) {
    forall i, j :: 0 <= i < j < |bs| ==> bs[i].key != bs[j].key
  }

  /** The count bucket b observes at now, before anything is consumed. */
  function Seen(s: Counters, b: Bucket, now: nat): int
    requires ValidBucket(b)
  {
    Count(s, KeyOf(b, now), now)
  }

  /** Buckets with different names never share a counter. */
  lemma DistinctCounters(b1: Bucket, b2: Bucket, now: nat)
    requires ValidBucket(b1) && ValidBucket(b2) && b1.key != b2.key
    ensures KeyOf(b1, now) != KeyOf(b2, now)
  {
    if KeyOf(b1, now) == KeyOf(b2, now) {
      CounterKeyInjective(b1.key, WindowStart(now, b1.windowSec), b2.key, WindowStart(now, b2.windowSec));
    }
  }

  /** Consuming the first bucket leaves what every later bucket observes unchanged. */
  lemma FirstStepSparesRest(s: Counters, mode: Mode, bs: seq<Bucket>, now: nat)
    requires |bs| > 0 && forall i :: 0 <= i < |bs| ==> ValidBucket(bs[i])
    requires DistinctKeys(bs)
    ensures var step := Consume(s, mode, bs[0], now);
      forall i :: 1 <= i < |bs| ==> Seen(step.counters, bs[i], now) == Seen(s, bs[i], now)
  {
    forall i | 1 <= i < |bs|
      ensures KeyOf(bs[i], now) != KeyOf(bs[0], now)
    {
      DistinctCounters(bs[i], bs[0], now);
    }
  }

  lemma TailDistinct(bs: seq<Bucket>)
    requires |bs| > 0 && DistinctKeys(bs)
    ensures DistinctKeys(bs[1..])
  {
    var tail := bs[1..];
    forall i, j | 0 <= i < j < |tail| ensures tail[i].key != tail[j].key {
      assert tail[i] == bs[i + 1] && tail[j] == bs[j + 1];
    }
  }

  /** Counters no bucket of the call maps to are left exactly as they were. */
  lemma {:induction false} ConsumeAllFrame(s: Counters, mode: Mode, bs: seq<Bucket>, now: nat, k: string)
    requires forall i :: 0 <= i < |bs| ==> ValidBucket(bs[i])
    requires forall i :: 0 <= i < |bs| ==> k != KeyOf(bs[i], now)
    ensures var r := ConsumeAll(s, mode, bs, now);
      (k in r.counters <==> k in s) && (k in s ==> r.counters[k] == s[k])
    decreases |bs|
  {
    if |bs| > 0 {
      var step := Consume(s, mode, bs[0], now);
      if step.outcome.Pass? {
        var tail := bs[1..];
        assert forall i :: 0 <= i < |tail| ==> tail[i] == bs[i + 1];
        ConsumeAllFrame(step.counters, mode, tail, now, k);
      }
    }
  }

  /** A failed call names, as its last consumed bucket, one whose counter already ruled it out. */
  lemma {:induction false} ConsumeAllStopsAtRejecter(s: Counters, mode: Mode, bs: seq<Bucket>, now: nat)
    requires forall i :: 0 <= i < |bs| ==> ValidBucket(bs[i])
    requires DistinctKeys(bs)
    ensures var r := ConsumeAll(s, mode, bs, now);
      r.outcome.Fail? ==> Rejects(mode, bs[r.consumed - 1].limit, Seen(s, bs[r.consumed - 1], now))
    decreases |bs|
  {
    if |bs| > 0 {
      var step := Consume(s, mode, bs[0], now);
      if step.outcome.Pass? {
        var tail := bs[1..];
        var r := ConsumeAll(s, mode, bs, now);
        var rest := ConsumeAll(step.counters, mode, tail, now);
        assert r.outcome == rest.outcome && r.consumed == rest.consumed + 1;
        TailDistinct(bs);
        ConsumeAllStopsAtRejecter(step.counters, mode, tail, now);
        FirstStepSparesRest(s, mode, bs, now);
        RejecterShift(s, step.counters, r, rest, mode, bs, now);
      } else {
        assert ConsumeAll(s, mode, bs, now).consumed == 1;
      }
    }
  }

  /** Lifts the rejecting bucket found in the tail, judged after the first charge, to the whole list. */
  lemma RejecterShift(s: Counters, mid: Counters, r: MultiResult, rest: MultiResult, mode: Mode, bs: seq<Bucket>, now: nat)
    requires |bs| > 0 && forall i :: 0 <= i < |bs| ==> ValidBucket(bs[i])
    requires r.outcome == rest.outcome && r.consumed == rest.consumed + 1 && rest.consumed <= |bs| - 1
    requires rest.outcome.Fail? ==>
      rest.consumed >= 1 && Rejects(mode, bs[1..][rest.consumed - 1].limit, Seen(mid, bs[1..][rest.consumed - 1], now))
    requires forall i :: 1 <= i < |bs| ==> Seen(mid, bs[i], now) == Seen(s, bs[i], now)
    ensures r.outcome.Fail? ==> Rejects(mode, bs[r.consumed - 1].limit, Seen(s, bs[r.consumed - 1], now))
  {
    if r.outcome.Fail? {
      assert bs[1..][rest.consumed - 1] == bs[rest.consumed];
    }
  }

  /** Every bucket passed on the way admitted the call on its own. */
  lemma {:induction false} ConsumeAllAdmitted(s: Counters, mode: Mode, bs: seq<Bucket>, now: nat)
    requires forall i :: 0 <= i < |bs| ==> ValidBucket(bs[i])
    requires DistinctKeys(bs)
    ensures var r := ConsumeAll(s, mode, bs, now);
      forall i :: 0 <= i < |bs| && (i < r.consumed - 1 || r.outcome.Pass?) ==> !Rejects(mode, bs[i].limit, Seen(s, bs[i], now))
    decreases |bs|
  {
    if |bs| > 0 {
      var step := Consume(s, mode, bs[0], now);
      if step.outcome.Pass? {
        var tail := bs[1..];
        assert forall i :: 0 <= i < |tail| ==> tail[i] == bs[i + 1];
        FirstStepSparesRest(s, mode, bs, now);
        ConsumeAllAdmitted(step.counters, mode, tail, now);
      }
    }
  }

  function BucketName(b: Bucket): string {
    b.key
  }

  /**
   * Whatever order the caller lists its buckets in, a multi-bucket call
   * fails exactly when one of them, judged on the counts before the call,
   * refuses it.
   */
  lemma ConsumeMultiOutcome(s: Counters, mode: Mode, buckets: seq<Bucket>, now: nat)
    requires forall i :: 0 <= i < |buckets| ==> ValidBucket(buckets[i])
    requires DistinctKeys(buckets)
    ensures ConsumeMulti(s, mode, buckets, now).outcome.Fail?
      <==> exists i :: 0 <= i < |buckets| && Rejects(mode, buckets[i].limit, Seen(s, buckets[i], now))
  {
    var sorted := Sorting.StableSort(buckets, ByWindow);
    SortedBucketsValid(buckets);
    ConsumeAllOutcome(s, mode, sorted, now);
    SameRejecters(s, mode, buckets, sorted, now);
  }

  /** The sorted copy holds valid buckets with distinct names. */
  lemma SortedBucketsValid(buckets: seq<Bucket>)
    requires forall i :: 0 <= i < |buckets| ==> ValidBucket(buckets[i])
    requires DistinctKeys(buckets)
    ensures var sorted := Sorting.StableSort(buckets, ByWindow);
      && (forall i :: 0 <= i < |sorted| ==> ValidBucket(sorted[i]))
      && DistinctKeys(sorted)
  {
    var sorted := Sorting.StableSort(buckets, ByWindow);
    assert Sorting.KeysDistinct(buckets, BucketName);
    Sorting.StableSortKeepsKeysDistinct(buckets, ByWindow, BucketName);
    assert forall i :: 0 <= i < |sorted| ==> sorted[i] in multiset(buckets);
  }

  /** Two orderings of the same buckets have a refusing bucket alike. */
  lemma SameRejecters(s: Counters, mode: Mode, a: seq<Bucket>, b: seq<Bucket>, now: nat)
    requires forall i :: 0 <= i < |a| ==> ValidBucket(a[i])
    requires forall i :: 0 <= i < |b| ==> ValidBucket(b[i])
    requires multiset(a) == multiset(b)
    ensures (exists i :: 0 <= i < |a| && Rejects(mode, a[i].limit, Seen(s, a[i], now)))
      <==> (exists i :: 0 <= i < |b| && Rejects(mode, b[i].limit, Seen(s, b[i], now)))
  {
    if exists i :: 0 <= i < |a| && Rejects(mode, a[i].limit, Seen(s, a[i], now)) {
      var i :| 0 <= i < |a| && Rejects(mode, a[i].limit, Seen(s, a[i], now));
      assert a[i] in multiset(b);
      assert a[i] in b;
    }
    if exists i :: 0 <= i < |b| && Rejects(mode, b[i].limit, Seen(s, b[i], now)) {
      var i :| 0 <= i < |b| && Rejects(mode, b[i].limit, Seen(s, b[i], now));
      assert b[i] in multiset(a);
      assert b[i] in a;
    }
  }

  /**
   * With distinct bucket keys the call fails iff some bucket's counter already
   * rules it out, and it stops at the first such bucket.
   */
  lemma ConsumeAllOutcome(s: Counters, mode: Mode, bs: seq<Bucket>, now: nat)
    requires forall i :: 0 <= i < |bs| ==> ValidBucket(bs[i])
    requires DistinctKeys(bs)
    ensures var r := ConsumeAll(s, mode, bs, now);
      && (r.outcome.Fail? <==> exists i :: 0 <= i < |bs| && Rejects(mode, bs[i].limit, Seen(s, bs[i], now)))
      && (r.outcome.Fail? ==> forall i :: 0 <= i < r.consumed - 1 ==> !Rejects(mode, bs[i].limit, Seen(s, bs[i], now)))
  {
    ConsumeAllStopsAtRejecter(s, mode, bs, now);
    ConsumeAllAdmitted(s, mode, bs, now);
  }

  /** Buckets after the rejecting one, and the rejecting one itself in fallback mode, are not charged. */
  lemma {:induction false} ConsumeAllSparesLater(s: Counters, mode: Mode, bs: seq<Bucket>, now: nat)
    requires forall i :: 0 <= i < |bs| ==> ValidBucket(bs[i])
    requires DistinctKeys(bs)
    ensures var r := ConsumeAll(s, mode, bs, now);
      forall i :: 0 <= i < |bs| && (r.consumed <= i || (i == r.consumed - 1 && r.outcome.Fail? && mode == Fallback))
        ==> Seen(r.counters, bs[i], now) == Seen(s, bs[i], now)
    decreases |bs|
  {
    if |bs| > 0 {
      var step := Consume(s, mode, bs[0], now);
      FirstStepSparesRest(s, mode, bs, now);
      if step.outcome.Pass? {
        var tail := bs[1..];
        assert forall i :: 0 <= i < |tail| ==> tail[i] == bs[i + 1];
        ConsumeAllSparesLater(step.counters, mode, tail, now);
      }
    }
  }

  /** When the first bucket admits the call, the rest of the call leaves its new count alone. */
  lemma FirstChargeKept(s: Counters, mode: Mode, bs: seq<Bucket>, now: nat)
    requires |bs| > 0 && forall i :: 0 <= i < |bs| ==> ValidBucket(bs[i])
    requires DistinctKeys(bs)
    requires Consume(s, mode, bs[0], now).outcome.Pass?
    ensures Seen(ConsumeAll(s, mode, bs, now).counters, bs[0], now) == Seen(s, bs[0], now) + 1
  {
    var step := Consume(s, mode, bs[0], now);
    var tail := bs[1..];
    forall i | 0 <= i < |tail|
      ensures KeyOf(bs[0], now) != KeyOf(tail[i], now)
    {
      DistinctCounters(bs[0], bs[i + 1], now);
    }
    ConsumeAllFrame(step.counters, mode, tail, now, KeyOf(bs[0], now));
  }

  /** Every bucket before the rejecting one, and that one too when atomic, is charged one unit. */
  lemma {:induction false} ConsumeAllChargesEarlier(s: Counters, mode: Mode, bs: seq<Bucket>, now: nat)
    requires forall i :: 0 <= i < |bs| ==> ValidBucket(bs[i])
    requires DistinctKeys(bs)
    ensures var r := ConsumeAll(s, mode, bs, now);
      forall i :: 0 <= i < r.consumed && (i < r.consumed - 1 || r.outcome.Pass? || mode == Atomic)
        ==> Seen(r.counters, bs[i], now) == Seen(s, bs[i], now) + 1
    decreases |bs|
  {
    if |bs| > 0 {
      var step := Consume(s, mode, bs[0], now);
      if step.outcome.Pass? {
        var tail := bs[1..];
        var r := ConsumeAll(s, mode, bs, now);
        var rest := ConsumeAll(step.counters, mode, tail, now);
        assert r.counters == rest.counters && r.outcome == rest.outcome && r.consumed == rest.consumed + 1;
        TailDistinct(bs);
        ConsumeAllChargesEarlier(step.counters, mode, tail, now);
        FirstChargeKept(s, mode, bs, now);
        FirstStepSparesRest(s, mode, bs, now);
        ChargesShift(s, step.counters, r, rest, mode == Atomic, bs, now);
      }
    }
  }

  /** Lifts the charges of the rest of the call, made over the tail, to the whole list. */
  lemma ChargesShift(s: Counters, mid: Counters, r: MultiResult, rest: MultiResult, atomic: bool, bs: seq<Bucket>, now: nat)
    requires |bs| > 0 && forall i :: 0 <= i < |bs| ==> ValidBucket(bs[i])
    requires r.counters == rest.counters && r.outcome == rest.outcome && r.consumed == rest.consumed + 1
    requires rest.consumed <= |bs| - 1
    requires Seen(r.counters, bs[0], now) == Seen(s, bs[0], now) + 1
    requires forall i :: 1 <= i < |bs| ==> Seen(mid, bs[i], now) == Seen(s, bs[i], now)
    requires forall i :: 0 <= i < rest.consumed && (i < rest.consumed - 1 || rest.outcome.Pass? || atomic)
                 ==> Seen(rest.counters, bs[1..][i], now) == Seen(mid, bs[1..][i], now) + 1
    ensures forall i :: 0 <= i < r.consumed && (i < r.consumed - 1 || r.outcome.Pass? || atomic)
                ==> Seen(r.counters, bs[i], now) == Seen(s, bs[i], now) + 1
  {
    var tail := bs[1..];
    forall i | 1 <= i < r.consumed && (i < r.consumed - 1 || r.outcome.Pass? || atomic)
      ensures Seen(r.counters, bs[i], now) == Seen(s, bs[i], now) + 1
    {
      assert tail[i - 1] == bs[i];
    }
  }

  /**
   * The two-bucket case: when the short window is exhausted the long window's
   * counter does not move.
   */
  lemma ShortWindowFailureSparesLongWindow(s: Counters, mode: Mode, short: Bucket, long: Bucket, now: nat)
    requires ValidBucket(short) && ValidBucket(long) && short.windowSec < long.windowSec
    requires short.key != long.key
    requires Rejects(mode, short.limit, Count(s, KeyOf(short, now), now))
    ensures var r := ConsumeMulti(s, mode, [long, short], now);
      && r.outcome.Fail?
      && Count(r.counters, KeyOf(long, now), now) == Count(s, KeyOf(long, now), now)
  {
    ShortFirst(short, long);
    var step := Consume(s, mode, short, now);
    assert step.outcome.Fail?;
    DistinctCounters(short, long, now);
    assert ConsumeAll(s, mode, [short, long], now) == MultiResult(step.counters, step.outcome, 1);
  }

  /** Two buckets are evaluated shorter window first, whatever order the caller gives. */
  lemma ShortFirst(short: Bucket, long: Bucket)
    requires short.windowSec < long.windowSec
    ensures Sorting.StableSort([long, short], ByWindow) == [short, long]
  {
    assert Sorting.StableSort([short], ByWindow) == [short];
  }
}

=== FILE: sorting.dfy ===
/**
 * Stable sorting by an integer key, the behaviour of `Array.prototype.sort`
 * with a numeric-difference comparator (stable since ECMAScript 2019).
 */
module Sorting {

  /** Keys never decrease along s. */
  ghost predicate SortedBy<T>(s: seq<T>, key: T -> int) {
    forall i, j :: 0 <= i < j < |s| ==> key(s[i]) <= key(s[j])
  }

  /** The elements of s whose key is k, in their order in s. */
  function WithKey<T>(s: seq<T>, key: T -> int, k: int): (r: seq<T>)
    ensures |r| <= |s|
    ensures forall i :: 0 <= i < |r| ==> key(r[i]) == k && r[i] in s
    ensures (exists j :: 0 <= j < |s| && key(s[j]) == k) ==> |r| > 0
    ensures forall j :: 0 <= j < |s| && key(s[j]) == k ==> s[j] in r
    decreases |s|
  {
    if |s| == 0 then []
    else
      assert forall j :: 1 <= j < |s| ==> s[j] == s[1..][j - 1];
      (if key(s[0]) == k then [s[0]] else []) + WithKey(s[1..], key, k)
  }

  /** Selecting from a sequence with one more element at the end adds that element when it carries k. */
  lemma {:induction false} WithKeySnoc<T>(s: seq<T>, x: T, key: T -> int, k: int)
    ensures WithKey(s + [x], key, k) == WithKey(s, key, k) + (if key(x) == k then [x] else [])
    decreases |s|
  {
    if |s| == 0 {
      assert s + [x] == [x] + [];
      WithKeyCons(x, [], key, k);
    } else {
      assert s + [x] == [s[0]] + (s[1..] + [x]);
      WithKeyCons(s[0], s[1..] + [x], key, k);
      WithKeySnoc(s[1..], x, key, k);
      assert s == [s[0]] + s[1..];
      WithKeyCons(s[0], s[1..], key, k);
    }
  }

  /** Places x in front of the first element whose key is at least x's. */
  function Insert<T>(x: T, s: seq<T>, key: T -> int): (r: seq<T>)
    ensures |r| == |s| + 1
    ensures multiset(r) == multiset(s) + multiset{x}
  {
    if |s| == 0 || key(x) <= key(s[0]) then [x] + s
    else
      assert s == [s[0]] + s[1..];
      [s[0]] + Insert(x, s[1..], key)
  }

  /** Inserting into a sorted sequence keeps it sorted. */
  lemma {:induction false} InsertSorted<T>(x: T, s: seq<T>, key: T -> int)
    requires SortedBy(s, key)
    ensures SortedBy(Insert(x, s, key), key)
    decreases |s|
  {
    if |s| == 0 || key(x) <= key(s[0]) {
      SortedCons(x, s, key);
    } else {
      var tail := s[1..];
      var rest := Insert(x, tail, key);
      SortedTail(s, key);
      InsertSorted(x, tail, key);
      InsertBounded(x, tail, key, key(s[0]));
      SortedCons(s[0], rest, key);
      assert Insert(x, s, key) == [s[0]] + rest;
    }
  }

  lemma SortedTail<T>(s: seq<T>, key: T -> int)
    requires |s| > 0 && SortedBy(s, key)
    ensures SortedBy(s[1..], key)
    ensures forall i :: 0 <= i < |s[1..]| ==> key(s[0]) <= key(s[1..][i])
  {
    var tail := s[1..];
    forall i, j | 0 <= i < j < |tail| ensures key(tail[i]) <= key(tail[j]) {
      assert tail[i] == s[i + 1] && tail[j] == s[j + 1];
    }
    forall i | 0 <= i < |tail| ensures key(s[0]) <= key(tail[i]) {
      assert tail[i] == s[i + 1];
    }
  }

  /** Prepending an element no larger than the head of a sorted sequence keeps it sorted. */
  lemma SortedCons<T>(y: T, t: seq<T>, key: T -> int)
    requires SortedBy(t, key)
    requires |t| > 0 ==> key(y) <= key(t[0])
    ensures SortedBy([y] + t, key)
  {
    var r := [y] + t;
    forall i, j | 0 <= i < j < |r| ensures key(r[i]) <= key(r[j]) {
      assert r[j] == t[j - 1];
      if i > 0 {
        assert r[i] == t[i - 1];
      } else if j > 1 {
        assert key(t[0]) <= key(t[j - 1]);
      }
    }
  }

  /** A lower bound on every key survives insertion of an element that respects it. */
  lemma InsertBounded<T>(x: T, s: seq<T>, key: T -> int, lo: int)
    requires lo <= key(x) && forall i :: 0 <= i < |s| ==> lo <= key(s[i])
    ensures |Insert(x, s, key)| > 0 ==> lo <= key(Insert(x, s, key)[0])
  {
    var r := Insert(x, s, key);
    assert r[0] in multiset(s) + multiset{x};
    if r[0] in multiset(s) {
      var j :| 0 <= j < |s| && s[j] == r[0];
    }
  }

  /** Insertion sort; elements with equal keys keep their relative order. */
  function StableSort<T>(s: seq<T>, key: T -> int): (r: seq<T>)
    ensures |r| == |s|
    ensures multiset(r) == multiset(s)
    ensures SortedBy(r, key)
  {
    if |s| == 0 then []
    else
      assert s == [s[0]] + s[1..];
      var rest := StableSort(s[1..], key);
      InsertSorted(s[0], rest, key);
      Insert(s[0], rest, key)
  }

  lemma {:induction false} WithKeyInsert<T>(x: T, s: seq<T>, key: T -> int, k: int)
    ensures WithKey(Insert(x, s, key), key, k)
         == (if key(x) == k then [x] else []) + WithKey(s, key, k)
    decreases |s|
  {
    if |s| == 0 || key(x) <= key(s[0]) {
      WithKeyCons(x, s, key, k);
    } else {
      var rest := Insert(x, s[1..], key);
      assert Insert(x, s, key) == [s[0]] + rest;
      WithKeyCons(s[0], rest, key, k);
      WithKeyInsert(x, s[1..], key, k);
      assert s == [s[0]] + s[1..];
      WithKeyCons(s[0], s[1..], key, k);
      // key(x) > key(s[0]), so at most one of x and s[0] carries k
      Swap(if key(s[0]) == k then [s[0]] else [], if key(x) == k then [x] else [], WithKey(s[1..], key, k));
    }
  }

  lemma Swap<T>(a: seq<T>, b: seq<T>, w: seq<T>)
    requires a == [] || b == []
    ensures a + (b + w) == b + (a + w)
  {
    if a == [] {
      assert a + (b + w) == b + w == b + (a + w);
    } else {
      assert a + (b + w) == a + w == b + (a + w);
    }
  }

  lemma WithKeyCons<T>(y: T, t: seq<T>, key: T -> int, k: int)
    ensures WithKey([y] + t, key, k) == (if key(y) == k then [y] else []) + WithKey(t, key, k)
  {
    assert ([y] + t)[0] == y;
    assert ([y] + t)[1..] == t;
  }

  /** Stability: for every key, the elements carrying it appear in their original order. */
  lemma {:induction false} StableSortIsStable<T>(s: seq<T>, key: T -> int, k: int)
    ensures WithKey(StableSort(s, key), key, k) == WithKey(s, key, k)
    decreases |s|
  {
    if |s| > 0 {
      StableSortIsStable(s[1..], key, k);
      WithKeyInsert(s[0], StableSort(s[1..], key), key, k);
    }
  }

  /** No two elements of s share a key. */
  ghost predicate KeysDistinct<T, K>(s: seq<T>, key: T -> K) {
    forall i, j :: 0 <= i < j < |s| ==> key(s[i]) != key(s[j])
  }

  /** Inserting by `key` keeps the elements' `name`s distinct. */
  lemma {:induction false} InsertKeepsKeysDistinct<T, K>(x: T, s: seq<T>, key: T -> int, name: T -> K)
    requires KeysDistinct(s, name)
    requires forall i :: 0 <= i < |s| ==> name(s[i]) != name(x)
    ensures KeysDistinct(Insert(x, s, key), name)
    decreases |s|
  {
    if |s| > 0 && key(x) > key(s[0]) {
      var rest := Insert(x, s[1..], key);
      InsertKeepsKeysDistinct(x, s[1..], key, name);
      forall k | 0 <= k < |rest|
        ensures name(rest[k]) != name(s[0])
      {
        assert rest[k] in multiset(s[1..]) + multiset{x};
      }
    }
  }

  /** Sorting by `key` keeps distinct `name`s distinct. */
  lemma {:induction false} StableSortKeepsKeysDistinct<T, K>(s: seq<T>, key: T -> int, name: T -> K)
    requires KeysDistinct(s, name)
    ensures KeysDistinct(StableSort(s, key), name)
    decreases |s|
  {
    if |s| > 0 {
      var tail := s[1..];
      var sorted := StableSort(tail, key);
      StableSortKeepsKeysDistinct(tail, key, name);
      assert forall m :: 0 <= m < |tail| ==> name(tail[m]) != name(s[0]) by {
        forall m | 0 <= m < |tail| ensures name(tail[m]) != name(s[0]) {
          assert tail[m] == s[m + 1];
        }
      }
      forall k | 0 <= k < |sorted|
        ensures name(sorted[k]) != name(s[0])
      {
        assert sorted[k] in multiset(tail);
        assert sorted[k] in tail;
      }
      InsertKeepsKeysDistinct(s[0], sorted, key, name);
    }
  }

  /** With distinct keys the sorted sequence is strictly increasing in key. */
  lemma StableSortStrict<T>(s: seq<T>, key: T -> int)
    requires KeysDistinct(s, key)
    ensures forall i, j :: 0 <= i < j < |s| ==> key(StableSort(s, key)[i]) < key(StableSort(s, key)[j])
  {
    var r := StableSort(s, key);
    StableSortKeepsKeysDistinct(s, key, key);
    forall i, j | 0 <= i < j < |s|
      ensures key(r[i]) < key(r[j])
    {
      assert key(r[i]) <= key(r[j]) && key(r[i]) != key(r[j]);
    }
  }

  lemma SortedInputUnchanged<T>(s: seq<T>, key: T -> int)
    requires SortedBy(s, key)
    ensures StableSort(s, key) == s
    decreases |s|
  {
    if |s| > 0 {
      SortedInputUnchanged(s[1..], key);
    }
  }
}

=== FILE: store.dfy ===
/**
 * The shared key-value store behind `cache-manager` and Redis: string keys,
 * values with an optional expiry instant, read against an explicit clock
 * (whole seconds).
 */
module Store {
  import opened Wrappers

  datatype Entry<V> = Entry(value: V, expiresAt: Option<int>)

  type Store<V> = map<string, Entry<V>>

  /** An entry is visible until its expiry instant; one without expiry never lapses. */
  predicate Live<V>(e: Entry<V>, now: int) {
    e.expiresAt.None? || now < e.expiresAt.value
  }

  /** `get(key)`: the live value under key, if any. */
  function Get<V>(s: Store<V>, key: string, now: int): (r: Option<V>)
    ensures r.Some? <==> key in s && Live(s[key], now)
    ensures r.Some? ==> r.value == s[key].value
  {
    if key in s && Live(s[key], now) then Some(s[key].value) else None
  }

  /** `set(key, value, ttl)`: stores value, visible for the next ttl seconds. */
  function Set<V>(s: Store<V>, key: string, v: V, ttl: int, now: int): (r: Store<V>)
    requires ttl > 0
    ensures r.Keys == s.Keys + {key}
    ensures r[key] == Entry(v, Some(now + ttl))
    ensures forall k :: k in s && k != key ==> r[k] == s[k]
  {
    s[key := Entry(v, Some(now + ttl))]
  }

  /** Two stores agree on what a reader sees under key at instant now. */
  ghost predicate SameView<V>(s: Store<V>, t: Store<V>, key: string, now: int) {
    Get(s, key, now) == Get(t, key, now)
  }

  /** A value written with TTL t reads back unchanged for t seconds, then disappears. */
  lemma ReadAfterSet<V>(s: Store<V>, key: string, v: V, ttl: int, now: int, later: int)
    requires ttl > 0 && now <= later
    ensures later < now + ttl ==> Get(Set(s, key, v, ttl, now), key, later) == Some(v)
    ensures later >= now + ttl ==> Get(Set(s, key, v, ttl, now), key, later) == None
  {
  }

  /** Writing one key leaves what readers see under every other key unchanged. */
  lemma SetFramesOtherKeys<V>(s: Store<V>, key: string, other: string, v: V, ttl: int, now: int, at: int)
    requires ttl > 0 && other != key
    ensures SameView(Set(s, key, v, ttl, now), s, other, at)
  {
  }
}

=== FILE: tally.dfy ===
/**
 * Occurrence counts and first-appearance de-duplication over sequences: the
 * bookkeeping behind the `Map`/object groupings the transformers build.
 */
module Tally {

  /** Number of occurrences of x in s. */
  function Count<T(==)>(s: seq<T>, x: T): (n: nat)
    ensures n <= |s|
    decreases |s|
  {
    if |s| == 0 then 0 else Count(s[..|s| - 1], x) + (if s[|s| - 1] == x then 1 else 0)
  }

  lemma {:induction false} CountPositive<T>(s: seq<T>, x: T)
    ensures Count(s, x) > 0 <==> x in s
    decreases |s|
  {
    if |s| > 0 {
      var init := s[..|s| - 1];
      CountPositive(init, x);
      assert s == init + [s[|s| - 1]];
      assert x in s <==> x in init || x == s[|s| - 1];
    }
  }

  /** A prefix never holds more occurrences than the whole. */
  lemma {:induction false} CountPrefix<T>(s: seq<T>, i: nat, x: T)
    requires i <= |s|
    ensures Count(s[..i], x) <= Count(s, x)
    decreases |s| - i
  {
    if i < |s| {
      CountPrefix(s, i + 1, x);
      assert s[..i + 1][..i] == s[..i];
    } else {
      assert s[..i] == s;
    }
  }

  /** Position of the first occurrence of x in s. */
  function FirstIndex<T(==)>(s: seq<T>, x: T): (k: nat)
    requires x in s
    ensures k < |s| && s[k] == x
    ensures forall i :: 0 <= i < k ==> s[i] != x
  {
    if s[0] == x then 0 else FirstIndex(s[1..], x) + 1
  }

  /** The first occurrence of x in a prefix of s is its first occurrence in s. */
  lemma FirstIndexPrefix<T>(s: seq<T>, n: nat, x: T)
    requires n <= |s| && x in s[..n]
    ensures FirstIndex(s, x) == FirstIndex(s[..n], x)
  {
    var a := FirstIndex(s[..n], x);
    var b := FirstIndex(s, x);
    assert s[a] == x;
    assert s[..n][b] == x;
  }

  /** Appending one element keeps the first-occurrence order of what was already there. */
  lemma DedupOrderSnoc<T>(init: seq<T>, last: T, d: seq<T>)
    requires forall i :: 0 <= i < |d| ==> d[i] in init
    requires forall i, j :: 0 <= i < j < |d| ==> FirstIndex(init, d[i]) < FirstIndex(init, d[j])
    ensures forall i, j :: 0 <= i < j < |d| ==> FirstIndex(init + [last], d[i]) < FirstIndex(init + [last], d[j])
    ensures last !in init ==>
      forall i, j :: 0 <= i < j < |d + [last]| ==> FirstIndex(init + [last], (d + [last])[i]) < FirstIndex(init + [last], (d + [last])[j])
  {
    var s := init + [last];
    assert s[..|init|] == init;
    forall i | 0 <= i < |d| ensures FirstIndex(s, d[i]) == FirstIndex(init, d[i]) {
      FirstIndexPrefix(s, |init|, d[i]);
    }
    if last !in init {
      assert FirstIndex(s, last) == |init|;
      forall i, j | 0 <= i < j < |d + [last]|
        ensures FirstIndex(s, (d + [last])[i]) < FirstIndex(s, (d + [last])[j])
      {
        if j == |d| {
          assert (d + [last])[i] == d[i];
        } else {
          assert (d + [last])[i] == d[i] && (d + [last])[j] == d[j];
        }
      }
    }
  }

  /** The distinct elements of s, each at its first occurrence, in order. */
  function Dedup<T(==)>(s: seq<T>): (d: seq<T>)
    ensures forall i, j :: 0 <= i < j < |d| ==> d[i] != d[j]
    ensures forall i :: 0 <= i < |s| ==> s[i] in d
    ensures forall i :: 0 <= i < |d| ==> d[i] in s
    ensures forall i, j :: 0 <= i < j < |d| ==> FirstIndex(s, d[i]) < FirstIndex(s, d[j])
    decreases |s|
  {
    if |s| == 0 then []
    else
      var init := s[..|s| - 1];
      var last := s[|s| - 1];
      var d := Dedup(init);
      assert s == init + [last];
      DedupOrderSnoc(init, last, d);
      if last in d then d
      else
        d + [last]
  }
}

=== FILE: text.dfy ===
/**
 * String helpers standing in for the JavaScript built-ins the services use:
 * decimal rendering of integers (template literals, `String(n)`), ASCII
 * `toLowerCase`, `trim`, and `parseInt(text, 10)`.
 */
module Text {
  import opened Wrappers

  predicate IsDigit(c: char) {
    '0' <= c <= '9'
  }

  function DigitChar(d: nat): (c: char)
    requires d < 10
    ensures IsDigit(c)
  {
    ['0', '1', '2', '3', '4', '5', '6', '7', '8', '9'][d]
  }

  function DigitValue(c: char): (d: nat)
    requires IsDigit(c)
    ensures d < 10
  {
    (c as int - '0' as int) as nat
  }

  lemma DigitRoundTrip(d: nat)
    requires d < 10
    ensures DigitValue(DigitChar(d)) == d
  {
  }

  predicate AllDigits(s: string) {
    forall i :: 0 <= i < |s| ==> IsDigit(s[i])
  }

  /** Decimal rendering of a natural number, without leading zeros. */
  function NatToString(n: nat): (s: string)
    ensures |s| >= 1
    ensures AllDigits(s)
    decreases n
  {
    if n < 10 then [DigitChar(n)] else NatToString(n / 10) + [DigitChar(n % 10)]
  }

  /** Decimal rendering of an integer, as JavaScript's `String(n)` prints a safe integer. */
  function IntToString(i: int): string {
    if i < 0 then "-" + NatToString(-i) else NatToString(i)
  }

  /** Value of a non-empty run of decimal digits. */
  function DigitsValue(s: string): nat
    requires AllDigits(s)
    decreases |s|
  {
    if |s| == 0 then 0 else DigitsValue(s[..|s| - 1]) * 10 + DigitValue(s[|s| - 1])
  }

  lemma {:induction false} DigitsValueOfNatToString(n: nat)
    ensures DigitsValue(NatToString(n)) == n
    decreases n
  {
    var s := NatToString(n);
    if n < 10 {
      DigitRoundTrip(n);
      assert s[..0] == [];
    } else {
      DigitsValueOfNatToString(n / 10);
      assert s[..|s| - 1] == NatToString(n / 10);
      DigitRoundTrip(n % 10);
    }
  }

  /** Distinct numbers render to distinct texts. */
  lemma NatToStringInjective(a: nat, b: nat)
    requires NatToString(a) == NatToString(b)
    ensures a == b
  {
    DigitsValueOfNatToString(a);
    DigitsValueOfNatToString(b);
  }

  // ---------------------------------------------------------------- case

  function LowerChar(c: char): (l: char)
    ensures 'A' <= c <= 'Z' ==> l == c + ('a' - 'A')
    ensures !('A' <= c <= 'Z') ==> l == c
  {
    if 'A' <= c <= 'Z' then (c as int + 32) as char else c
  }

  /** `toLowerCase`, restricted to the ASCII letters. */
  function Lower(s: string): (r: string)
    ensures |r| == |s|
    ensures forall i :: 0 <= i < |s| ==> r[i] == LowerChar(s[i])
  {
    if |s| == 0 then "" else [LowerChar(s[0])] + Lower(s[1..])
  }

  lemma LowerIdempotent(s: string)
    ensures Lower(Lower(s)) == Lower(s)
  {
  }

  /** Text without capitals is its own lower case. */
  lemma LowerOfLowercase(s: string)
    requires forall i :: 0 <= i < |s| ==> !('A' <= s[i] <= 'Z')
    ensures Lower(s) == s
  {
  }

  lemma LowerOfDigits(s: string)
    requires AllDigits(s)
    ensures Lower(s) == s
  {
  }

  predicate IsPrefix(p: string, s: string) {
    |p| <= |s| && s[..|p|] == p
  }

  /** p occurs in s starting at position i. */
  predicate OccursAt(s: string, p: string, i: int) {
    0 <= i <= |s| - |p| && s[i..i + |p|] == p
  }

  /** `s.includes(p)`: p occurs somewhere inside s. */
  predicate Contains(s: string, p: string) {
    exists i | 0 <= i <= |s| - |p| :: OccursAt(s, p, i)
  }

  lemma PrefixIsContained(p: string, s: string)
    requires IsPrefix(p, s)
    ensures Contains(s, p)
  {
    assert OccursAt(s, p, 0);
  }

  // ---------------------------------------------------------- whitespace

  /** The white-space and line-terminator characters `trim` and `\s` recognise (BMP subset). */
  predicate IsSpace(c: char) {
    || c == ' ' || c == '\t' || c == '\n' || c == '\r' || c == '\U{000B}' || c == '\U{000C}'
    || c == '\U{00A0}' || c == '\U{1680}' || ('\U{2000}' <= c <= '\U{200A}')
    || c == '\U{2028}' || c == '\U{2029}' || c == '\U{202F}' || c == '\U{205F}'
    || c == '\U{3000}' || c == '\U{FEFF}'
  }

  function TrimStart(s: string): (r: string)
    ensures |r| <= |s| && r == s[|s| - |r|..]
    ensures |r| > 0 ==> !IsSpace(r[0])
    ensures forall i :: 0 <= i < |s| - |r| ==> IsSpace(s[i])
  {
    if |s| > 0 && IsSpace(s[0]) then TrimStart(s[1..]) else s
  }

  function TrimEnd(s: string): (r: string)
    ensures |r| <= |s| && r == s[..|r|]
    ensures |r| > 0 ==> !IsSpace(r[|r| - 1])
    ensures forall i :: |r| <= i < |s| ==> IsSpace(s[i])
  {
    if |s| > 0 && IsSpace(s[|s| - 1]) then TrimEnd(s[..|s| - 1]) else s
  }

  /** `trim`: the longest slice of s without white space at either end. */
  function Trim(s: string): (r: string)
    ensures |r| > 0 ==> !IsSpace(r[0]) && !IsSpace(r[|r| - 1])
    ensures exists i :: OccursAt(s, r, i)
    ensures exists k :: SpaceAround(s, r, k)
  {
    var t := TrimStart(s);
    var r := TrimEnd(t);
    TrimmedSlice(s, t, r);
    r
  }

  /** r occurs in s at k, and everything of s before and after it is white space. */
  predicate SpaceAround(s: string, r: string, k: int) {
    && OccursAt(s, r, k)
    && (forall i :: 0 <= i < k ==> IsSpace(s[i]))
    && (forall i :: k + |r| <= i < |s| ==> IsSpace(s[i]))
  }

  /** Cutting white space from the front of s to get t, then from the back of t to get r, leaves r framed by white space in s. */
  lemma TrimmedSlice(s: string, t: string, r: string)
    requires |t| <= |s| && t == s[|s| - |t|..] && forall i :: 0 <= i < |s| - |t| ==> IsSpace(s[i])
    requires |r| <= |t| && r == t[..|r|] && forall i :: |r| <= i < |t| ==> IsSpace(t[i])
    ensures SpaceAround(s, r, |s| - |t|)
  {
    var k := |s| - |t|;
    assert OccursAt(s, r, k);
    forall i | k + |r| <= i < |s| ensures IsSpace(s[i]) {
      assert s[i] == t[i - k];
    }
  }

  /** A text that starts and ends with a visible character is its own trim. */
  lemma TrimVisible(s: string)
    requires |s| > 0 && !IsSpace(s[0]) && !IsSpace(s[|s| - 1])
    ensures Trim(s) == s
  {
    assert TrimStart(s) == s;
    assert TrimEnd(s) == s;
  }

  // ------------------------------------------------------------ parseInt

  /** Length of the longest run of digits at the start of s. */
  function LeadingDigits(s: string): (n: nat)
    ensures n <= |s|
    ensures AllDigits(s[..n])
    ensures n < |s| ==> !IsDigit(s[n])
  {
    if |s| > 0 && IsDigit(s[0]) then
      var n := 1 + LeadingDigits(s[1..]);
      assert s[..n] == [s[0]] + s[1..][..n - 1];
      n
    else 0
  }

  /**
   * `Number.parseInt(s, 10)` on text that has already been trimmed: an optional
   * sign followed by the longest run of decimal digits; `None` stands for NaN.
   */
  function ParseInt(s: string): Option<int> {
    var sign := if |s| > 0 && (s[0] == '-' || s[0] == '+') then 1 else 0;
    var rest := s[sign..];
    var n := LeadingDigits(rest);
    if n == 0 then None
    else
      var v: int := DigitsValue(rest[..n]);
      if sign == 1 && s[0] == '-' then Some(-v) else Some(v)
  }

  /** The digit run at the front of s is determined by where the first non-digit sits. */
  lemma {:induction false} LeadingDigitsIs(s: string, k: nat)
    requires k <= |s| && AllDigits(s[..k])
    requires k < |s| ==> !IsDigit(s[k])
    ensures LeadingDigits(s) == k
    decreases k
  {
    if k > 0 {
      assert IsDigit(s[..k][0]);
      assert s[1..][..k - 1] == s[..k][1..];
      LeadingDigitsIs(s[1..], k - 1);
    }
  }

  lemma LeadingDigitsOfNumber(n: nat, suffix: string)
    requires |suffix| > 0 ==> !IsDigit(suffix[0])
    ensures LeadingDigits(NatToString(n) + suffix) == |NatToString(n)|
  {
    var d := NatToString(n);
    var s := d + suffix;
    assert s[..|d|] == d;
    LeadingDigitsIs(s, |d|);
  }

  /** `parseInt` reads back the integer `String(i)` printed, whatever non-digit text follows it. */
  lemma ParseIntOfIntToString(i: int, suffix: string)
    requires |suffix| > 0 ==> !IsDigit(suffix[0])
    ensures ParseInt(IntToString(i) + suffix) == Some(i)
  {
    var m: nat := if i < 0 then -i else i;
    var d := NatToString(m);
    LeadingDigitsOfNumber(m, suffix);
    DigitsValueOfNatToString(m);
    ParseIntDigits(d, suffix);
    if i < 0 {
      assert IntToString(i) + suffix == "-" + (d + suffix);
    } else {
      assert IntToString(i) + suffix == d + suffix;
    }
  }

  /** A digit run followed by a non-digit reads as its value, and with a minus sign in front as its negation. */
  lemma ParseIntDigits(d: string, suffix: string)
    requires |d| > 0 && AllDigits(d) && LeadingDigits(d + suffix) == |d|
    ensures ParseInt(d + suffix) == Some(DigitsValue(d))
    ensures ParseInt("-" + (d + suffix)) == Some(0 - DigitsValue(d) as int)
  {
    var s := d + suffix;
    assert s[..|d|] == d;
    assert s[0] == d[0];
    assert s[0..] == s;
    var t := "-" + s;
    assert t[1..] == s;
  }

  /** Distinct integers render to distinct texts. */
  lemma IntToStringInjective(a: int, b: int)
    requires IntToString(a) == IntToString(b)
    ensures a == b
  {
    ParseIntOfIntToString(a, "");
    ParseIntOfIntToString(b, "");
    assert IntToString(a) + "" == IntToString(a);
    assert IntToString(b) + "" == IntToString(b);
  }

  // ------------------------------------------------------ decimal numbers

  /** The three decimal digits of f < 1000. */
  function Digits3(f: nat): (d: (nat, nat, nat))
    requires f < 1000
    ensures d.0 < 10 && d.1 < 10 && d.2 < 10
    ensures f == 100 * d.0 + 10 * d.1 + d.2
  {
    (f / 100, f / 10 % 10, f % 10)
  }

  /** The digits after the point of f thousandths, trailing zeros dropped; empty when f is 0. */
  function Fraction(f: nat): (s: string)
    requires f < 1000
    ensures f == 0 <==> s == ""
    ensures f > 0 ==> s[0] == '.' && AllDigits(s[1..])
  {
    var d := Digits3(f);
    if f == 0 then ""
    else if d.2 != 0 then ['.', DigitChar(d.0), DigitChar(d.1), DigitChar(d.2)]
    else if d.1 != 0 then ['.', DigitChar(d.0), DigitChar(d.1)]
    else ['.', DigitChar(d.0)]
  }

  lemma FractionInjective(f: nat, g: nat)
    requires f < 1000 && g < 1000 && Fraction(f) == Fraction(g)
    ensures f == g
  {
    var s := Fraction(f);
    var df, dg := Digits3(f), Digits3(g);
    if f > 0 {
      DigitRoundTrip(df.0);
      DigitRoundTrip(dg.0);
      DigitRoundTrip(df.1);
      DigitRoundTrip(dg.1);
      DigitRoundTrip(df.2);
      DigitRoundTrip(dg.2);
      assert df.0 == DigitValue(s[1]) == dg.0;
      if |s| >= 3 {
        assert df.1 == DigitValue(s[2]) == dg.1;
      }
      if |s| == 4 {
        assert df.2 == DigitValue(s[3]) == dg.2;
      }
    }
  }

  /** The whole part and the fraction of a thousandths count, side by side. */
  function Unsigned(a: nat): (s: string)
    ensures |s| > 0 && IsDigit(s[0])
    ensures forall i :: 0 <= i < |s| ==> s[i] == '.' || IsDigit(s[i])
  {
    var w, f := NatToString(a / 1000), Fraction(a % 1000);
    assert forall i :: 0 <= i < |f| ==> f[i] == '.' || IsDigit(f[i]) by {
      if |f| > 0 {
        forall i | 1 <= i < |f| ensures IsDigit(f[i]) { assert f[i] == f[1..][i - 1]; }
      }
    }
    w + f
  }

  lemma UnsignedInjective(a: nat, b: nat)
    requires Unsigned(a) == Unsigned(b)
    ensures a == b
  {
    var wa, fa := NatToString(a / 1000), Fraction(a % 1000);
    var wb, fb := NatToString(b / 1000), Fraction(b % 1000);
    LeadingDigitsOfNumber(a / 1000, fa);
    LeadingDigitsOfNumber(b / 1000, fb);
    assert |wa| == |wb|;
    assert wa == (wa + fa)[..|wa|] == wb;
    assert fa == (wa + fa)[|wa|..] == fb;
    NatToStringInjective(a / 1000, b / 1000);
    FractionInjective(a % 1000, b % 1000);
  }

  /**
   * JavaScript's rendering of the number m / 1000 (a coordinate already rounded
   * to thousandths): a sign for negatives, the whole part, then the fraction
   * without trailing zeros, e.g. 51.507, -0.128, 10, 0.5.
   */
  function MilliToString(m: int): (s: string)
    ensures NoColon(s)
  {
    if m < 0 then "-" + Unsigned(-m) else Unsigned(m)
  }

  /** Distinct coordinates render to distinct texts. */
  lemma MilliToStringInjective(m: int, n: int)
    requires MilliToString(m) == MilliToString(n)
    ensures m == n
  {
    var a: nat := if m < 0 then -m else m;
    var b: nat := if n < 0 then -n else n;
    SignedInjective(Unsigned(a), Unsigned(b), m < 0, n < 0);
    UnsignedInjective(a, b);
  }

  /** A leading '-' in front of a digit is read back unambiguously. */
  lemma SignedInjective(u: string, v: string, neg1: bool, neg2: bool)
    requires |u| > 0 && |v| > 0 && IsDigit(u[0]) && IsDigit(v[0])
    requires (if neg1 then "-" + u else u) == (if neg2 then "-" + v else v)
    ensures neg1 == neg2 && u == v
  {
    var s := if neg1 then "-" + u else u;
    if neg1 && neg2 {
      assert u == s[1..] == v;
    }
  }

  /** A non-negative count of thousandths renders as its whole part then its fraction. */
  lemma MilliToStringOf(m: nat, w: nat, f: nat, ws: string, fs: string)
    requires m == 1000 * w + f && f < 1000 && NatToString(w) == ws && Fraction(f) == fs
    ensures MilliToString(m) == ws + fs
  {
    assert m / 1000 == w && m % 1000 == f;
  }

  lemma MilliToStringLatitude()
    ensures MilliToString(51507) == "51.507"
  {
    LatitudeParts();
    MilliToStringOf(51507, 51, 507, "51", ".507");
    assert "51" + ".507" == "51.507";
  }

  lemma LatitudeParts()
    ensures NatToString(51) == "51" && Fraction(507) == ".507"
  {
    assert NatToString(5) == "5";
    assert Digits3(507) == (5, 0, 7);
  }

  lemma MilliToStringNegative()
    ensures MilliToString(-128) == "-0.128"
  {
    NegativeParts();
    MilliToStringOf(128, 0, 128, "0", ".128");
    assert MilliToString(-128) == "-" + MilliToString(128);
    assert "-" + ("0" + ".128") == "-0.128";
  }

  lemma NegativeParts()
    ensures NatToString(0) == "0" && Fraction(128) == ".128"
  {
    assert Digits3(128) == (1, 2, 8);
  }

  lemma MilliToStringWhole()
    ensures MilliToString(10000) == "10"
  {
    assert NatToString(10) == "10" by { assert NatToString(1) == "1"; }
  }

  lemma MilliToStringTrailingZeros()
    ensures MilliToString(500) == "0.5"
  {
    assert Digits3(500) == (5, 0, 0);
  }

  // --------------------------------------------------------- joined fields

  /** No occurrence of c anywhere in s. */
  predicate Lacks(s: string, c: char) {
    forall i :: 0 <= i < |s| ==> s[i] != c
  }

  /** No ':' anywhere in s. */
  predicate NoColon(s: string) {
    Lacks(s, ':')
  }

  /** A first field free of the separator is recovered from `a<sep>b`, and so is the rest. */
  lemma JoinSplitsOn(a: string, b: string, a': string, b': string, sep: char)
    requires Lacks(a, sep) && Lacks(a', sep)
    requires a + [sep] + b == a' + [sep] + b'
    ensures a == a' && b == b'
  {
    var s := a + [sep] + b;
    if |a| < |a'| {
      JoinChar(a, b, |a|, sep);
      assert false;
    } else if |a'| < |a| {
      JoinChar(a', b', |a'|, sep);
      assert false;
    }
    assert a == s[..|a|] == a';
    assert b == s[|a| + 1..] == b';
  }

  /** A colon-free first field is recovered from `a:b`, and so is the rest. */
  lemma JoinSplits(a: string, b: string, a': string, b': string)
    requires NoColon(a) && NoColon(a')
    requires a + ":" + b == a' + ":" + b'
    ensures a == a' && b == b'
  {
    JoinSplitsOn(a, b, a', b', ':');
  }

  lemma JoinChar(a: string, b: string, i: nat, sep: char)
    requires i <= |a|
    ensures (a + [sep] + b)[i] == if i < |a| then a[i] else sep
  {
  }

  /** A colon-free last field is recovered from `a:b`, and so is what precedes it. */
  lemma JoinSplitsLast(a: string, b: string, a': string, b': string)
    requires NoColon(b) && NoColon(b')
    requires a + ":" + b == a' + ":" + b'
    ensures a == a' && b == b'
  {
    var s := a + ":" + b;
    if |b| < |b'| {
      JoinChar(a, b, |a|, ':');
      JoinCharAfter(a', b', |a|);
      assert false;
    } else if |b'| < |b| {
      JoinChar(a', b', |a'|, ':');
      JoinCharAfter(a, b, |a'|);
      assert false;
    }
    assert a == s[..|a|] == a';
    assert b == s[|a| + 1..] == b';
  }

  lemma JoinCharAfter(a: string, b: string, i: int)
    requires |a| < i < |a| + 1 + |b|
    ensures (a + ":" + b)[i] == b[i - |a| - 1]
  {
  }
}

=== FILE: weather_service.dfy ===
/**
 * `WeatherService`: the current-weather summary and the wind forecast. Each
 * read goes through the stale-while-revalidate cache under a key built from
 * the rounded coordinates; each upstream fetch first charges the shared and
 * per-client rate-limit buckets, then maps the provider's status and body.
 * Coordinates are given in thousandths of a degree, the precision the keys
 * round them to.
 */
module WeatherService {
  import opened Wrappers
  import opened Text
  import opened JsNumber
  import opened Exceptions
  import RateLimiter
  import CacheSwr
  import Compass
  import DailySummary
  import Sorting

  datatype Units = Standard | Metric | Imperial
  datatype Granularity = Hourly | Daily

  function UnitsText(u: Units): (t: string)
    ensures NoColon(t)
  {
    match u
    case Standard => "standard"
    case Metric => "metric"
    case Imperial => "imperial"
  }

  function GranularityText(g: Granularity): (t: string)
    ensures NoColon(t)
  {
    match g
    case Hourly => "hourly"
    case Daily => "daily"
  }

  /** The validated forecast query; `range` and `days` are absent when not given. */
  datatype ForecastQuery = ForecastQuery(units: Units, granularity: Granularity, range: Option<int>, days: Option<int>)

  const OwmLimitPerHour := 2000
  const CurrentFreshSec := 180
  const CurrentStaleSec := 300
  const ForecastFreshSec := 600
  const ForecastStaleSec := 900
  const MaxCnt := 40
  const DefaultRangeHours := 24
  const DefaultDays := 5

  // ------------------------------------------------------- range and days

  /** `rangeHours`: the requested hours, 24 by default, and only for the hourly granularity. */
  function RangeHours(q: ForecastQuery): (r: Option<int>)
    ensures r.Some? <==> q.granularity == Hourly
    ensures r.Some? && q.range.Some? ==> r.value == q.range.value
    ensures r.Some? && q.range.None? ==> r.value == DefaultRangeHours
  {
    if q.granularity == Hourly then Some(q.range.GetOr(DefaultRangeHours)) else None
  }

  /** `rangeDays`: the requested days, 5 by default, and only for the daily granularity. */
  function RangeDays(q: ForecastQuery): (r: Option<int>)
    ensures r.Some? <==> q.granularity == Daily
    ensures r.Some? && q.days.Some? ==> r.value == q.days.value
    ensures r.Some? && q.days.None? ==> r.value == DefaultDays
  {
    if q.granularity == Daily then Some(q.days.GetOr(DefaultDays)) else None
  }

  /** `Math.ceil(n / 3)`. */
  function Ceil3(n: int): (c: int)
    ensures 3 * (c - 1) < n <= 3 * c
  {
    -((-n) / 3)
  }

  /** The number of three-hour points the forecast request asks for. */
  function Cnt(q: ForecastQuery): (cnt: int)
    ensures cnt <= MaxCnt
    ensures q.granularity == Hourly ==> cnt == Min(Ceil3(q.range.GetOr(DefaultRangeHours)), MaxCnt)
    ensures q.granularity == Daily ==> cnt == Min(q.days.GetOr(DefaultDays) * 8, MaxCnt)
  {
    if q.granularity == Hourly then Min(Ceil3(q.range.GetOr(DefaultRangeHours)), MaxCnt)
    else Min(q.days.GetOr(DefaultDays) * 8, MaxCnt)
  }

  /**
   * Within the query's accepted ranges the hourly request is never capped:
   * it asks for exactly the points the hours span. The daily request asks
   * for eight points per day up to five days, and for forty beyond.
   */
  lemma CntWithinLimits(q: ForecastQuery)
    ensures q.granularity == Hourly && q.range.Some? && 3 <= q.range.value <= 120 ==>
      1 <= Cnt(q) == Ceil3(q.range.value) && 3 * Cnt(q) >= q.range.value
    ensures q.granularity == Hourly && q.range.None? ==> Cnt(q) == 8
    ensures q.granularity == Daily && q.days.Some? && 1 <= q.days.value <= 5 ==> Cnt(q) == 8 * q.days.value
    ensures q.granularity == Daily && q.days.Some? && 5 <= q.days.value ==> Cnt(q) == MaxCnt
    ensures q.granularity == Daily && q.days.None? ==> Cnt(q) == MaxCnt
  {
  }

  /** `s.slice(0, end)`: a negative end counts back from the length. */
  function Slice<T>(s: seq<T>, end: int): (r: seq<T>)
    ensures 0 <= end ==> r == s[..Min(end, |s|)]
    ensures end < 0 ==> r == s[..Max(|s| + end, 0)]
  {
    if end >= 0 then s[..Min(end, |s|)] else s[..Max(|s| + end, 0)]
  }

  // -------------------------------------------------------------- buckets

  const Burst := RateLimiter.Bucket("owm:requests:1m", 120, 60)
  const Hourly1h := RateLimiter.Bucket("owm:requests:1h", OwmLimitPerHour, 3600)

  function ClientBucket(clientKey: string): RateLimiter.Bucket {
    RateLimiter.Bucket("client:" + clientKey + ":1m", 120, 60)
  }

  /** A JavaScript string is truthy when it is not empty; an absent key is falsy. */
  predicate Truthy(key: Option<string>) {
    key.Some? && key.value != ""
  }

  /** The buckets one upstream call charges, in the order they are listed. */
  function Buckets(clientKey: Option<string>): (bs: seq<RateLimiter.Bucket>)
    ensures forall i :: 0 <= i < |bs| ==> RateLimiter.ValidBucket(bs[i])
    ensures |bs| == (if Truthy(clientKey) then 3 else 2)
    ensures bs[..2] == [Burst, Hourly1h]
    ensures Truthy(clientKey) ==> bs[2] == ClientBucket(clientKey.value)
  {
    [Burst, Hourly1h] + (if Truthy(clientKey) then [ClientBucket(clientKey.value)] else [])
  }

  /**
   * The limiter evaluates the two one-minute buckets before the hourly one, so
   * a client over its burst quota is turned away before the hourly budget is
   * charged.
   */
  lemma BucketEvaluationOrder(clientKey: Option<string>)
    ensures Truthy(clientKey) ==>
      Sorting.StableSort(Buckets(clientKey), RateLimiter.ByWindow) == [Burst, ClientBucket(clientKey.value), Hourly1h]
    ensures !Truthy(clientKey) ==>
      Sorting.StableSort(Buckets(clientKey), RateLimiter.ByWindow) == [Burst, Hourly1h]
  {
    if Truthy(clientKey) {
      assert Buckets(clientKey) == [Burst, Hourly1h, ClientBucket(clientKey.value)];
      SortThree(Burst, Hourly1h, ClientBucket(clientKey.value));
    } else {
      assert Buckets(clientKey) == [Burst, Hourly1h];
      SortTwo(Burst, Hourly1h);
    }
  }

  lemma SortTwo(a: RateLimiter.Bucket, b: RateLimiter.Bucket)
    requires a.windowSec <= b.windowSec
    ensures Sorting.StableSort([a, b], RateLimiter.ByWindow) == [a, b]
  {
    assert [a, b][1..] == [b] && [b][1..] == [];
    assert Sorting.StableSort([b], RateLimiter.ByWindow) == [b];
  }

  /** A long window listed between two short ones moves behind both. */
  lemma SortThree(a: RateLimiter.Bucket, b: RateLimiter.Bucket, c: RateLimiter.Bucket)
    requires a.windowSec <= c.windowSec < b.windowSec
    ensures Sorting.StableSort([a, b, c], RateLimiter.ByWindow) == [a, c, b]
  {
    assert [a, b, c][1..] == [b, c] && [b, c][1..] == [c] && [c][1..] == [];
    assert Sorting.StableSort([c], RateLimiter.ByWindow) == [c];
    assert Sorting.Insert(b, [c], RateLimiter.ByWindow) == [c, b] by {
      assert [c][1..] == [];
    }
    assert Sorting.Insert(a, [c, b], RateLimiter.ByWindow) == [a, c, b];
  }

  // ----------------------------------------------------------------- keys

  /** `a:b`. */
  function Join(a: string, b: string): string {
    a + ":" + b
  }

  function OptionalText(n: Option<int>): (t: string)
    ensures NoColon(t)
  {
    match n
    case None => ""
    case Some(v) =>
      var t := IntToString(v);
      assert forall i :: 0 <= i < |t| ==> t[i] == '-' || IsDigit(t[i]) by {
        if v < 0 {
          forall i | 1 <= i < |t| ensures IsDigit(t[i]) { assert t[i] == NatToString(-v)[i - 1]; }
        }
      }
      t
  }

  const CurrentPrefix := "weather:current:"
  const ForecastPrefix := "weather:forecast:"

  /** `keyCurrent`: `weather:current:<lat>:<lon>:<units>`. */
  function KeyCurrent(lat: int, lon: int, units: Units): (key: string)
    ensures |key| > |CurrentPrefix| + |UnitsText(units)| && key[..|CurrentPrefix|] == CurrentPrefix
    ensures key[|key| - |UnitsText(units)| - 1..] == ":" + UnitsText(units)
  {
    CurrentFramed(CurrentPrefix, MilliToString(lat), MilliToString(lon), UnitsText(units));
    CurrentPrefix + Join(MilliToString(lat), Join(MilliToString(lon), UnitsText(units)))
  }

  /** `keyForecast`: `weather:forecast:<lat>:<lon>:<granularity>:<units>:<rangeHours>:<rangeDays>`, absent ranges empty. */
  function KeyForecast(lat: int, lon: int, units: Units, granularity: Granularity,
                       rangeHours: Option<int>, rangeDays: Option<int>): (key: string)
    ensures |key| > |ForecastPrefix| + |OptionalText(rangeDays)| && key[..|ForecastPrefix|] == ForecastPrefix
  {
    ForecastPrefix + Join(MilliToString(lat), Join(MilliToString(lon),
      Join(GranularityText(granularity), Join(UnitsText(units),
        Join(OptionalText(rangeHours), OptionalText(rangeDays))))))
  }

  /** `p a:b`, where b ends with `:d`, starts with p and ends with `:d`. */
  lemma Framed(p: string, a: string, b: string, d: string)
    requires |b| > |d| && b[|b| - |d| - 1..] == ":" + d
    ensures var k := p + Join(a, b);
      |k| > |p| + |d| && k[..|p|] == p && k[|k| - |d| - 1..] == ":" + d
  {
    JoinKeepsSuffix(a, b, d);
    SuffixKept(p, Join(a, b), |d| + 1);
  }

  /** `p a1:a2:u` starts with p and ends with `:u`. */
  lemma CurrentFramed(p: string, a1: string, a2: string, u: string)
    ensures var k := p + Join(a1, Join(a2, u));
      |k| > |p| + |u| && k[..|p|] == p && k[|k| - |u| - 1..] == ":" + u
  {
    JoinSuffix(a2, u);
    Framed(p, a1, Join(a2, u), u);
  }

  /** `a:b` ends with `:b`. */
  lemma JoinSuffix(a: string, b: string)
    ensures |Join(a, b)| > |b| && Join(a, b)[|Join(a, b)| - |b| - 1..] == ":" + b
  {
    assert Join(a, b) == a + (":" + b);
  }

  /** Putting text in front keeps the last n characters. */
  lemma SuffixKept(a: string, rest: string, n: nat)
    requires n <= |rest|
    ensures (a + rest)[|a + rest| - n..] == rest[|rest| - n..]
  {
  }

  /** Joining more fields in front keeps the last `:d`. */
  lemma JoinKeepsSuffix(a: string, b: string, d: string)
    requires |b| > |d| && b[|b| - |d| - 1..] == ":" + d
    ensures |Join(a, b)| > |d| && Join(a, b)[|Join(a, b)| - |d| - 1..] == ":" + d
  {
    SuffixKept(a + ":", b, |d| + 1);
  }

  lemma UnitsTextInjective(a: Units, b: Units)
    requires UnitsText(a) == UnitsText(b)
    ensures a == b
  {
  }

  lemma OptionalTextInjective(a: Option<int>, b: Option<int>)
    requires OptionalText(a) == OptionalText(b)
    ensures a == b
  {
    if a.Some? && b.Some? {
      IntToStringInjective(a.value, b.value);
    }
  }

  lemma StripPrefix(p: string, x: string, y: string)
    requires p + x == p + y
    ensures x == y
  {
    assert x == (p + x)[|p|..];
  }

  /** Two current-weather requests share a cache entry exactly when coordinates and units agree. */
  lemma KeyCurrentInjective(lat1: int, lon1: int, u1: Units, lat2: int, lon2: int, u2: Units)
    ensures KeyCurrent(lat1, lon1, u1) == KeyCurrent(lat2, lon2, u2) <==> lat1 == lat2 && lon1 == lon2 && u1 == u2
  {
    if KeyCurrent(lat1, lon1, u1) == KeyCurrent(lat2, lon2, u2) {
      StripPrefix(CurrentPrefix, Join(MilliToString(lat1), Join(MilliToString(lon1), UnitsText(u1))),
                                 Join(MilliToString(lat2), Join(MilliToString(lon2), UnitsText(u2))));
      JoinSplits(MilliToString(lat1), Join(MilliToString(lon1), UnitsText(u1)),
                 MilliToString(lat2), Join(MilliToString(lon2), UnitsText(u2)));
      JoinSplits(MilliToString(lon1), UnitsText(u1), MilliToString(lon2), UnitsText(u2));
      MilliToStringInjective(lat1, lat2);
      MilliToStringInjective(lon1, lon2);
      UnitsTextInjective(u1, u2);
    }
  }

  /** Two forecast requests share a cache entry exactly when every keyed parameter agrees. */
  lemma KeyForecastInjective(lat1: int, lon1: int, u1: Units, g1: Granularity, h1: Option<int>, d1: Option<int>,
                             lat2: int, lon2: int, u2: Units, g2: Granularity, h2: Option<int>, d2: Option<int>)
    ensures KeyForecast(lat1, lon1, u1, g1, h1, d1) == KeyForecast(lat2, lon2, u2, g2, h2, d2) <==>
      lat1 == lat2 && lon1 == lon2 && u1 == u2 && g1 == g2 && h1 == h2 && d1 == d2
  {
    if KeyForecast(lat1, lon1, u1, g1, h1, d1) == KeyForecast(lat2, lon2, u2, g2, h2, d2) {
      var r1 := Join(OptionalText(h1), OptionalText(d1));
      var r2 := Join(OptionalText(h2), OptionalText(d2));
      var q1 := Join(GranularityText(g1), Join(UnitsText(u1), r1));
      var q2 := Join(GranularityText(g2), Join(UnitsText(u2), r2));
      StripPrefix(ForecastPrefix, Join(MilliToString(lat1), Join(MilliToString(lon1), q1)),
                                  Join(MilliToString(lat2), Join(MilliToString(lon2), q2)));
      JoinSplits(MilliToString(lat1), Join(MilliToString(lon1), q1), MilliToString(lat2), Join(MilliToString(lon2), q2));
      JoinSplits(MilliToString(lon1), q1, MilliToString(lon2), q2);
      JoinSplits(GranularityText(g1), Join(UnitsText(u1), r1), GranularityText(g2), Join(UnitsText(u2), r2));
      JoinSplits(UnitsText(u1), r1, UnitsText(u2), r2);
      JoinSplits(OptionalText(h1), OptionalText(d1), OptionalText(h2), OptionalText(d2));
      MilliToStringInjective(lat1, lat2);
      MilliToStringInjective(lon1, lon2);
      UnitsTextInjective(u1, u2);
      assert GranularityText(g1)[0] == GranularityText(g2)[0];
      OptionalTextInjective(h1, h2);
      OptionalTextInjective(d1, d2);
    }
  }

  /** Current-weather and forecast entries never share a key. */
  lemma KeysApart(lat1: int, lon1: int, u1: Units,
                  lat2: int, lon2: int, u2: Units, g: Granularity, h: Option<int>, d: Option<int>)
    ensures KeyCurrent(lat1, lon1, u1) != KeyForecast(lat2, lon2, u2, g, h, d)
  {
    PrefixesDiffer(Join(MilliToString(lat1), Join(MilliToString(lon1), UnitsText(u1))),
      Join(MilliToString(lat2), Join(MilliToString(lon2),
        Join(GranularityText(g), Join(UnitsText(u2), Join(OptionalText(h), OptionalText(d)))))));
  }

  lemma PrefixesDiffer(x: string, y: string)
    ensures CurrentPrefix + x != ForecastPrefix + y
  {
    assert (CurrentPrefix + x)[8] == 'c';
    assert (ForecastPrefix + y)[8] == 'f';
  }

  /** The forecast key of a query: only the range that applies to its granularity appears. */
  function QueryKey(lat: int, lon: int, q: ForecastQuery): string {
    KeyForecast(lat, lon, q.units, q.granularity, RangeHours(q), RangeDays(q))
  }

  /** An hourly query ignores `days` and a daily query ignores `range` when picking its cache entry. */
  lemma QueryKeyIgnoresOtherRange(lat: int, lon: int, q: ForecastQuery, range: Option<int>, days: Option<int>)
    ensures q.granularity == Hourly ==> QueryKey(lat, lon, q.(days := days)) == QueryKey(lat, lon, q)
    ensures q.granularity == Daily ==> QueryKey(lat, lon, q.(range := range)) == QueryKey(lat, lon, q)
    ensures q.granularity == Hourly && q.range.None? ==>
      QueryKey(lat, lon, q) == QueryKey(lat, lon, q.(range := Some(DefaultRangeHours)))
  {
  }

  // ------------------------------------------------------------- upstream

  /** What the transport delivers: a response with a status and body, or none at all (timeout, network). */
  datatype Transport<T> = Answer(status: int, data: T) | NoAnswer(message: string)

  /** `axios.get` with `validateStatus: 200 <= s < 500`: other statuses and missing responses reject. */
  function AxiosGet<T>(t: Transport<T>): (r: Result<(int, T), Thrown>)
    ensures r.Success? <==> t.Answer? && 200 <= t.status < 500
    ensures r.Success? ==> r.value == (t.status, t.data)
    ensures r.Failure? ==> (r.error.Axios? &&
      r.error.axios.status == (if t.Answer? then Some(t.status) else None))
  {
    match t
    case Answer(status, data) =>
      if 200 <= status < 500 then Success((status, data))
      else Failure(Axios(AxiosError(Some(status), NoData, "Request failed with status code " + IntToString(status), None, Some("get"))))
    case NoAnswer(message) => Failure(Axios(AxiosError(None, NoData, message, None, Some("get"))))
  }

  const UpstreamRateLimited := "Rate limit exceeded. Please try again later."
  const ProviderFailed := "Failed to fetch data from weather provider"
  const InternalError := "Internal server error"

  /** `handleApiError`: what leaves the fetch when its body throws. */
  function HandleApiError(e: Thrown): (h: HttpException)
    ensures e.Axios? && e.axios.status == Some(TooManyRequestsStatus) ==> h == HttpError(UpstreamRateLimited, TooManyRequestsStatus)
    ensures e.Axios? && e.axios.status != Some(TooManyRequestsStatus) ==> h == HttpError(ProviderFailed, BadRequestStatus)
    ensures e.Http? ==> h == e.http
    ensures e.Api? || e.Unknown? ==> h == HttpError(InternalError, InternalServerErrorStatus)
  {
    match e
    case Axios(a) =>
      if a.status == Some(429) then HttpError(UpstreamRateLimited, 429) else HttpError(ProviderFailed, 400)
    case Http(h) => h
    case _ => HttpError(InternalError, 500)
  }

  /** Every error leaving `handleApiError` is an HTTP exception with one of four statuses. */
  lemma HandleApiErrorStatuses(e: Thrown)
    ensures !e.Http? ==> HandleApiError(e).status in {TooManyRequestsStatus, BadRequestStatus, InternalServerErrorStatus}
    ensures HandleApiError(Http(HandleApiError(e))) == HandleApiError(e)
  {
  }

  /** An upstream error status that `validateStatus` let through: 429 stays 429, anything else is 400. */
  function UpstreamStatusError(message: string, status: int): (h: HttpException)
    requires 400 <= status
    ensures h.message == message
    ensures h.status == (if status == TooManyRequestsStatus then TooManyRequestsStatus else BadRequestStatus)
  {
    HttpError(message, if status == 429 then 429 else 400)
  }

  // -------------------------------------------------------------- current

  datatype Wind = Wind(speed: Option<real>, deg: Option<real>, gust: Option<real>)

  /**
   * The fields of the current-weather body the service reads; a body that is
   * not an object (axios hands over `""` for an empty one) has neither.
   */
  datatype CurrentData = CurrentData(dt: Option<int>, wind: Option<Wind>)

  /** `timestamp` is `None` when the body has no `dt`, which `JSON` then leaves out. */
  datatype WeatherSummary = WeatherSummary(windSpeed: real, windDeg: real, windGust: Option<real>, timestamp: Option<int>, units: Units)

  /** The counters after the limiter ran, and the fetch's result. */
  datatype Fetched<T> = Fetched(counters: RateLimiter.Counters, result: Result<T, Thrown>)

  /**
   * `fetchCurrent`: the limiter runs first and outside the error mapping, so
   * its rejection propagates as is and the provider is never asked. The
   * provider's answer is then checked and shaped; a `null` or missing body
   * makes reading `data.wind` throw a `TypeError`.
   */
  function FetchCurrent(s: RateLimiter.Counters, mode: RateLimiter.Mode, now: nat, units: Units,
                        clientKey: Option<string>, upstream: Transport<Option<CurrentData>>): (r: Fetched<WeatherSummary>)
    ensures var limited := RateLimiter.ConsumeMulti(s, mode, Buckets(clientKey), now);
      && r.counters == limited.counters
      && (limited.outcome.Fail? ==> r.result == Failure(Api(RateLimitException(None))))
      && (limited.outcome.Pass? ==> r.result == ShapeCurrent(units, upstream))
    ensures r.result.Failure? && !r.result.error.Api? ==> r.result.error.Http?
    ensures r.result.Success? ==> RateLimiter.ConsumeMulti(s, mode, Buckets(clientKey), now).outcome.Pass?
  {
    var limited := RateLimiter.ConsumeMulti(s, mode, Buckets(clientKey), now);
    if limited.outcome.Fail? then Fetched(limited.counters, Failure(Api(limited.outcome.error)))
    else Fetched(limited.counters, ShapeCurrent(units, upstream))
  }

  /**
   * The body of the `try` in `fetchCurrent`, with its `catch`. `data` is
   * `None` for a `null` or missing body, the only ones on which `data.wind`
   * throws.
   */
  function ShapeCurrent(units: Units, upstream: Transport<Option<CurrentData>>): (r: Result<WeatherSummary, Thrown>)
    ensures r.Failure? ==> r.error.Http?
    ensures upstream.NoAnswer? ==> r == Failure(Http(HttpError(ProviderFailed, BadRequestStatus)))
    ensures upstream.Answer? && !(200 <= upstream.status < 500) ==>
      r == Failure(Http(if upstream.status == TooManyRequestsStatus then HttpError(UpstreamRateLimited, TooManyRequestsStatus)
                        else HttpError(ProviderFailed, BadRequestStatus)))
    ensures upstream.Answer? && 400 <= upstream.status < 500 ==>
      r == Failure(Http(UpstreamStatusError("Upstream current weather error", upstream.status)))
    ensures upstream.Answer? && 200 <= upstream.status < 400 && upstream.data.None? ==>
      r == Failure(Http(HttpError(InternalError, InternalServerErrorStatus)))
    ensures r.Success? <==> upstream.Answer? && 200 <= upstream.status < 400 && upstream.data.Some?
    ensures r.Success? ==> SummaryOf(upstream.data.value, units, r.value)
  {
    match AxiosGet(upstream)
    case Failure(e) => Failure(Http(HandleApiError(e)))
    case Success((status, data)) =>
      if status >= 400 then Failure(Http(HandleApiError(Http(UpstreamStatusError("Upstream current weather error", status)))))
      else match data
        case None => Failure(Http(HandleApiError(Unknown(true, "Cannot read properties of undefined (reading 'wind')"))))
        case Some(d) =>
          var w := d.wind.GetOr(Wind(None, None, None));
          Success(WeatherSummary(w.speed.GetOr(0.0), w.deg.GetOr(0.0), w.gust, d.dt, units))
  }

  /** The summary reports the provider's wind, 0 for a missing speed or bearing, and the requested units. */
  ghost predicate SummaryOf(d: CurrentData, units: Units, r: WeatherSummary) {
    && r.timestamp == d.dt && r.units == units
    && (d.wind.Some? && d.wind.value.speed.Some? ==> r.windSpeed == d.wind.value.speed.value)
    && (d.wind.None? || d.wind.value.speed.None? ==> r.windSpeed == 0.0)
    && (d.wind.Some? && d.wind.value.deg.Some? ==> r.windDeg == d.wind.value.deg.value)
    && (d.wind.None? || d.wind.value.deg.None? ==> r.windDeg == 0.0)
    && r.windGust == (if d.wind.Some? then d.wind.value.gust else None)
  }

  /** A body that is not an object, such as the empty string, reads as no wind and no time: a zero summary, not an error. */
  lemma NonObjectBodyIsZeroSummary(units: Units, status: int)
    requires 200 <= status < 400
    ensures ShapeCurrent(units, Answer(status, Some(CurrentData(None, None)))) ==
      Success(WeatherSummary(0.0, 0.0, None, None, units))
  {
  }

  /** A request over its quota is refused whatever the provider would have answered. */
  lemma LimitedFetchIgnoresProvider(s: RateLimiter.Counters, mode: RateLimiter.Mode, now: nat, units: Units,
                                    clientKey: Option<string>, a: Transport<Option<CurrentData>>, b: Transport<Option<CurrentData>>)
    requires RateLimiter.ConsumeMulti(s, mode, Buckets(clientKey), now).outcome.Fail?
    ensures FetchCurrent(s, mode, now, units, clientKey, a) == FetchCurrent(s, mode, now, units, clientKey, b)
    ensures FetchCurrent(s, mode, now, units, clientKey, a).result.error == Api(RateLimitException(None))
  {
  }

  // ------------------------------------------------------------- forecast

  /** One entry of the provider's `list`, with the fields its declared type makes mandatory. */
  datatype ListItem = ListItem(dt: int, temp: real, speed: real, deg: real, gust: Option<real>)

  /** The provider's forecast body; `None` for a missing `list`. */
  datatype ForecastData = ForecastData(list: Option<seq<ListItem>>)

  datatype WindForecast =
    | HourlyForecast(units: Units, hourly: seq<DailySummary.Point>)
    | DailyForecast(units: Units, daily: seq<DailySummary.Summary>)

  /** The point built from one list entry; the bearing is named on the 16-point compass. */
  function ToPoint(item: ListItem): (p: DailySummary.Point)
    ensures p.timestamp == item.dt && p.windSpeed == item.speed && p.windGust == item.gust
    ensures p.windDirectionDeg == Some(item.deg) && p.temperature == Some(item.temp)
    ensures Some(p.windDirection) == Compass.Direction16(Some(Finite(item.deg)))
  {
    var name := Compass.Direction16(Some(Finite(item.deg)));
    DailySummary.Point(Some(item.temp), item.speed, item.gust, Some(item.deg), name.value, item.dt)
  }

  function ToPoints(list: seq<ListItem>): (ps: seq<DailySummary.Point>)
    ensures |ps| == |list| && forall i :: 0 <= i < |list| ==> ps[i] == ToPoint(list[i])
  {
    seq(|list|, i requires 0 <= i < |list| => ToPoint(list[i]))
  }

  /** The number of hourly points kept: `min(points.length, ceil(range / 3))`. */
  function Steps(q: ForecastQuery, n: nat): int {
    Min(n, Ceil3(q.range.GetOr(DefaultRangeHours)))
  }

  /** `fetchForecast`: the limiter first, unwrapped; then the provider's answer, checked and shaped. */
  function FetchForecast(s: RateLimiter.Counters, mode: RateLimiter.Mode, now: nat, q: ForecastQuery,
                         clientKey: Option<string>, upstream: Transport<Option<ForecastData>>): (r: Fetched<WindForecast>)
    ensures var limited := RateLimiter.ConsumeMulti(s, mode, Buckets(clientKey), now);
      && r.counters == limited.counters
      && (limited.outcome.Fail? ==> r.result == Failure(Api(RateLimitException(None))))
      && (limited.outcome.Pass? ==> r.result == ShapeForecast(q, upstream))
  {
    var limited := RateLimiter.ConsumeMulti(s, mode, Buckets(clientKey), now);
    if limited.outcome.Fail? then Fetched(limited.counters, Failure(Api(limited.outcome.error)))
    else Fetched(limited.counters, ShapeForecast(q, upstream))
  }

  /** The body of the `try` in `fetchForecast`, with its `catch`. */
  function ShapeForecast(q: ForecastQuery, upstream: Transport<Option<ForecastData>>): (r: Result<WindForecast, Thrown>)
    ensures r.Failure? ==> r.error.Http?
    ensures upstream.Answer? && 400 <= upstream.status < 500 ==>
      r == Failure(Http(UpstreamStatusError("Upstream forecast error", upstream.status)))
    ensures upstream.Answer? && 200 <= upstream.status < 400 && !HasPoints(upstream.data) ==>
      r == Failure(Http(HttpError("Invalid forecast data", BadRequestStatus)))
    ensures r.Success? <==> upstream.Answer? && 200 <= upstream.status < 400 && HasPoints(upstream.data)
    ensures r.Success? ==> r.value.units == q.units && (r.value.HourlyForecast? <==> q.granularity == Hourly)
  {
    match AxiosGet(upstream)
    case Failure(e) => Failure(Http(HandleApiError(e)))
    case Success((status, data)) =>
      if status >= 400 then Failure(Http(HandleApiError(Http(UpstreamStatusError("Upstream forecast error", status)))))
      else if !HasPoints(data) then Failure(Http(HandleApiError(Http(HttpError("Invalid forecast data", 400)))))
      else
        var points := ToPoints(data.value.list.value);
        if q.granularity == Hourly then
          Success(HourlyForecast(q.units, Slice(points, Steps(q, |points|))))
        else
          Success(DailyForecast(q.units, Kept(DailySummary.DailyAverages(points), q.days)))
  }

  /** `data?.list?.length` is truthy. */
  predicate HasPoints(data: Option<ForecastData>) {
    data.Some? && data.value.list.Some? && |data.value.list.value| > 0
  }

  /**
   * With a range the query accepts, the hourly result is the first
   * `min(points, ceil(range / 3))` points of the provider's list, in order.
   */
  lemma HourlyIsPrefix(q: ForecastQuery, status: int, list: seq<ListItem>)
    requires q.granularity == Hourly && 200 <= status < 400 && |list| > 0
    requires q.range.None? || q.range.value > -3
    ensures var r := ShapeForecast(q, Answer(status, Some(ForecastData(Some(list)))));
      && r.Success? && r.value.HourlyForecast?
      && |r.value.hourly| == Min(|list|, Ceil3(q.range.GetOr(DefaultRangeHours)))
      && r.value.hourly == ToPoints(list)[..|r.value.hourly|]
  {
  }

  /** Twelve hours over forty points keep four of them. */
  lemma HourlyExample(list: seq<ListItem>)
    requires |list| == 40
    ensures var r := ShapeForecast(ForecastQuery(Metric, Hourly, Some(12), None), Answer(200, Some(ForecastData(Some(list)))));
      r.Success? && |r.value.hourly| == 4
  {
  }

  /** The summaries a daily forecast keeps: `slice(0, min(length, days))`, five days by default. */
  function Kept<T>(all: seq<T>, days: Option<int>): (kept: seq<T>)
    ensures days.None? || days.value >= 0 ==> kept == all[..Min(|all|, days.GetOr(DefaultDays))]
    ensures days.Some? && days.value < 0 ==> |kept| == Max(|all| + days.value, 0)
  {
    Slice(all, Min(|all|, days.GetOr(DefaultDays)))
  }

  /** A successful daily forecast keeps the first summaries of the days its points cover. */
  lemma DailyIsPrefix(q: ForecastQuery, status: int, list: seq<ListItem>)
    requires q.granularity == Daily && 200 <= status < 400 && |list| > 0
    ensures ShapeForecast(q, Answer(status, Some(ForecastData(Some(list))))) ==
      Success(DailyForecast(q.units, Kept(DailySummary.DailyAverages(ToPoints(list)), q.days)))
  {
    var data := Some(ForecastData(Some(list)));
    assert AxiosGet(Answer(status, data)) == Success((status, data));
    assert HasPoints(data);
  }

  /** The daily summaries kept are in strictly ascending date order. */
  lemma DailyAscending(all: seq<DailySummary.Summary>, days: Option<int>)
    requires forall i, j :: 0 <= i < j < |all| ==> all[i].day < all[j].day
    requires days.None? || days.value >= 0
    ensures var kept := Kept(all, days);
      forall i, j :: 0 <= i < j < |kept| ==> kept[i].day < kept[j].day
  {
  }

  // ------------------------------------------------------------ with SWR

  /** Objects are always truthy. */
  predicate Always<V>(v: V) {
    true
  }

  /** `getCurrentSummary`: the cache decides whether the fetch runs, under the current-weather key. */
  function CurrentSummary(c: CacheSwr.Cache<WeatherSummary>, lat: int, lon: int, units: Units, now: int): (r: CacheSwr.Served<WeatherSummary>)
    ensures r.status == CacheSwr.Classify(c, KeyCurrent(lat, lon, units), now, Always)
  {
    CacheSwr.GetOrRevalidate(c, KeyCurrent(lat, lon, units), now, Always)
  }

  /** The fetch behind a current-weather entry settles and is stored for 3 minutes fresh, 5 minutes in all. */
  function StoreCurrent(c: CacheSwr.Cache<WeatherSummary>, lat: int, lon: int, units: Units, job: string,
                        outcome: Result<WeatherSummary, Thrown>, now: int): CacheSwr.Cache<WeatherSummary> {
    CacheSwr.Complete(c, KeyCurrent(lat, lon, units), job, outcome, CurrentFreshSec, CurrentStaleSec, now)
  }

  /** The registry entry under which a read that is not fresh runs its factory. */
  function JobFor<V>(st: CacheSwr.Status<V>, key: string): string {
    if st.Stale? then CacheSwr.RefreshJob(key) else CacheSwr.MissJob(key)
  }

  /**
   * One read through the cache, followed to settlement: what the cache served,
   * the limiter's counters, the factory's outcome when the factory was called,
   * and the cache once that outcome has settled.
   */
  datatype Round<V> = Round(served: CacheSwr.Served<V>, counters: RateLimiter.Counters,
                            fetched: Option<Result<V, Thrown>>, cache: CacheSwr.Cache<V>)

  /**
   * `getCurrentSummary(lat, lon, units, clientKey)`: the cache reads the entry at
   * `now`. A fresh entry calls nothing. Otherwise the factory
   * `fetchCurrent(lat, lon, units, clientKey)` runs under the job the cache
   * registers, unless that job is already pending, and its outcome settles into
   * the entry at `settled`.
   */
  function GetCurrentSummary(c: CacheSwr.Cache<WeatherSummary>, s: RateLimiter.Counters, mode: RateLimiter.Mode,
                             now: nat, settled: int, lat: int, lon: int, units: Units, clientKey: Option<string>,
                             upstream: Transport<Option<CurrentData>>): (r: Round<WeatherSummary>)
    ensures r.served == CurrentSummary(c, lat, lon, units, now)
    ensures r.fetched.Some? <==>
      !r.served.status.Fresh? && JobFor(r.served.status, KeyCurrent(lat, lon, units)) !in c.jobs.inflight
    ensures r.fetched.None? ==> r.counters == s && r.cache == r.served.cache
    ensures r.fetched.Some? ==>
      var f := FetchCurrent(s, mode, now, units, clientKey, upstream);
      && r.fetched.value == f.result && r.counters == f.counters
      && r.cache == StoreCurrent(r.served.cache, lat, lon, units, JobFor(r.served.status, KeyCurrent(lat, lon, units)), f.result, settled)
  {
    var key := KeyCurrent(lat, lon, units);
    var served := CurrentSummary(c, lat, lon, units, now);
    var job := JobFor(served.status, key);
    if served.status.Fresh? || job in c.jobs.inflight then Round(served, s, None, served.cache)
    else
      var f := FetchCurrent(s, mode, now, units, clientKey, upstream);
      Round(served, f.counters, Some(f.result), StoreCurrent(served.cache, lat, lon, units, job, f.result, settled))
  }

  /**
   * The factory the cache calls for a current-weather entry is `fetchCurrent`
   * with the same arguments. A caller who found nothing waits on exactly that
   * invocation. Once it settles, its job is no longer pending. A summary it
   * produced is what the entry then serves, fresh. A failure leaves the stored
   * value and flag as they were.
   */
  lemma CurrentFetchSettles(c: CacheSwr.Cache<WeatherSummary>, s: RateLimiter.Counters, mode: RateLimiter.Mode,
                            now: nat, settled: int, lat: int, lon: int, units: Units, clientKey: Option<string>,
                            upstream: Transport<Option<CurrentData>>)
    requires GetCurrentSummary(c, s, mode, now, settled, lat, lon, units, clientKey, upstream).fetched.Some?
    ensures var r := GetCurrentSummary(c, s, mode, now, settled, lat, lon, units, clientKey, upstream);
      var f := FetchCurrent(s, mode, now, units, clientKey, upstream);
      && (r.served.status.Missing? ==>
            r.served.reply == CacheSwr.Awaiting(|c.jobs.started|)
            && r.served.cache.jobs.started == c.jobs.started + [CacheSwr.MissJob(KeyCurrent(lat, lon, units))])
      && JobFor(r.served.status, KeyCurrent(lat, lon, units)) !in r.cache.jobs.inflight
      && (f.result.Success? ==> CurrentSummary(r.cache, lat, lon, units, settled).status == CacheSwr.Fresh(f.result.value))
      && (f.result.Failure? ==> r.cache.values == c.values && r.cache.flags == c.flags)
  {
  }

  /** A current-weather summary fetched at t0 is served fresh until t0+180, stale until t0+300, then refetched. */
  lemma CurrentTimeline(c: CacheSwr.Cache<WeatherSummary>, lat: int, lon: int, units: Units, job: string,
                        v: WeatherSummary, t0: int, t: int)
    requires t0 <= t
    ensures var c' := StoreCurrent(c, lat, lon, units, job, Success(v), t0);
      var st := CurrentSummary(c', lat, lon, units, t).status;
      && (t < t0 + 180 ==> st == CacheSwr.Fresh(v))
      && (t0 + 180 <= t < t0 + 300 ==> st == CacheSwr.Stale(v))
      && (t0 + 300 <= t ==> st == CacheSwr.Missing)
  {
    CacheSwr.Timeline<WeatherSummary, Thrown>(c, KeyCurrent(lat, lon, units), job, v, CurrentFreshSec, CurrentStaleSec, t0, t, Always);
  }

  /** `getWindForecast`: the cache decides whether the fetch runs, under the query's forecast key. */
  function WindForecastRead(c: CacheSwr.Cache<WindForecast>, lat: int, lon: int, q: ForecastQuery, now: int): (r: CacheSwr.Served<WindForecast>)
    ensures r.status == CacheSwr.Classify(c, QueryKey(lat, lon, q), now, Always)
  {
    CacheSwr.GetOrRevalidate(c, QueryKey(lat, lon, q), now, Always)
  }

  /** The fetch behind a forecast entry settles and is stored for 10 minutes fresh, 15 minutes in all. */
  function StoreForecast(c: CacheSwr.Cache<WindForecast>, lat: int, lon: int, q: ForecastQuery, job: string,
                         outcome: Result<WindForecast, Thrown>, now: int): CacheSwr.Cache<WindForecast> {
    CacheSwr.Complete(c, QueryKey(lat, lon, q), job, outcome, ForecastFreshSec, ForecastStaleSec, now)
  }

  /**
   * `getWindForecast(lat, lon, query, clientKey)`: as `GetCurrentSummary`, under
   * the query's forecast key, with `fetchForecast(lat, lon, query, clientKey)`
   * as the factory.
   */
  function GetWindForecast(c: CacheSwr.Cache<WindForecast>, s: RateLimiter.Counters, mode: RateLimiter.Mode,
                           now: nat, settled: int, lat: int, lon: int, q: ForecastQuery, clientKey: Option<string>,
                           upstream: Transport<Option<ForecastData>>): (r: Round<WindForecast>)
    ensures r.served == WindForecastRead(c, lat, lon, q, now)
    ensures r.fetched.Some? <==>
      !r.served.status.Fresh? && JobFor(r.served.status, QueryKey(lat, lon, q)) !in c.jobs.inflight
    ensures r.fetched.None? ==> r.counters == s && r.cache == r.served.cache
    ensures r.fetched.Some? ==>
      var f := FetchForecast(s, mode, now, q, clientKey, upstream);
      && r.fetched.value == f.result && r.counters == f.counters
      && r.cache == StoreForecast(r.served.cache, lat, lon, q, JobFor(r.served.status, QueryKey(lat, lon, q)), f.result, settled)
  {
    var key := QueryKey(lat, lon, q);
    var served := WindForecastRead(c, lat, lon, q, now);
    var job := JobFor(served.status, key);
    if served.status.Fresh? || job in c.jobs.inflight then Round(served, s, None, served.cache)
    else
      var f := FetchForecast(s, mode, now, q, clientKey, upstream);
      Round(served, f.counters, Some(f.result), StoreForecast(served.cache, lat, lon, q, job, f.result, settled))
  }

  /**
   * The factory the cache calls for a forecast entry is `fetchForecast` with the
   * same arguments; a caller who found nothing waits on that invocation; once
   * it settles its job is no longer pending, a forecast it produced is served
   * fresh under the query's key, and a failure leaves the entry as it was.
   */
  lemma ForecastFetchSettles(c: CacheSwr.Cache<WindForecast>, s: RateLimiter.Counters, mode: RateLimiter.Mode,
                             now: nat, settled: int, lat: int, lon: int, q: ForecastQuery, clientKey: Option<string>,
                             upstream: Transport<Option<ForecastData>>)
    requires GetWindForecast(c, s, mode, now, settled, lat, lon, q, clientKey, upstream).fetched.Some?
    ensures var r := GetWindForecast(c, s, mode, now, settled, lat, lon, q, clientKey, upstream);
      var f := FetchForecast(s, mode, now, q, clientKey, upstream);
      && (r.served.status.Missing? ==>
            r.served.reply == CacheSwr.Awaiting(|c.jobs.started|)
            && r.served.cache.jobs.started == c.jobs.started + [CacheSwr.MissJob(QueryKey(lat, lon, q))])
      && JobFor(r.served.status, QueryKey(lat, lon, q)) !in r.cache.jobs.inflight
      && (f.result.Success? ==> WindForecastRead(r.cache, lat, lon, q, settled).status == CacheSwr.Fresh(f.result.value))
      && (f.result.Failure? ==> r.cache.values == c.values && r.cache.flags == c.flags)
  {
  }

  /** A forecast fetched at t0 is served fresh until t0+600, stale until t0+900, then refetched. */
  lemma ForecastTimeline(c: CacheSwr.Cache<WindForecast>, lat: int, lon: int, q: ForecastQuery, job: string,
                         v: WindForecast, t0: int, t: int)
    requires t0 <= t
    ensures var c' := StoreForecast(c, lat, lon, q, job, Success(v), t0);
      var st := WindForecastRead(c', lat, lon, q, t).status;
      && (t < t0 + 600 ==> st == CacheSwr.Fresh(v))
      && (t0 + 600 <= t < t0 + 900 ==> st == CacheSwr.Stale(v))
      && (t0 + 900 <= t ==> st == CacheSwr.Missing)
  {
    CacheSwr.Timeline<WindForecast, Thrown>(c, QueryKey(lat, lon, q), job, v, ForecastFreshSec, ForecastStaleSec, t0, t, Always);
  }
}

=== FILE: wrappers.dfy ===
/** Failure-carrying result types shared by every module of the model. */
module Wrappers {

  /** A value that may be missing: JavaScript's `undefined`/`null` or an absent map entry. */
  datatype Option<+T> = None | Some(value: T) {

    /** The carried value, or `default` when there is none (JavaScript's `??`). */
    function GetOr(default: T): T {
      match this
      case Some(v) => v
      case None => default
    }
  }

  /** The outcome of an operation that either produces a value or throws. */
  datatype Result<+R, +E> = Success(value: R) | Failure(error: E) {

    predicate IsFailure() {
      Failure?
    }

    function PropagateFailure<U>(): Result<U, E>
      requires Failure?
    {
      Failure(error)
    }

    function Extract(): R
      requires Success?
    {
      value
    }
  }

  /** The outcome of an operation that returns nothing or throws. */
  datatype Outcome<+E> = Pass | Fail(error: E)
}
